=== FILE: README.md ===
# Call Report pipeline — a Dafny model

This project models the processing core of a pipeline that builds
bank-level quarterly Call Report panels. The pipeline has these stages:

- **Download.** It fetches the Chicago Fed's quarterly ZIP archives for a range of years (`download.py`).
- **Data dictionary.** It turns the Federal Reserve's MDRM export into a variable dictionary (`03_parse_dictionary.py`).
- **Chicago Fed files.** It turns the SAS XPORT files into one table per quarter. `parse_chicago.py` writes one table for every reporter. `04_parse_chicago.py` splits each quarter by entity type, which it reads from the RSSD9331 code.
- **FFIEC bulk files.** It parses the FFIEC bulk schedules into one table per quarter. `parse_ffiec.py` keeps every column. `05_parse_ffiec.py` applies a column filter based on the reporting forms.
- **Summary.** It summarises the written quarters and reports the quarters missing from each series (`summarize.py`, `06_summarize.py`).

Every stage is a pure function or a short method over immutable values:

- **Tables.** A table is a list of column names and a list of rows. A row maps column names to cells. A cell is a number, a text, a timestamp or missing.
- **Dates.** A date is a (year, month, day) triple.
- **Names.** A file name is a string.

The model leaves out the file system, pandas, pyarrow and the network. Each outside effect becomes a parameter:

- **Reads.** Reading a file with an encoding is a function from the encoding to an outcome: read, decode failure or other failure.
- **Writes and downloads.** A write or download is a function from the path to success or failure.
- **Existing outputs.** The outputs already on disk are a set of names.
- **Conversions.** `pd.to_numeric`, `pd.to_datetime` and `html.unescape` are given as parameters.

Modules follow the program's structure:

| module | file | models |
|---|---|---|
| `Common` | common.dfy | optional values, dates, the inclusive optional date window, the encoding-fallback read, ASCII case mapping, decimals |
| `Tables` | tables.dfy | cells, rows, tables, column upper-casing, moving metadata columns to the front |
| `Selection` | selection.dfy | selecting columns by label when labels repeat (`df[labels]`), and the rule that a parquet write needs distinct names |
| `Sorting` | sorting.dfy | sorting by a total preorder, with no promise about the order of equal elements (`sorted`, `sort_values`), and string order |
| `Periods` | periods.dfy | quarters, and reading the reporting period from a Chicago Fed or FFIEC file name |
| `Download` | download.dfy | the quarter list, saved names, the download loop, year validation |
| `DataDictionary` | dictionary.dfy | `clean_description`, column-role detection, deduplication by end date, the dictionary |
| `ChicagoParse` | chicago.dfy | `extract_raw_quarter`, the per-file status, the sequential and parallel drivers |
| `ChicagoEntities` | entities.dfy | the entity split of `process_quarter`, file selection, per-entity statistics |
| `Schema` | schema.dfy | the dictionary cache and the description metadata written into parquet schemas |
| `FfiecParse` | ffiec.dfy | schedule parsing, the outer join of schedules, the standard layout, the driver |
| `FfiecFilter` | ffiec_filter.dfy | `filter_columns` and the driver of `05_parse_ffiec.py` |
| `Summary` | summary.dfy | file summaries, date filtering, ordering, gap detection |
| `PeriodExamples` | period_examples.dfy | concrete file names and the periods read from them |

Where a docstring or comment disagrees with the code, the model follows the code:

- **The 05 column filter.** The comment in `05_parse_ffiec.py` (line 565) says the filter keeps columns that are on the form AND non-null. The code (lines 96-98) keeps a column when it is on the form OR has data.
- **"Ensure we don't go beyond" in `download.py`.** The window is clamped. A range that clamps to nothing still fails on `quarters[0]`, and the model returns `None` for it.

## Model

| member | source | states |
|---|---|---|
| Common.FirstRead | parse_chicago.py:81-97 | the encoding loop returns the value of the first successful read, provided every earlier encoding failed with a decode error; otherwise nothing |
| Periods.QuarterOfMonth | parse_ffiec.py:55-65 | months 1-3, 4-6, 7-9 and 10-12 fall in quarters 1 to 4 |
| Periods.NextQuarter | 06_summarize.py:427-433 | the expected next quarter is exactly one quarter later on the quarter index (Q4 rolls into Q1 of the next year) |
| Periods.QuarterIndexInjective | 06_summarize.py:436 | two valid quarters with the same index are the same (year, quarter) pair, so comparing indices is comparing labels |
| Periods.ChicagoDigitsAt | parse_chicago.py:39 | `call?p?(\d{2})(\d{2})` matches at a position exactly when the function returns the offset of the four digits |
| Periods.FirstChicagoMatch | parse_chicago.py:39-40 | `re.search` finds the leftmost match, and no earlier position matches |
| Periods.ChicagoDate | parse_chicago.py:44-61 | two-digit years 76-99 go to the 1900s and 00-75 to the 2000s; only months 03, 06, 09 and 12 give a date, which is that quarter's last day |
| Periods.InferChicago | parse_chicago.py:24-65 | a period read from a Chicago file name is a quarter-end date between 1976 and 2075 |
| Periods.InferChicagoLeftmost | parse_chicago.py:24-65 | the period is read from the leftmost match in the lower-cased name; a name without a match gives None; conversely, a match with no match before it decides the period |
| Periods.FirstDigitWindow | parse_ffiec.py:45-71 | both searches find the same leftmost run of eight digits, with no eight-digit window before it |
| Periods.ExtractQuarter | parse_ffiec.py:29-96 | a period read from an FFIEC name has a year in 1985..2030 and a quarter in 1..4 |
| Periods.ExtractQuarterLeftmost | parse_ffiec.py:44-96 | only the leftmost eight-digit window is read; a period is found exactly when one of its two readings is plausible; MMDDYYYY wins when plausible, else YYYYMMDD, and the quarter is the month's calendar quarter |
| Periods.FfiecReportingDate | 05_parse_ffiec.py:562 | the FFIEC reporting timestamp is the first day of the quarter's last month, so it lies in the quarter but is not its quarter-end date |
| PeriodExamples.FfiecYyyymmddName | parse_ffiec.py:29-96 | `FFIEC_20240630.txt` is read as 2024 Q2 |
| PeriodExamples.FfiecMmddyyyyName | parse_ffiec.py:29-96 | the bulk name ending `03312011.zip` is read as 2011 Q1 |
| PeriodExamples.FfiecLeftmostWindowOnly | parse_ffiec.py:45-96 | an implausible leftmost window hides a valid later one: the name gives None |
| PeriodExamples.ChicagoPlainName | parse_chicago.py:24-65 | `call9203.xpt` gives 1992-03-31 |
| PeriodExamples.ChicagoPVariant | parse_chicago.py:29-39 | the second `l` is optional and a `p` may follow, so `calp8503.xpt` gives 1985-03-31 |
| PeriodExamples.ChicagoUpperCaseName | parse_chicago.py:36-39 | the name is lower-cased first, so `CALL0012.xpt` gives 2000-12-31 |
| Tables.UpperAll | parse_chicago.py:121 | upper-casing the column names keeps their number and position |
| Tables.UpperRowCellOf | parse_chicago.py:121 | when upper-casing makes no two names collide, each cell is found under the upper-cased name of its column |
| Tables.Without | parse_chicago.py:126 | the other columns are those not moved to the front, in their original order |
| Tables.MoveToFront | parse_chicago.py:123-127 | moving the metadata columns to the front keeps exactly the same set of columns and introduces no duplicate |
| Selection.SelectCount | parse_chicago.py:127 | selecting by a list of labels brings a label as many times as it is requested times the number of columns carrying it |
| Selection.FrontLayoutCounts | parse_chicago.py:123-127 | when each front name is requested once and every other name as often as the frame holds it, a front name appears as often as the frame holds it and any other name as often as the square of that |
| Selection.FrontLayoutDistinct | parse_chicago.py:123-127 | such a selection repeats a name exactly when the frame's labels repeat one |
| Selection.FrontLayoutSelectsLabels | parse_chicago.py:123-127 | over distinct labels such a selection is the requested list itself |
| Selection.MoveToFrontLayout | parse_chicago.py:123-127 | the list the metadata move requests asks once for each metadata name present and for every other name as often as the frame holds it |
| Sorting.SortBy | summarize.py:235 | sorting gives an ordered permutation of its input |
| Sorting.StrLeIsTotalPreorder | parse_chicago.py:206 | Python's string order on names is total and transitive |
| Sorting.SortStrings | parse_ffiec.py:374-385 | `sorted` on names gives an ordered permutation |
| Download.SavedNameShape | download.py:109-114 | the saved archive is `call` + two-digit year + two-digit month + `.zip` |
| Download.SavedNameRoundTrip | download.py:109-114 | reading the period back from the saved name of a quarter-end date between 1976 and 2075 gives that date |
| Download.QuarterEndOf | download.py:93-97 | the quarter-end date of a quarter is a quarter end that lies in that quarter |
| Download.QuarterEndOrder | download.py:93-97 | quarter-end dates are ordered exactly as their quarter indices |
| Download.WindowStart | download.py:86-90 | the clamped start is a quarter end no earlier than 1976-03-31 |
| Download.WindowEnd | download.py:87-91 | the clamped end is a quarter end no later than 2021-06-30 |
| Download.RequestedQuarters | download.py:86-97 | the requested dates are exactly the quarter ends inside the clamped window, each followed by the next quarter's end |
| Download.RequestedArePublished | download.py:89-91 | nothing before 1976-03-31 or after 2021-06-30 is requested |
| Download.FetchAll | download.py:106-139 | every requested quarter is listed exactly once, as a download or as a failure; the files on disk only grow; every archive listed as downloaded is on disk afterwards |
| Download.FetchAllListsQuarter | download.py:106-139 | each quarter is listed; it is listed as downloaded when its archive was already on disk or its request succeeded |
| Download.FetchAllDownloadedSound | download.py:114-135 | a listed download is the saved name of a requested quarter that was on disk before or whose request began writing it |
| Download.FetchAllFailedSound | download.py:112-139 | a listed failure is the request name of a quarter whose archive was not on disk and whose request did not succeed |
| Download.FetchAllPresent | download.py:114-135 | the files on disk afterwards are those before plus the saved name of every quarter whose request got as far as opening the output file |
| Download.DownloadChicago | download.py:62-161 | the function fails exactly when a year is outside the pandas timestamp range (1678-2262 for the start, 1677-2261 for the end) or the clamped window holds no quarter, and otherwise accounts for every requested quarter |
| Download.ValidateYears | download.py:214-230 | the command line is rejected exactly when the start year is after 2021, the end year before 1976, or start after end; otherwise the clamped range lies inside 1976-2021 and inside the request |
| Download.ValidatedRangeNonEmpty | download.py:214-235 | a validated range requests at least one quarter, starting at March 31 of the start year, and its years are inside the timestamp range |
| DataDictionary.NormalizeSpace | 03_parse_dictionary.py:59-60 | collapsing whitespace runs and stripping gives the words of the text joined by single spaces |
| DataDictionary.CollapseStripIsJoin | 03_parse_dictionary.py:59-60 | `re.sub(r'\s+', ' ', s).strip()` equals joining the whitespace-separated words with one space |
| DataDictionary.StripTagsTagFree | 03_parse_dictionary.py:56-57 | after removing `<...>` tags no tag remains |
| DataDictionary.StripTagsIdempotent | 03_parse_dictionary.py:56-57 | removing tags twice is removing them once |
| DataDictionary.CleanDescription | 03_parse_dictionary.py:48-62 | a non-text value cleans to ""; a text cleans to the words of its unescaped, tag-free form joined by single spaces |
| DataDictionary.ScanRolesIsLast | 03_parse_dictionary.py:94-103 | the header loop assigns each role the last column whose name fits it |
| DataDictionary.ResolveRoles | 03_parse_dictionary.py:94-124 | the roles are found exactly when a mnemonic and a description column are found by header or fallback name; a detected header is the last column fitting its role and wins over the fallbacks; without one, the mnemonic, description and item code are the first present fallback names; the end-date column is the last one detected |
| DataDictionary.FullVariable | 03_parse_dictionary.py:138-144 | the variable is the mnemonic followed by the item code when an item-code column exists |
| DataDictionary.Entries | 03_parse_dictionary.py:132-150 | the entries are exactly those of rows whose mnemonic is a Call Report prefix |
| DataDictionary.KeepRanks | 03_parse_dictionary.py:153-154 | after one more entry is folded in, the entry kept for its variable has an end date no earlier than the new entry's and the previously kept one's |
| DataDictionary.Dedup | 03_parse_dictionary.py:153-154 | exactly one entry per variable survives, and no entry of that variable has a later end date (a missing end date ranks above every date) |
| DataDictionary.KeyUnique | 03_parse_dictionary.py:154 | after deduplication no two entries share a variable |
| DataDictionary.Described | 03_parse_dictionary.py:159-168 | every output row has a non-empty, whitespace-normalised description, and there are no more rows than kept entries |
| DataDictionary.DescribedMembers | 03_parse_dictionary.py:159-168 | the output rows are exactly the upper-cased, cleaned kept entries whose description is non-empty |
| DataDictionary.ParseDictionary | 03_parse_dictionary.py:65-194 | missing roles raise the error; otherwise the output is the cleaned, deduplicated Call Report rows, sorted by variable, each with a normalised non-empty description, and no longer than the input |
| DataDictionary.DictionaryRowOrigin | 03_parse_dictionary.py:132-173 | every output row comes from an input row of that variable with the latest end date |
| DataDictionary.DictionaryComplete | 03_parse_dictionary.py:132-173 | every Call Report variable keeps a definition, and it appears in the output when its description is non-empty |
| DataDictionary.ReadMdrm | 03_parse_dictionary.py:75-82 | the export is read with UTF-8, then Latin-1, then cp1252; a table is returned exactly when some encoding reads after every earlier one failed to decode, and it is that encoding's table |
| DataDictionary.BuildDictionary | 03_parse_dictionary.py:75-124 | an unreadable export gives no dictionary; otherwise the dictionary is the parse of the table read with the first encoding that reads, every earlier one having failed to decode |
| DataDictionary.BuildDictionaryLatin1 | 03_parse_dictionary.py:75-82 | when UTF-8 fails to decode and Latin-1 reads, the dictionary is built from the Latin-1 table |
| DataDictionary.BuildDictionaryOtherFailure | 03_parse_dictionary.py:75-82 | an error other than a decode error on the UTF-8 read is not caught by the loop, so no dictionary is built |
| ChicagoParse.ReadXport | parse_chicago.py:81-97 | the XPORT file is read with the default encoding, then latin1, cp1252 and iso-8859-1, the first that reads winning |
| ChicagoParse.FirstIdCandidate | parse_chicago.py:110-118 | the fallback id column is the first whose upper-cased name contains RSSD and is neither RSSD9999 nor RSSDDATE; no earlier column qualifies |
| ChicagoParse.ChooseIdSource | parse_chicago.py:102-118 | RSSD9001 wins over IDRSSD, which wins over an existing RSSD_ID, which wins over the first fallback candidate; no id is added exactly when no column is a candidate |
| ChicagoParse.StampRow | parse_chicago.py:100-110 | the period cell is set to the file's date and the id is copied from the chosen column; every other cell is kept |
| ChicagoParse.ExtractRawColumns | parse_chicago.py:100-127 | when no two names collide after upper-casing, the output columns are REPORTING_PERIOD, then RSSD_ID when an id exists, then the other upper-cased columns in order; in every case a metadata label appears as often as the upper-cased names hold it and any other label as often as the square of that, and the table is writable exactly when nothing collides |
| ChicagoParse.ExtractRawWritable | parse_chicago.py:121-127 | the extracted table repeats a column name exactly when two of the frame's names upper-case to one label |
| ChicagoParse.LowerCaseIdExample | parse_chicago.py:108-127 | a file with columns `rssd_id` and `X` extracts to REPORTING_PERIOD, RSSD_ID, RSSD_ID, X and cannot be written |
| ChicagoParse.MetadataPresence | parse_chicago.py:123-126 | only metadata columns that exist are moved to the front |
| ChicagoParse.WithMetadataCaseDistinct | parse_chicago.py:121 | if no two input names collide under upper-casing, none do after the metadata columns are added |
| ChicagoParse.ExtractRawCells | parse_chicago.py:100-127 | each output row carries the file's period, the id from the chosen column, and every other cell under its upper-cased name |
| ChicagoParse.ExtractRawQuarter | parse_chicago.py:68-133 | the quarter extracts exactly when some encoding reads the file, and the table is the raw extraction of what was read |
| ChicagoParse.ProcessFile | parse_chicago.py:136-181 | a file is skipped exactly when its name gives no period or the period is outside the window; it is an error exactly when it is selected and the read fails, its names collide after upper-casing, or the write fails; a success carries the quarter label |
| ChicagoParse.SavedNameIsProcessed | parse_chicago.py:136-181 | a file saved by the downloader for a quarter inside the window, which reads and writes, is processed under that quarter's label unless its names collide after upper-casing, and is an error if they do |
| ChicagoParse.Tally | parse_chicago.py:274-282 | the three counters add up to the number of statuses |
| ChicagoParse.TallyCounts | parse_chicago.py:274-282 | the three counters are exactly the numbers of successes, skips and errors among the statuses |
| ChicagoParse.TallyAllSkipped | parse_chicago.py:274-282 | when every file is skipped, the counters are zero processed, all skipped, zero errors |
| ChicagoParse.RunParallel | parse_chicago.py:257-284 | the parallel counters add up to the number of files |
| ChicagoParse.SequentialStep | parse_chicago.py:231-256 | a sequential step aborts exactly when its write fails, its names colliding after upper-casing or the write itself failing; otherwise it agrees with the parallel status |
| ChicagoParse.RunSequential | parse_chicago.py:226-256 | the sequential run aborts exactly when some selected, readable file fails to write, colliding names included; otherwise its counters equal the parallel ones |
| ChicagoEntities.EntityOfCode | 04_parse_chicago.py:103-119 | an RSSD9331 code names an entity type exactly when it is in that type's code set |
| ChicagoEntities.BelongsToOne | 04_parse_chicago.py:103-119 | a row belongs to at most one entity type, and to none when its code is in no set |
| ChicagoEntities.Partition | 04_parse_chicago.py:242 | an entity's table holds exactly the rows with one of its codes |
| ChicagoEntities.PartitionsFit | 04_parse_chicago.py:237-257 | the three entity tables together hold no more rows than the quarter |
| ChicagoEntities.Written | 04_parse_chicago.py:236-259 | an entity is reported exactly when it applies to the period and has rows, with its row count |
| ChicagoEntities.ProcessQuarter | 04_parse_chicago.py:170-263 | a quarter is skipped exactly when it is not forced and all outputs exist; only entity types that apply to the period are reported |
| ChicagoEntities.NoCommercialBanksAfterCutoff | 04_parse_chicago.py:239-240 | after 2010-12-31 no commercial-bank output is written |
| ChicagoEntities.ProcessQuarterRecords | 04_parse_chicago.py:190-263 | without RSSD9331, or with names that collide after upper-casing, nothing is reported; with it, no collision and successful writes, exactly the applicable non-empty entity tables are reported with their sizes, in total no more than the rows read |
| ChicagoEntities.SelectFiles | 04_parse_chicago.py:315-327 | the quarters processed are the named files with a period inside the window, sorted by period |
| ChicagoEntities.StatsFor | 04_parse_chicago.py:351-362 | an entity type's skipped count is the number of skipped quarters, its processed count the number of quarters reporting it, and its record count the sum of the records they report for it |
| ChicagoEntities.QuarterWrites | 04_parse_chicago.py:177-259 | a skipped pass writes nothing; every entity type a pass reports has its output written; every file written is the output of an entity type applicable to the period |
| ChicagoEntities.RunEntities | 04_parse_chicago.py:352-353 | one result per selected file, in period order, each pass seeing the outputs earlier passes wrote; a forced run skips no quarter, and only applicable entity types are reported |
| ChicagoEntities.DiskAfterQuartersGrows | 04_parse_chicago.py:352-353 | a later pass of the run sees every output an earlier pass saw |
| ChicagoEntities.RepeatedQuarterSkipped | 04_parse_chicago.py:177-188 | without `--force`, a later file of the same period is skipped once an earlier one was skipped or wrote every applicable entity type |
| ChicagoEntities.NoCommercialBankStatsAfterCutoff | 04_parse_chicago.py:351-362 | when every selected quarter is after 2010-12-31 the commercial-bank statistics stay zero |
| Schema.ZipMap | 04_parse_chicago.py:67 | `dict(zip(...))` has exactly the keys of the pairs up to the shorter list |
| Schema.ZipMapLastWins | 04_parse_chicago.py:67 | a key maps to the value paired with its last occurrence among the paired keys |
| Schema.LoadDictionary | 05_parse_ffiec.py:47-68 | a loaded cache is reused; a missing or unreadable file gives empty mappings; a read file fills the caches |
| Schema.LoadDictionaryCached | 05_parse_ffiec.py:51-52 | once non-empty descriptions are loaded, every later call returns the same mappings |
| Schema.DescribeField | 05_parse_ffiec.py:110-121 | a field gains its description under `description` unless it already has one; name, type and nullability are kept |
| Schema.DescribeSchema | 05_parse_ffiec.py:103-129 | the schema keeps its fields in order with their names, types, nullability and every metadata value; a field gains only the key `description`, exactly when it had none and the dictionary describes it, and then holds that description |
| Schema.DescribeSchemaWithoutDictionary | 04_parse_chicago.py:74-100 | with no descriptions the schema is unchanged |
| FfiecParse.FirstIdIndex | parse_ffiec.py:231-236 | the id column is the first whose upper-cased name contains RSSD, and none is found exactly when no name does |
| FfiecParse.Coerce | parse_ffiec.py:259 | a numeric column's cells become numbers or missing |
| FfiecParse.IdentifiedRows | parse_ffiec.py:247-251 | exactly the rows whose id parses as a number are kept |
| FfiecParse.NumericColumns | parse_ffiec.py:254-259 | a column is converted exactly when every kept cell parses as a number |
| FfiecParse.ScheduleCoercion | parse_ffiec.py:254-259 | a non-id column is converted in every kept row when every kept cell is numeric, and is left as read in every row otherwise |
| FfiecParse.ParseSchedule | parse_ffiec.py:194-269 | a schedule parses exactly when it was read and has an id column; the result has the RSSD_ID column, at most the input rows, and a numeric id in every row |
| FfiecParse.ScheduleIds | parse_ffiec.py:244-251 | the ids of a parsed schedule are exactly the numeric ids of the input |
| FfiecParse.MemberTable | parse_ffiec.py:141-156 | a ZIP member contributes exactly when its name ends in .txt or .csv, it decodes as UTF-8, and it parses to a non-empty table |
| FfiecParse.MergedColumns | parse_ffiec.py:166-171 | the joined columns are the left columns and the new right columns, with no `_dup` suffix; the left columns come first |
| FfiecParse.Merge | parse_ffiec.py:167-171 | the outer join on RSSD_ID holds exactly the ids of both sides |
| FfiecParse.MergeAll | parse_ffiec.py:164-171 | merging all schedules holds exactly the union of their ids; a single schedule is returned as it is |
| FfiecParse.MergeAllMembership | parse_ffiec.py:164-171 | a merged column is in the first schedule or a later one, and never has the `_dup` suffix |
| FfiecParse.ParseZip | parse_ffiec.py:124-175 | an archive gives nothing exactly when no member parses |
| FfiecParse.ParseZipIds | parse_ffiec.py:158-175 | the ids of a parsed archive are exactly those of the members that parse |
| FfiecParse.ParseZipHasKey | parse_ffiec.py:164-175 | a parsed archive has the RSSD_ID column |
| FfiecParse.ParseBulk | parse_ffiec.py:99-121 | a name whose `Path.suffix` is `.zip` in any case is parsed as an archive and anything else as one text schedule; a result always has RSSD_ID |
| FfiecParse.IsZipNameIff | parse_ffiec.py:118 | the suffix test holds exactly when the name ends in `.zip` in any case after a non-empty stem |
| FfiecParse.DotZipIsText | parse_ffiec.py:118 | a file named just `.zip` has an empty suffix and is parsed as text, while `call.ZIP` is an archive |
| FfiecParse.ToStandard | parse_ffiec.py:272-295 | conversion fails exactly when no column upper-cases to RSSD_ID; otherwise the rows are kept, RSSD_ID or REPORTING_PERIOD appears as often as the upper-cased names hold it and any other label as often as the square of that, the result is writable exactly when no two names collide, and without a collision RSSD_ID and REPORTING_PERIOD lead, then the other upper-cased columns sorted |
| FfiecParse.RepeatedCodeExample | parse_ffiec.py:284-293 | columns RSSD_ID, `rcon1` and RCON1 convert to a table holding RCON1 four times, which cannot be written |
| FfiecParse.ToStandardCells | parse_ffiec.py:284-293 | each row gets the period stamp and keeps every other cell under its upper-cased name |
| FfiecParse.ParsedFramesConvert | parse_ffiec.py:272-295 | every parsed table converts to the standard layout |
| FfiecParse.FilesToProcess | parse_ffiec.py:374-385 | the files processed are exactly the bulk ZIP and text names, sorted |
| FfiecParse.Converted | parse_ffiec.py:421-441 | a file converts exactly when it parses to a non-empty table whose names do not collide after upper-casing; a converted table has distinct names, RSSD_ID and REPORTING_PERIOD first |
| FfiecParse.MainStep | parse_ffiec.py:401-444 | an existing output counts as processed; a name without a period is an error; otherwise success needs a conversion and a write |
| FfiecParse.WriteOf | parse_ffiec.py:403-434 | a pass writes its quarter's output exactly when the name gives a quarter, the file converts and the write succeeds |
| FfiecParse.DiskAfterMembers | parse_ffiec.py:401-444 | an output is on disk after the passes exactly when it was there before the run or one of the passes wrote it |
| FfiecParse.MainOutcomeProcessed | parse_ffiec.py:401-444 | a file is counted as processed exactly when its name gives a quarter whose output was on disk before the run or was written by this file or an earlier one |
| FfiecParse.MainRun | parse_ffiec.py:401-444 | every file is counted once; when no name gives a period every file is an error |
| FfiecParse.MainRunRepeatedQuarter | parse_ffiec.py:412-416 | a second file of a quarter the first one wrote is counted as processed even though it does not convert |
| FfiecFilter.Split | 05_parse_ffiec.py:90 | `split(',')` gives pieces without commas that join back to the text |
| FfiecFilter.FilterColumns | 05_parse_ffiec.py:71-100 | a column is kept exactly when it is metadata, on a commercial-bank form, or has data; rows are unchanged and order is kept |
| FfiecFilter.FilterWithoutForms | 05_parse_ffiec.py:86-98 | without form information the filter drops exactly the non-metadata columns with no data |
| FfiecFilter.FilterIdempotent | 05_parse_ffiec.py:71-100 | filtering twice is filtering once |
| FfiecFilter.FilterKeepsFront | 05_parse_ffiec.py:80-83 | RSSD_ID and REPORTING_PERIOD stay the first two columns |
| FfiecFilter.QuarterOutput | 05_parse_ffiec.py:554-567 | a quarter is written exactly when it converts, with the standard front and at least one row |
| FfiecFilter.Step | 05_parse_ffiec.py:534-582 | a name without a period is an error; a file is skipped exactly when its output exists and it is not forced; it is processed exactly when it converts and writes |
| FfiecFilter.ForceSkipsNothing | 05_parse_ffiec.py:544-548 | with `--force` no file is skipped |
| FfiecFilter.RunOutcomeAt | 05_parse_ffiec.py:534-580 | a pass skips exactly when the run is not forced and its quarter's output was on disk before the run or written by an earlier pass; it processes exactly when it does not skip and its file converts and is written |
| FfiecFilter.Run | 05_parse_ffiec.py:534-582 | every file is counted once, and a forced run skips nothing |
| FfiecFilter.RunRepeatedQuarter | 05_parse_ffiec.py:544-548 | of two files of a quarter not yet on disk that both convert and write, the second is skipped without `--force` and processed with it |
| Summary.DataColumns | summarize.py:56-57 | the variables are the columns other than RSSD_ID and REPORTING_PERIOD |
| Summary.VariablesOfStandardLayout | 06_summarize.py:61-62 | a table in the standard layout has two fewer variables than columns |
| Summary.NullColumns | 06_summarize.py:87-90 | the null columns are exactly the variables with no data |
| Summary.IdentifiersBound | summarize.py:67-68 | there are no more distinct banks than rows |
| Summary.FirstPeriod | summarize.py:61-63 | the date is the first row's period stamp, when there is one |
| Summary.Summarize | 06_summarize.py:36-106 | a summary exists exactly when the file reads and has both metadata columns; it counts the variables, at most as many banks as rows, and, when checked, the null variables, which are no more than the variables |
| Summary.Collect | 06_summarize.py:239-256 | every kept summary has no date or a date inside the window, and there are no more summaries than files |
| Summary.CollectMembers | 06_summarize.py:239-256 | the kept summaries are exactly those of the readable files whose date is missing or inside the window |
| Summary.CollectRespectsWindow | 06_summarize.py:246-256 | no kept dated summary lies outside the window |
| Summary.ListFiles | 06_summarize.py:176-201 | with an entity directory a file is listed with tag `e` exactly when `e` is an entity directory that exists and holds it; the listing runs through the entity directories in their fixed order, each sorted by name; otherwise the flat listing is used untagged |
| Summary.Ordered | 06_summarize.py:299 | the summaries are sorted by entity and then date, as a permutation |
| Summary.OrderedGroupsEntities | 06_summarize.py:299 | after sorting, each entity's summaries are contiguous |
| Summary.ByDateOrder | summarize.py:235 | sorting by date gives a sorted permutation |
| Summary.Gaps | summarize.py:263-290 | a quarter is reported exactly when it is the expected successor of some entry whose next entry is not that quarter; there is at most one report per consecutive pair |
| Summary.ConsecutiveIffNoGaps | 06_summarize.py:454-469 | no gap is reported exactly when each entry is followed by the next quarter |
| Summary.GapsOfIncreasing | 06_summarize.py:454-469 | in a strictly increasing series the first quarter of every hole is reported, no reported quarter is in the series, and each lies strictly between the first and last entries |
| Summary.RepeatedQuarterReported | 06_summarize.py:461-469 | a quarter repeated in the series reports its successor as missing |
| Summary.GapsExample | 06_summarize.py:454-469 | 2019Q4, 2020Q1, 2020Q3 report 2020Q2 |
| Summary.GapsPerBreak | summarize.py:267-284 | there is one report per break, in series order: the break at position i gives the report that follows those of all earlier breaks, and there are as many reports as breaks |
| Summary.GapsRepeatedExample | 06_summarize.py:454-469 | 2020Q1, 2020Q1, 2020Q3 report 2020Q2 twice |
| Summary.SeriesGaps | 06_summarize.py:448-469 | the flat gap check over date-sorted summaries reports at most one quarter per consecutive pair |
| Summary.OfEntity | 06_summarize.py:414-415 | an entity's series holds exactly its summaries |
| Summary.OfEntityIdempotent | 06_summarize.py:415 | selecting an entity twice is selecting it once |
| Summary.EntityGaps | 06_summarize.py:414-437 | an entity with fewer than two summaries reports no gap |
| Summary.EntityGapsOwnSeries | 06_summarize.py:414-418 | an entity's gaps depend only on its own summaries |
| Summary.AllEntityGaps | 06_summarize.py:409-440 | an entity is listed exactly when it has summaries and a non-empty gap list, which is its own series' gaps |

## Left out

- File-system access, ZIP extraction, pyarrow and parquet writing, HTTP requests, progress bars and printing are modelled as parameters or not at all. `read`, `written`, `writeOk`, `fetch` and `existing` stand for them. `existing` is the set of outputs on disk when a run starts; the outputs a run writes are added to it pass by pass.
- Concurrency: the order in which parallel futures complete is not modelled. The parallel counters are the sum over all files, whatever the order.
- Floating point: file sizes in MB and floating-point values after `pd.to_numeric` are not modelled. A parsed number is an integer; `pd.to_numeric` is the `NumberParser` parameter.
- `pd.read_csv` and `pd.read_sas` are abstract: each read is an outcome given per encoding.
- The CSV and parquet output of the summary and the ten-item truncation of printed gap lists are printing only.
- `process_file_wrapper` of `parse_ffiec.py` and of `05_parse_ffiec.py` is never called by its file's `main`, so neither is modelled.
- A failed write is modelled as leaving no output file behind; a partly written parquet file is not modelled.
- ChicagoParse.ExtractRawColumns: for names that collide after upper-casing, the contract gives how many times each label appears but not their order. The cells of such a table are not modelled either: rows are maps from names, and the table can never be written.
- FfiecParse.ToStandard: for colliding names, likewise, only how many times each label appears is stated, not their order or cells. Any collision makes the parquet write fail in both bulk drivers, so `Converted` reports the file as an error.
- `02_download_dictionary.py` and `07_cleanup.py` are not part of this model.
- Case mapping is ASCII only; Python's full Unicode `upper()` and `lower()` are not modelled.
- Periods.ChicagoDigitsAt: digits are ASCII only; Python's `\d` and `int()` also accept other Unicode decimal digits, so a name such as `call` followed by four Arabic-Indic digits gives a period in the script and None here.
- Periods.FirstDigitWindow: the eight-digit window is ASCII digits only, for the same reason; a window of other Unicode decimal digits is not read.
- FfiecParse.Merge: the row order of the outer join, and the extra rows a duplicated id produces, are not stated. Only the set of ids is.
- Summary.Gaps: summaries whose date is missing (NaT) are not modelled in the gap check; the series must be dated. `int(NaN)` raises in `06_summarize.py`, and `summarize.py` would print `nanQnan`.
- Summary.FirstPeriod: a first-row period that is text or NaT counts as no date.
- Summary.Summarize: the bank count is bounded by the rows, but its exact `nunique` value (missing ids excluded) is not stated in the contract.
- Summary.ListFiles: a path that exists but is not a directory is treated as absent.
- A form value that is NaN in the dictionary is treated as an empty form list.
- Download.FetchAll: the HTTP status, timeout and chunked write are one success-or-failure outcome per request name.

=== FILE: chicago.dfy ===
/** parse_chicago.py: one Chicago Fed SAS file becomes one raw quarterly
    table. The file is read with a fixed list of encodings, the reporting
    period and an RSSD_ID column are added, every name is upper-cased and the
    two metadata columns are moved to the front. The batch driver classifies
    each file as processed, skipped or failed. */
module ChicagoParse {
  import opened Common
  import opened Tables
  import opened Periods
  import Download
  import opened Selection

  // ---------------------------------------------------------------------
  // Reading
  // ---------------------------------------------------------------------

  /** The encodings tried in order; "" stands for the reader's default. */
  const Encodings: seq<string> := ["", "latin1", "cp1252", "iso-8859-1"]

  /** The first encoding that reads the file, provided only decode errors
      (UnicodeDecodeError or ValueError) came before it. Any other failure,
      or a decode error on the last encoding, ends in None. `read` gives the
      outcome per encoding. */
  function ReadXport(read: string -> ReadOutcome<Table>): (r: Option<Table>)
    ensures r.Some? <==>
              exists i :: 0 <= i < |Encodings| && read(Encodings[i]).Read?
                && forall j :: 0 <= j < i ==> read(Encodings[j]).DecodeFailure?
    ensures forall i :: 0 <= i < |Encodings| && read(Encodings[i]).Read?
                && (forall j :: 0 <= j < i ==> read(Encodings[j]).DecodeFailure?)
              ==> r == Some(read(Encodings[i]).value)
  {
    var attempts := seq(|Encodings|, i requires 0 <= i < |Encodings| => read(Encodings[i]));
    assert forall i :: 0 <= i < |Encodings| ==> attempts[i] == read(Encodings[i]);
    assert forall i :: UsedAttempt(attempts, i) <==>
                         0 <= i < |Encodings| && read(Encodings[i]).Read?
                         && forall j :: 0 <= j < i ==> read(Encodings[j]).DecodeFailure?;
    FirstRead(attempts)
  }

  // ---------------------------------------------------------------------
  // The RSSD_ID column
  // ---------------------------------------------------------------------

  /** A column the last-resort search accepts as an identifier: its
      upper-cased name contains RSSD and is neither RSSD9999 nor RSSDDATE
      (both dates). */
  predicate IdCandidate(c: string) {
    var u := Upper(c);
    u != "RSSD9999" && u != "RSSDDATE" && Contains(u, "RSSD")
  }

  /** Where RSSD_ID comes from: copied from a column, already there, or
      nowhere. */
  datatype IdSource = CopyFrom(col: string) | AlreadyPresent | NoIdColumn

  /** The first identifier candidate, in column order. */
  function FirstIdCandidate(cols: seq<string>): (r: Option<string>)
    ensures r.None? <==> forall i :: 0 <= i < |cols| ==> !IdCandidate(cols[i])
    ensures r.Some? ==>
              exists i :: 0 <= i < |cols| && cols[i] == r.value && IdCandidate(cols[i])
                && forall j :: 0 <= j < i ==> !IdCandidate(cols[j])
  {
    if |cols| == 0 then None
    else if IdCandidate(cols[0]) then Some(cols[0])
    else
      var r := FirstIdCandidate(cols[1..]);
      assert forall i :: 0 < i < |cols| ==> cols[1..][i - 1] == cols[i];
      r
  }

  /** The three names the priority rule looks for first are themselves
      candidates of the last-resort search. */
  lemma NamedIdsAreCandidates()
    ensures IdCandidate("RSSD9001") && IdCandidate("IDRSSD") && IdCandidate("RSSD_ID")
  {
    UpperIdentity("RSSD9001");
    UpperIdentity("IDRSSD");
    UpperIdentity("RSSD_ID");
    assert "RSSD9001"[0..4] == "RSSD";
    assert "IDRSSD"[2..6] == "RSSD" by {
      assert "IDRSSD" == "ID" + "RSSD";
    }
    assert "RSSD_ID"[0..4] == "RSSD";
    assert OccursAt("RSSD9001", "RSSD", 0);
    assert OccursAt("IDRSSD", "RSSD", 2);
    assert OccursAt("RSSD_ID", "RSSD", 0);
  }

  /** Any name that upper-cases to RSSD_ID is a candidate. */
  lemma UpperRssdIdIsCandidate(c: string)
    ensures Upper(c) == "RSSD_ID" ==> IdCandidate(c)
  {
    if Upper(c) == "RSSD_ID" {
      assert OccursAt(Upper(c), "RSSD", 0);
    }
  }

  /** The period column the extraction adds is never taken for an
      identifier. */
  lemma PeriodColumnIsNoCandidate()
    ensures !IdCandidate("reporting_period")
  {
    var u := Upper("reporting_period");
    assert u == "REPORTING_PERIOD";
    forall i | 0 <= i <= |u| - 4 ensures !OccursAt(u, "RSSD", i) {
      assert u[i..i + 4][1] == u[i + 1] != 'S';
    }
  }

  /** Priority RSSD9001, then IDRSSD, then an existing RSSD_ID, then the
      first candidate column. No identifier results exactly when no column
      is a candidate. */
  function ChooseIdSource(cols: seq<string>): (s: IdSource)
    ensures "RSSD9001" in cols ==> s == CopyFrom("RSSD9001")
    ensures "RSSD9001" !in cols && "IDRSSD" in cols ==> s == CopyFrom("IDRSSD")
    ensures "RSSD9001" !in cols && "IDRSSD" !in cols && "RSSD_ID" in cols ==> s == AlreadyPresent
    ensures s.AlreadyPresent? ==> "RSSD_ID" in cols
    ensures s.CopyFrom? ==> s.col in cols && IdCandidate(s.col)
    ensures s.CopyFrom? && s.col != "RSSD9001" && s.col != "IDRSSD" ==>
              "RSSD_ID" !in cols
              && exists i :: 0 <= i < |cols| && cols[i] == s.col
                   && forall j :: 0 <= j < i ==> !IdCandidate(cols[j])
    ensures s.NoIdColumn? <==> forall c :: c in cols ==> !IdCandidate(c)
  {
    NamedIdsAreCandidates();
    if "RSSD9001" in cols then CopyFrom("RSSD9001")
    else if "IDRSSD" in cols then CopyFrom("IDRSSD")
    else if "RSSD_ID" in cols then AlreadyPresent
    else
      match FirstIdCandidate(cols)
      case None => NoIdColumn
      case Some(c) => CopyFrom(c)
  }

  // ---------------------------------------------------------------------
  // Shaping the extracted table
  // ---------------------------------------------------------------------

  /** The two metadata columns, in the order they are moved to the front. */
  const MetadataColumns: seq<string> := ["REPORTING_PERIOD", "RSSD_ID"]

  /** The column names after the period column and the identifier have been
      added: `reporting_period` is appended unless present, and RSSD_ID is
      appended (unless present) when it is copied from a source column. */
  function WithMetadataNames(cols: seq<string>): seq<string> {
    var cols1 := AddColumn(cols, "reporting_period");
    if ChooseIdSource(cols1).CopyFrom? then AddColumn(cols1, "RSSD_ID") else cols1
  }

  /** One row after the period has been stamped on it and RSSD_ID copied
      from the source column. */
  function StampRow(r: Row, period: Date, id: IdSource): (r': Row)
    ensures Cell(r', "reporting_period") == Stamp(period)
    ensures id.CopyFrom? ==> Cell(r', "RSSD_ID") == Cell(r["reporting_period" := Stamp(period)], id.col)
    ensures forall c :: c != "reporting_period" && (id.CopyFrom? ==> c != "RSSD_ID") ==> Cell(r', c) == Cell(r, c)
  {
    var r1 := r["reporting_period" := Stamp(period)];
    if id.CopyFrom? then r1["RSSD_ID" := Cell(r1, id.col)] else r1
  }

  /** The identifier source the extraction uses; it looks at the columns
      after the period column has been added. */
  function IdSourceOf(cols: seq<string>): IdSource {
    ChooseIdSource(AddColumn(cols, "reporting_period"))
  }

  /** The frame's labels once the augmented names are upper-cased, before
      the metadata columns are moved to the front. */
  function RawLabels(cols: seq<string>): seq<string> {
    UpperAll(WithMetadataNames(cols))
  }

  /** Two names of the frame upper-case to the same label. */
  predicate LabelsCollide(cols: seq<string>) {
    !Distinct(RawLabels(cols))
  }

  /** The extracted column names: the frame selected by the upper-cased
      labels with the metadata labels moved to the front. Every label the
      selection asks for brings all the columns that carry it. */
  function ExtractedNames(cols: seq<string>): seq<string> {
    var u := RawLabels(cols);
    Select(MoveToFront(u, MetadataColumns), u)
  }

  /** One extracted row: stamped, then re-keyed by upper-cased names. */
  function ExtractedRow(r: Row, cols: seq<string>, period: Date): Row {
    UpperRow(StampRow(r, period, IdSourceOf(cols)), WithMetadataNames(cols))
  }

  /** `extract_raw_quarter` after a successful read. */
  function ExtractRaw(t: Table, period: Date): (r: Table)
    ensures |r.rows| == |t.rows|
  {
    Table(ExtractedNames(t.columns),
          seq(|t.rows|, i requires 0 <= i < |t.rows| => ExtractedRow(t.rows[i], t.columns, period)))
  }

  /** The input columns that keep their relative order after the metadata
      columns: every name upper-cased, the metadata names left out. */
  function OtherColumns(t: Table): seq<string> {
    Without(UpperAll(t.columns), MetadataColumns)
  }

  /** No two input names upper-case to the same name, and the only input
      names that upper-case to a metadata name are the exact names the
      extraction itself writes. */
  predicate CaseDistinct(cols: seq<string>) {
    && Distinct(UpperAll(cols))
    && (forall c :: c in cols && Upper(c) == "REPORTING_PERIOD" ==> c == "reporting_period")
    && (forall c :: c in cols && Upper(c) == "RSSD_ID" ==> c == "RSSD_ID")
  }

  lemma UpperMetadataNames()
    ensures Upper("reporting_period") == "REPORTING_PERIOD"
    ensures Upper("RSSD_ID") == "RSSD_ID"
  {
    assert Upper("reporting_period") == "REPORTING_PERIOD";
    assert Upper("RSSD_ID") == "RSSD_ID";
  }

  /** The names WithMetadataNames appends to the input's own. */
  function AddedNames(cols: seq<string>): seq<string> {
    var e1: seq<string> := if "reporting_period" in cols then [] else ["reporting_period"];
    var e2: seq<string> :=
      if ChooseIdSource(AddColumn(cols, "reporting_period")).CopyFrom? && "RSSD_ID" !in cols then ["RSSD_ID"] else [];
    e1 + e2
  }

  /** The added names come after the input's own and are only the two the
      extraction writes; RSSD_ID is among the names exactly when an
      identifier source exists. */
  lemma WithMetadataNamesShape(cols: seq<string>)
    ensures WithMetadataNames(cols) == cols + AddedNames(cols)
    ensures forall c :: c in AddedNames(cols) ==> c == "reporting_period" || c == "RSSD_ID"
    ensures "reporting_period" in WithMetadataNames(cols)
    ensures "RSSD_ID" in WithMetadataNames(cols) <==> !IdSourceOf(cols).NoIdColumn?
  {
    WithMetadataNamesAppend(cols);
    RssdIdNamed(cols);
  }

  lemma WithMetadataNamesAppend(cols: seq<string>)
    ensures WithMetadataNames(cols) == cols + AddedNames(cols)
    ensures forall c :: c in AddedNames(cols) ==> c == "reporting_period" || c == "RSSD_ID"
  {
    var cols1 := AddColumn(cols, "reporting_period");
    var e1: seq<string> := if "reporting_period" in cols then [] else ["reporting_period"];
    assert cols1 == cols + e1;
    assert "RSSD_ID" in cols1 <==> "RSSD_ID" in cols by {
      assert "RSSD_ID" != "reporting_period";
    }
    if ChooseIdSource(cols1).CopyFrom? && "RSSD_ID" !in cols {
      ConcatAssoc(cols, e1, ["RSSD_ID"]);
    } else {
      ConcatEmpty(e1);
    }
  }

  /** RSSD_ID is among the augmented names exactly when an identifier
      source exists. */
  lemma RssdIdNamed(cols: seq<string>)
    ensures "RSSD_ID" in WithMetadataNames(cols) <==> !IdSourceOf(cols).NoIdColumn?
  {
    var cols1 := AddColumn(cols, "reporting_period");
    var src := ChooseIdSource(cols1);
    if src.NoIdColumn? {
      NamedIdsAreCandidates();
      assert "RSSD_ID" !in cols1;
    }
  }

  /** The extracted columns. When no two names collide after
      upper-casing: REPORTING_PERIOD first, RSSD_ID second when an
      identifier was found, then every other input column upper-cased, in
      input order. In every case a metadata label appears as often as the
      upper-cased names hold it and any other label as often as the square
      of that, so the columns repeat a name, and cannot be written, exactly
      when the upper-cased names collide. */
  lemma ExtractRawColumns(t: Table, period: Date)
    ensures !LabelsCollide(t.columns) && IdSourceOf(t.columns).NoIdColumn? ==>
              ExtractRaw(t, period).columns == ["REPORTING_PERIOD"] + OtherColumns(t)
    ensures !LabelsCollide(t.columns) && !IdSourceOf(t.columns).NoIdColumn? ==>
              ExtractRaw(t, period).columns == MetadataColumns + OtherColumns(t)
    ensures var cs, u := ExtractRaw(t, period).columns, RawLabels(t.columns);
            forall x :: multiset(cs)[x] == if x in MetadataColumns then multiset(u)[x] else Square(multiset(u)[x])
    ensures Writable(ExtractRaw(t, period)) <==> !LabelsCollide(t.columns)
  {
    ExtractRawNames(t, period);
    ExtractedNamesShape(t);
    var u := RawLabels(t.columns);
    forall x ensures multiset(ExtractRaw(t, period).columns)[x] ==
                       if x in MetadataColumns then multiset(u)[x] else Square(multiset(u)[x]) {
      ExtractedNamesCount(t.columns, x);
    }
    ExtractRawWritable(t, period);
  }

  lemma ExtractRawNames(t: Table, period: Date)
    ensures ExtractRaw(t, period).columns == ExtractedNames(t.columns)
  {
  }

  lemma ExtractedNamesShape(t: Table)
    ensures !LabelsCollide(t.columns) && IdSourceOf(t.columns).NoIdColumn? ==>
              ExtractedNames(t.columns) == ["REPORTING_PERIOD"] + OtherColumns(t)
    ensures !LabelsCollide(t.columns) && !IdSourceOf(t.columns).NoIdColumn? ==>
              ExtractedNames(t.columns) == MetadataColumns + OtherColumns(t)
  {
    var u := RawLabels(t.columns);
    if Distinct(u) {
      MoveToFrontLayout(u, MetadataColumns);
      FrontLayoutSelectsLabels(MoveToFront(u, MetadataColumns), u, MetadataColumns);
      OthersUnchanged(t.columns);
      MetadataPresence(t.columns);
      assert ExtractedNames(t.columns) == Present(MetadataColumns, u) + OtherColumns(t);
    }
  }

  lemma ExtractedNamesCount(cols: seq<string>, x: string)
    ensures multiset(ExtractedNames(cols))[x] ==
              if x in MetadataColumns then multiset(RawLabels(cols))[x]
              else Square(multiset(RawLabels(cols))[x])
  {
    var u := RawLabels(cols);
    MoveToFrontLayout(u, MetadataColumns);
    FrontLayoutCounts(MoveToFront(u, MetadataColumns), u, MetadataColumns, x);
  }

  /** A lower-case `rssd_id` and no other identifier: it is copied to a new
      RSSD_ID column, both upper-case to RSSD_ID, and the selection brings
      that label twice, so the table cannot be written. */
  lemma LowerCaseIdExample(period: Date)
    ensures ExtractRaw(Table(["rssd_id", "X"], []), period).columns == ["REPORTING_PERIOD", "RSSD_ID", "RSSD_ID", "X"]
    ensures !Writable(ExtractRaw(Table(["rssd_id", "X"], []), period))
  {
    LowerCaseIdLabels();
    LowerCaseIdRequest();
    LowerCaseIdSelection();
    assert ExtractedNames(["rssd_id", "X"]) == ["REPORTING_PERIOD", "RSSD_ID", "RSSD_ID", "X"];
    ExtractRawNames(Table(["rssd_id", "X"], []), period);
    var cs := ["REPORTING_PERIOD", "RSSD_ID", "RSSD_ID", "X"];
    assert cs[1] == cs[2];
  }

  lemma LowerCaseIdSource()
    ensures ChooseIdSource(["rssd_id", "X", "reporting_period"]) == CopyFrom("rssd_id")
  {
    var cols1 := ["rssd_id", "X", "reporting_period"];
    assert Upper("rssd_id") == "RSSD_ID";
    assert IdCandidate("rssd_id") by {
      assert "RSSD_ID"[0..4] == "RSSD";
      assert OccursAt(Upper("rssd_id"), "RSSD", 0);
    }
    assert FirstIdCandidate(cols1) == Some("rssd_id");
  }

  lemma LowerCaseIdLabels()
    ensures RawLabels(["rssd_id", "X"]) == ["RSSD_ID", "X", "REPORTING_PERIOD", "RSSD_ID"]
  {
    var cols := ["rssd_id", "X"];
    var cols1 := cols + ["reporting_period"];
    UpperMetadataNames();
    assert Upper("rssd_id") == "RSSD_ID";
    assert Upper("X") == "X";
    assert AddColumn(cols, "reporting_period") == cols1;
    LowerCaseIdSource();
    assert cols1 == ["rssd_id", "X", "reporting_period"];
    assert WithMetadataNames(cols) == cols1 + ["RSSD_ID"];
  }

  lemma LowerCaseIdSelection()
    ensures var u := ["RSSD_ID", "X", "REPORTING_PERIOD", "RSSD_ID"];
            Select(["REPORTING_PERIOD", "RSSD_ID", "X"], u) == ["REPORTING_PERIOD", "RSSD_ID", "RSSD_ID", "X"]
  {
    var request := ["REPORTING_PERIOD", "RSSD_ID", "X"];
    LowerCaseIdCopies();
    assert request[1..] == ["RSSD_ID", "X"] && request[1..][1..] == ["X"] && ["X"][1..] == [];
  }

  lemma LowerCaseIdRequest()
    ensures MoveToFront(["RSSD_ID", "X", "REPORTING_PERIOD", "RSSD_ID"], MetadataColumns) == ["REPORTING_PERIOD", "RSSD_ID", "X"]
  {
    var u := ["RSSD_ID", "X", "REPORTING_PERIOD", "RSSD_ID"];
    PresentPair("REPORTING_PERIOD", "RSSD_ID", u);
    assert Without(u, MetadataColumns) == ["X"];
  }

  lemma LowerCaseIdCopies()
    ensures var u := ["RSSD_ID", "X", "REPORTING_PERIOD", "RSSD_ID"];
            && Copies("REPORTING_PERIOD", u) == ["REPORTING_PERIOD"]
            && Copies("RSSD_ID", u) == ["RSSD_ID", "RSSD_ID"]
            && Copies("X", u) == ["X"]
  {
  }

  /** The extracted table can be written exactly when no two names collide
      after upper-casing. */
  lemma ExtractRawWritable(t: Table, period: Date)
    ensures Writable(ExtractRaw(t, period)) <==> !LabelsCollide(t.columns)
  {
    var u := RawLabels(t.columns);
    MoveToFrontLayout(u, MetadataColumns);
    FrontLayoutDistinct(MoveToFront(u, MetadataColumns), u, MetadataColumns);
  }

  /** The names the extraction adds are all metadata names, so the columns
      after the metadata are the input's own. */
  lemma OthersUnchanged(cols: seq<string>)
    ensures Without(UpperAll(WithMetadataNames(cols)), MetadataColumns) == Without(UpperAll(cols), MetadataColumns)
  {
    var added := AddedNames(cols);
    WithMetadataNamesAppend(cols);
    UpperAllConcat(cols, added);
    WithoutConcat(UpperAll(cols), UpperAll(added), MetadataColumns);
    var w := Without(UpperAll(added), MetadataColumns);
    assert w == [] by {
      UpperMetadataNames();
      forall k | 0 <= k < |added| ensures UpperAll(added)[k] in MetadataColumns {
        assert added[k] in added;
        if added[k] == "reporting_period" {
          assert UpperAll(added)[k] == MetadataColumns[0];
        } else {
          assert UpperAll(added)[k] == MetadataColumns[1];
        }
      }
      WithoutCovered(UpperAll(added), MetadataColumns);
    }
    ConcatEmpty(Without(UpperAll(cols), MetadataColumns));
  }

  /** REPORTING_PERIOD is always among the upper-cased names; RSSD_ID is
      exactly when an identifier source exists. */
  lemma MetadataPresence(cols: seq<string>)
    ensures IdSourceOf(cols).NoIdColumn? ==> Present(MetadataColumns, UpperAll(WithMetadataNames(cols))) == ["REPORTING_PERIOD"]
    ensures !IdSourceOf(cols).NoIdColumn? ==> Present(MetadataColumns, UpperAll(WithMetadataNames(cols))) == MetadataColumns
  {
    var u := UpperAll(WithMetadataNames(cols));
    ReportingPeriodUpper(cols);
    RssdIdUpper(cols);
    PresentPair("REPORTING_PERIOD", "RSSD_ID", u);
  }

  /** The upper-cased names always include REPORTING_PERIOD. */
  lemma ReportingPeriodUpper(cols: seq<string>)
    ensures "REPORTING_PERIOD" in UpperAll(WithMetadataNames(cols))
  {
    var names := WithMetadataNames(cols);
    UpperMetadataNames();
    WithMetadataNamesAppend(cols);
    assert "reporting_period" in names;
    var k :| 0 <= k < |names| && names[k] == "reporting_period";
    assert UpperAll(names)[k] == "REPORTING_PERIOD";
  }

  /** The upper-cased names include RSSD_ID exactly when an identifier
      source exists. */
  lemma RssdIdUpper(cols: seq<string>)
    ensures "RSSD_ID" in UpperAll(WithMetadataNames(cols)) <==> !IdSourceOf(cols).NoIdColumn?
  {
    var names := WithMetadataNames(cols);
    var u := UpperAll(names);
    UpperMetadataNames();
    RssdIdNamed(cols);
    if IdSourceOf(cols).NoIdColumn? {
      forall k | 0 <= k < |u| ensures u[k] != "RSSD_ID" {
        WithMetadataNamesAppend(cols);
        assert names[k] in AddColumn(cols, "reporting_period");
        UpperRssdIdIsCandidate(names[k]);
      }
    } else {
      var k :| 0 <= k < |names| && names[k] == "RSSD_ID";
      assert u[k] == "RSSD_ID";
    }
  }

  /** Under CaseDistinct, the names WithMetadataNames produces upper-case to
      distinct names. */
  lemma WithMetadataCaseDistinct(cols: seq<string>)
    requires CaseDistinct(cols)
    ensures Distinct(UpperAll(WithMetadataNames(cols)))
  {
    UpperMetadataNames();
    var cols1 := AddColumn(cols, "reporting_period");
    if "reporting_period" !in cols {
      UpperAllSnocDistinct(cols, "reporting_period");
    }
    assert Distinct(UpperAll(cols1));
    if ChooseIdSource(cols1).CopyFrom? && "RSSD_ID" !in cols1 {
      forall c | c in cols1 ensures Upper(c) != Upper("RSSD_ID") {
        if c != "reporting_period" {
          assert c in cols;
        }
      }
      UpperAllSnocDistinct(cols1, "RSSD_ID");
    }
  }

  /** The cells of every extracted row: the period under REPORTING_PERIOD,
      the chosen source's value under RSSD_ID, and every other input cell
      under its column's upper-cased name. */
  lemma ExtractRawCells(t: Table, period: Date, i: int)
    requires CaseDistinct(t.columns) && 0 <= i < |t.rows|
    ensures Cell(ExtractRaw(t, period).rows[i], "REPORTING_PERIOD") == Stamp(period)
    ensures IdSourceOf(t.columns).CopyFrom? ==>
              Cell(ExtractRaw(t, period).rows[i], "RSSD_ID") == Cell(t.rows[i], IdSourceOf(t.columns).col)
    ensures IdSourceOf(t.columns).AlreadyPresent? ==>
              Cell(ExtractRaw(t, period).rows[i], "RSSD_ID") == Cell(t.rows[i], "RSSD_ID")
    ensures forall c :: c in t.columns && Upper(c) !in MetadataColumns ==>
              Cell(ExtractRaw(t, period).rows[i], Upper(c)) == Cell(t.rows[i], c)
  {
    assert ExtractRaw(t, period).rows[i] == ExtractedRow(t.rows[i], t.columns, period);
    ExtractedRowCells(t.rows[i], t.columns, period);
  }

  lemma ExtractedRowCells(r: Row, cols: seq<string>, period: Date)
    requires CaseDistinct(cols)
    ensures Cell(ExtractedRow(r, cols, period), "REPORTING_PERIOD") == Stamp(period)
    ensures IdSourceOf(cols).CopyFrom? ==>
              Cell(ExtractedRow(r, cols, period), "RSSD_ID") == Cell(r, IdSourceOf(cols).col)
    ensures IdSourceOf(cols).AlreadyPresent? ==>
              Cell(ExtractedRow(r, cols, period), "RSSD_ID") == Cell(r, "RSSD_ID")
    ensures forall c :: c in cols && Upper(c) !in MetadataColumns ==>
              Cell(ExtractedRow(r, cols, period), Upper(c)) == Cell(r, c)
  {
    ExtractedRowMetadata(r, cols, period);
    forall c | c in cols && Upper(c) !in MetadataColumns
      ensures Cell(ExtractedRow(r, cols, period), Upper(c)) == Cell(r, c)
    {
      ExtractedRowOther(r, cols, period, c);
    }
  }

  lemma ExtractedRowMetadata(r: Row, cols: seq<string>, period: Date)
    requires CaseDistinct(cols)
    ensures Cell(ExtractedRow(r, cols, period), "REPORTING_PERIOD") == Stamp(period)
    ensures IdSourceOf(cols).CopyFrom? ==>
              Cell(ExtractedRow(r, cols, period), "RSSD_ID") == Cell(r, IdSourceOf(cols).col)
    ensures IdSourceOf(cols).AlreadyPresent? ==>
              Cell(ExtractedRow(r, cols, period), "RSSD_ID") == Cell(r, "RSSD_ID")
  {
    var names := WithMetadataNames(cols);
    var id := IdSourceOf(cols);
    var row := StampRow(r, period, id);
    WithMetadataCaseDistinct(cols);
    UpperMetadataNames();
    assert "reporting_period" in names by {
      WithMetadataNamesAppend(cols);
    }
    UpperRowCellOf(row, names, "reporting_period");
    if !id.NoIdColumn? {
      assert "RSSD_ID" in names by {
        RssdIdNamed(cols);
      }
      UpperRowCellOf(row, names, "RSSD_ID");
      if id.CopyFrom? {
        PeriodColumnIsNoCandidate();
      }
    }
  }

  lemma ExtractedRowOther(r: Row, cols: seq<string>, period: Date, c: string)
    requires CaseDistinct(cols) && c in cols && Upper(c) !in MetadataColumns
    ensures Cell(ExtractedRow(r, cols, period), Upper(c)) == Cell(r, c)
  {
    UpperMetadataNames();
    var names := WithMetadataNames(cols);
    WithMetadataNamesAppend(cols);
    WithMetadataCaseDistinct(cols);
    var row := StampRow(r, period, IdSourceOf(cols));
    assert c in names;
    assert c != "reporting_period" && c != "RSSD_ID";
    UpperRowCellOf(row, names, c);
  }

  /** `extract_raw_quarter`: None when no encoding reads the file. */
  function ExtractRawQuarter(read: string -> ReadOutcome<Table>, period: Date): (r: Option<Table>)
    ensures r.Some? <==> ReadXport(read).Some?
    ensures r.Some? ==> r.value == ExtractRaw(ReadXport(read).value, period)
  {
    match ReadXport(read)
    case None => None
    case Some(t) => Some(ExtractRaw(t, period))
  }

  // ---------------------------------------------------------------------
  // One file, and the batch
  // ---------------------------------------------------------------------

  /** The status `process_file_wrapper` reports; a success carries the
      quarter string naming the output file. */
  datatype FileStatus = Success(quarter: string) | Skipped | Failed

  /** The inferred period when it lies in the optional inclusive window. */
  predicate Selected(name: string, start: Option<Date>, end: Option<Date>) {
    InferChicago(name).Some? && InWindow(InferChicago(name).value, start, end)
  }

  /** `process_file_wrapper`: `read` gives the read outcome per encoding and
      `written` whether writing the parquet file succeeds (a failure there is
      caught and reported as an error). A table whose names collide after
      upper-casing repeats a column name, and its write always fails. */
  function ProcessFile(name: string, start: Option<Date>, end: Option<Date>,
                       read: string -> ReadOutcome<Table>, written: bool): (s: FileStatus)
    ensures s.Skipped? <==> !Selected(name, start, end)
    ensures s.Failed? <==>
              Selected(name, start, end)
              && (ReadXport(read).None? || LabelsCollide(ReadXport(read).value.columns) || !written)
    ensures s.Success? ==>
              && Selected(name, start, end)
              && s.quarter == QuarterLabel(QuarterOfDate(InferChicago(name).value))
  {
    match InferChicago(name)
    case None => Skipped
    case Some(period) =>
      if !InWindow(period, start, end) then Skipped
      else match ExtractRawQuarter(read, period)
        case None => Failed
        case Some(x) =>
          ExtractRawWritable(ReadXport(read).value, period);
          if Writable(x) && written then Success(QuarterLabel(QuarterOfDate(period))) else Failed
  }

  /** A file named like a downloaded archive of a quarter in the window is
      written under that quarter's label, unless its names collide after
      upper-casing. */
  lemma SavedNameIsProcessed(d: Date, start: Option<Date>, end: Option<Date>, read: string -> ReadOutcome<Table>)
    requires IsQuarterEnd(d) && 1976 <= d.year <= 2075 && InWindow(d, start, end)
    requires ReadXport(read).Some?
    ensures ProcessFile(Download.SavedName(d), start, end, read, true) ==
              if LabelsCollide(ReadXport(read).value.columns) then Failed else Success(QuarterLabel(QuarterOfDate(d)))
  {
    Download.SavedNameRoundTrip(d);
  }

  datatype Counts = Counts(processed: nat, skipped: nat, errors: nat)

  /** One status added to the counts. */
  function Bump(c: Counts, s: FileStatus): Counts {
    match s
    case Success(_) => c.(processed := c.processed + 1)
    case Skipped => c.(skipped := c.skipped + 1)
    case Failed => c.(errors := c.errors + 1)
  }

  predicate Succeeded(s: FileStatus) { s.Success? }
  predicate WasSkipped(s: FileStatus) { s.Skipped? }
  predicate WasFailed(s: FileStatus) { s.Failed? }

  /** The counts of a list of statuses. */
  function Tally(ss: seq<FileStatus>): (c: Counts)
    ensures c.processed + c.skipped + c.errors == |ss|
  {
    if |ss| == 0 then Counts(0, 0, 0) else Bump(Tally(ss[..|ss| - 1]), ss[|ss| - 1])
  }

  /** Each counter is the number of statuses of its kind, so every status
      is counted exactly once. */
  lemma {:induction false} TallyCounts(ss: seq<FileStatus>)
    ensures Tally(ss).processed == Count(ss, Succeeded)
    ensures Tally(ss).skipped == Count(ss, WasSkipped)
    ensures Tally(ss).errors == Count(ss, WasFailed)
  {
    if |ss| > 0 {
      var init := ss[..|ss| - 1];
      assert ss == init + [ss[|ss| - 1]];
      TallyCounts(init);
      CountSnoc(init, ss[|ss| - 1], Succeeded);
      CountSnoc(init, ss[|ss| - 1], WasSkipped);
      CountSnoc(init, ss[|ss| - 1], WasFailed);
    }
  }

  /** When every file is skipped, only the skipped count moves. */
  lemma {:induction false} TallyAllSkipped(ss: seq<FileStatus>)
    requires forall k :: 0 <= k < |ss| ==> ss[k].Skipped?
    ensures Tally(ss) == Counts(0, |ss|, 0)
  {
    if |ss| > 0 {
      var init := ss[..|ss| - 1];
      assert forall k :: 0 <= k < |init| ==> init[k] == ss[k];
      TallyAllSkipped(init);
    }
  }

  lemma TallySnoc(ss: seq<FileStatus>, k: nat)
    requires k < |ss|
    ensures Tally(ss[..k + 1]) == Bump(Tally(ss[..k]), ss[k])
  {
    assert ss[..k + 1][..k] == ss[..k];
  }

  /** The wrapper's statuses for a list of files. */
  function Statuses(names: seq<string>, start: Option<Date>, end: Option<Date>,
                    read: string -> string -> ReadOutcome<Table>, written: string -> bool): (ss: seq<FileStatus>)
    ensures |ss| == |names|
    ensures forall k :: 0 <= k < |names| ==> ss[k] == ProcessFile(names[k], start, end, read(names[k]), written(names[k]))
  {
    seq(|names|, k requires 0 <= k < |names| => ProcessFile(names[k], start, end, read(names[k]), written(names[k])))
  }

  /** The parallel driver: every file's wrapper status is tallied; the order
      in which results arrive does not change the counts. */
  function RunParallel(names: seq<string>, start: Option<Date>, end: Option<Date>,
                       read: string -> string -> ReadOutcome<Table>, written: string -> bool): (c: Counts)
    ensures c.processed + c.skipped + c.errors == |names|
  {
    Tally(Statuses(names, start, end, read, written))
  }

  /** The sequential driver (`--no-parallel`) reaches the parquet write of
      this file and the write fails, because the table repeats a column
      name or the write itself fails; nothing catches that error there. */
  predicate WriteFails(name: string, start: Option<Date>, end: Option<Date>,
                       read: string -> ReadOutcome<Table>, written: bool) {
    Selected(name, start, end) && ReadXport(read).Some? && (LabelsCollide(ReadXport(read).value.columns) || !written)
  }

  /** One iteration of the sequential driver: the status it counts, or None
      when the parquet write raises and the run stops. It classifies files
      as the wrapper does except for that write failure. */
  function SequentialStep(name: string, start: Option<Date>, end: Option<Date>,
                          read: string -> ReadOutcome<Table>, written: bool): (r: Option<FileStatus>)
    ensures r.None? <==> WriteFails(name, start, end, read, written)
    ensures r.Some? ==> r.value == ProcessFile(name, start, end, read, written)
  {
    match InferChicago(name)
    case None => Some(Skipped)
    case Some(period) =>
      if !InWindow(period, start, end) then Some(Skipped)
      else match ExtractRawQuarter(read, period)
        case None => Some(Failed)
        case Some(x) =>
          ExtractRawWritable(ReadXport(read).value, period);
          if Writable(x) && written then Some(Success(QuarterLabel(QuarterOfDate(period)))) else None
  }

  /** The sequential driver. It stops at the first failing write; otherwise
      each file increments exactly one count, and the counts are those the
      parallel driver reports. */
  method RunSequential(names: seq<string>, start: Option<Date>, end: Option<Date>,
                       read: string -> string -> ReadOutcome<Table>, written: string -> bool)
    returns (aborted: bool, c: Counts)
    ensures aborted <==> exists k :: 0 <= k < |names| && WriteFails(names[k], start, end, read(names[k]), written(names[k]))
    ensures !aborted ==> c.processed + c.skipped + c.errors == |names|
    ensures !aborted ==> c == RunParallel(names, start, end, read, written)
  {
    var ss := Statuses(names, start, end, read, written);
    c := Counts(0, 0, 0);
    aborted := false;
    var fails := name => WriteFails(name, start, end, read(name), written(name));
    var k := 0;
    while k < |names|
      invariant 0 <= k <= |names|
      invariant c == Tally(ss[..k])
      invariant !AnyBefore(names, fails, k)
    {
      var step := SequentialStep(names[k], start, end, read(names[k]), written(names[k]));
      if step.None? {
        AnyBeforeIff(names, fails, k + 1);
        aborted := true;
        return;
      }
      assert step.value == ss[k];
      TallySnoc(ss, k);
      c := Bump(c, ss[k]);
      k := k + 1;
    }
    AnyBeforeIff(names, fails, k);
    assert ss[..k] == ss;
  }
}

=== FILE: common.dfy ===
/** Shared vocabulary of the Call Report pipeline model: optional values,
    calendar dates, the inclusive optional date window every stage filters
    by, and the ASCII character and decimal helpers the filename rules use. */
module Common {

  /** Python's `None`-or-value. */
  datatype Option<T> = None | Some(value: T)

  /** A calendar date as the (year, month, day) triple a pandas Timestamp
      carries here; time of day never occurs in the pipeline. */
  datatype Date = Date(year: int, month: int, day: int)

  /** Chronological order of dates (Timestamp `<=`). */
  predicate DateLe(a: Date, b: Date) {
    a.year < b.year
    || (a.year == b.year && (a.month < b.month || (a.month == b.month && a.day <= b.day)))
  }

  predicate DateLt(a: Date, b: Date) {
    DateLe(a, b) && a != b
  }

  function DateMax(a: Date, b: Date): (r: Date)
    ensures DateLe(a, r) && DateLe(b, r) && (r == a || r == b)
  {
    if DateLe(a, b) then b else a
  }

  function DateMin(a: Date, b: Date): (r: Date)
    ensures DateLe(r, a) && DateLe(r, b) && (r == a || r == b)
  {
    if DateLe(a, b) then a else b
  }

  /** The optional inclusive window `--start-date` / `--end-date`: a date is
      rejected only when it is strictly before a given start or strictly
      after a given end. */
  predicate InWindow(d: Date, start: Option<Date>, end: Option<Date>) {
    (start.None? || DateLe(start.value, d)) && (end.None? || DateLe(d, end.value))
  }

  // ---------------------------------------------------------------------
  // Reading with a list of encodings
  // ---------------------------------------------------------------------

  /** The outcome of one read attempt with one encoding: the decoded value,
      a failure the caller retries with the next encoding, or a failure that
      ends the attempts. Which exceptions are retried is the caller's. */
  datatype ReadOutcome<T> = Read(value: T) | DecodeFailure | OtherFailure

  /** Attempt i is the one whose value is used: it read, and every attempt
      before it failed in the retried way. */
  predicate UsedAttempt<T>(attempts: seq<ReadOutcome<T>>, i: int) {
    && 0 <= i < |attempts|
    && attempts[i].Read?
    && forall j :: 0 <= j < i ==> attempts[j].DecodeFailure?
  }

  /** `for encoding in ...: try: read; break / except: continue`: the first
      successful read, provided only retried failures precede it. */
  function FirstRead<T>(attempts: seq<ReadOutcome<T>>): (r: Option<T>)
    ensures r.Some? <==> exists i :: UsedAttempt(attempts, i)
    ensures forall i :: UsedAttempt(attempts, i) ==> r == Some(attempts[i].value)
  {
    if |attempts| == 0 then None
    else if attempts[0].Read? then
      assert UsedAttempt(attempts, 0);
      Some(attempts[0].value)
    else if attempts[0].OtherFailure? then None
    else
      var r := FirstRead(attempts[1..]);
      assert forall i :: UsedAttempt(attempts, i) <==> i > 0 && UsedAttempt(attempts[1..], i - 1);
      assert forall i :: 0 < i < |attempts| ==> attempts[1..][i - 1] == attempts[i];
      assert forall i :: UsedAttempt(attempts[1..], i) ==> UsedAttempt(attempts, i + 1);
      r
  }

  // ---------------------------------------------------------------------
  // Characters (ASCII model of Python's str methods and `\d`, `\s`)
  // ---------------------------------------------------------------------

  predicate IsDigit(c: char) {
    '0' <= c <= '9'
  }

  predicate AllDigits(s: string) {
    forall i :: 0 <= i < |s| ==> IsDigit(s[i])
  }

  function DigitValue(c: char): (n: nat)
    requires IsDigit(c)
    ensures n < 10
  {
    c as int - '0' as int
  }

  function DigitChar(n: nat): (c: char)
    requires n < 10
    ensures IsDigit(c) && DigitValue(c) == n
  {
    ('0' as int + n) as char
  }

  function LowerChar(c: char): (r: char)
    ensures 'A' <= c <= 'Z' ==> 'a' <= r <= 'z'
    ensures !('A' <= c <= 'Z') ==> r == c
  {
    if 'A' <= c <= 'Z' then (c as int + 32) as char else c
  }

  function UpperChar(c: char): (r: char)
    ensures 'a' <= c <= 'z' ==> 'A' <= r <= 'Z'
    ensures !('a' <= c <= 'z') ==> r == c
  {
    if 'a' <= c <= 'z' then (c as int - 32) as char else c
  }

  /** `str.lower()` on ASCII letters. */
  function Lower(s: string): (r: string)
    ensures |r| == |s|
    ensures forall i :: 0 <= i < |s| ==> r[i] == LowerChar(s[i])
  {
    seq(|s|, i requires 0 <= i < |s| => LowerChar(s[i]))
  }

  /** `str.upper()` on ASCII letters. */
  function Upper(s: string): (r: string)
    ensures |r| == |s|
    ensures forall i :: 0 <= i < |s| ==> r[i] == UpperChar(s[i])
  {
    seq(|s|, i requires 0 <= i < |s| => UpperChar(s[i]))
  }

  /** A string without lower-case letters is its own upper case. */
  lemma LowerIdentity(s: string)
    requires forall i :: 0 <= i < |s| ==> !('A' <= s[i] <= 'Z')
    ensures Lower(s) == s
  {
  }

  lemma UpperIdentity(s: string)
    requires forall i :: 0 <= i < |s| ==> !('a' <= s[i] <= 'z')
    ensures Upper(s) == s
  {
  }

  /** Python's `sub in s`. */
  predicate Contains(s: string, sub: string) {
    exists i | 0 <= i <= |s| - |sub| :: OccursAt(s, sub, i)
  }

  predicate OccursAt(s: string, sub: string, i: int) {
    0 <= i <= |s| - |sub| && s[i..i + |sub|] == sub
  }

  /** Python's `s.endswith(suffix)`. */
  predicate EndsWith(s: string, suffix: string) {
    |suffix| <= |s| && s[|s| - |suffix|..] == suffix
  }

  // ---------------------------------------------------------------------
  // Decimal numerals
  // ---------------------------------------------------------------------

  /** `int(s)` for a run of ASCII digits. */
  function DigitsValue(s: string): (n: nat)
    requires AllDigits(s)
  {
    if |s| == 0 then 0 else DigitsValue(s[..|s| - 1]) * 10 + DigitValue(s[|s| - 1])
  }

  function Pow10(n: nat): (p: nat)
    ensures p >= 1
  {
    if n == 0 then 1 else 10 * Pow10(n - 1)
  }

  /** A run of n digits denotes a number below 10^n. */
  lemma {:induction false} DigitsValueBound(s: string)
    requires AllDigits(s)
    ensures DigitsValue(s) < Pow10(|s|)
  {
    if |s| > 0 {
      DigitsValueBound(s[..|s| - 1]);
    }
  }

  lemma DigitsValue2(s: string)
    requires |s| == 2 && AllDigits(s)
    ensures DigitsValue(s) == 10 * DigitValue(s[0]) + DigitValue(s[1])
  {
    var h := s[..1];
    assert h[..0] == [] && h[0] == s[0];
    assert DigitsValue(h) == DigitsValue(h[..0]) * 10 + DigitValue(h[0]);
  }

  lemma DigitsValue4(s: string)
    requires |s| == 4 && AllDigits(s)
    ensures DigitsValue(s) == 1000 * DigitValue(s[0]) + 100 * DigitValue(s[1]) + 10 * DigitValue(s[2]) + DigitValue(s[3])
  {
    assert s[..3][..2] == s[..2];
    DigitsValue2(s[..2]);
  }

  /** `str(n)` for a natural number. */
  function NatToDecimal(n: nat): (s: string)
    ensures |s| >= 1 && AllDigits(s)
    ensures n < 10 <==> |s| == 1
    decreases n
  {
    if n < 10 then [DigitChar(n)] else NatToDecimal(n / 10) + [DigitChar(n % 10)]
  }

  /** `str(n)` for any integer. */
  function IntToDecimal(n: int): (s: string)
    ensures |s| >= 1
  {
    if n < 0 then "-" + NatToDecimal(-n) else NatToDecimal(n)
  }

  /** The decimal rendering reads back as the number it renders. */
  lemma {:induction false} NatToDecimalValue(n: nat)
    ensures DigitsValue(NatToDecimal(n)) == n
    decreases n
  {
    var s := NatToDecimal(n);
    if n >= 10 {
      NatToDecimalValue(n / 10);
      assert s[..|s| - 1] == NatToDecimal(n / 10);
    }
  }

  /** Two digits with a leading zero, as `str(n).zfill(2)` gives for n < 100. */
  function TwoDigits(n: nat): (s: string)
    requires n < 100
    ensures |s| == 2 && AllDigits(s) && DigitsValue(s) == n
  {
    var s := [DigitChar(n / 10), DigitChar(n % 10)];
    assert s[..1] == [DigitChar(n / 10)] && s[..1][..0] == [];
    assert DigitsValue(s[..1]) == n / 10;
    s
  }

  // ---------------------------------------------------------------------
  // Sequences
  // ---------------------------------------------------------------------

  /** Concatenation is associative (stated once so that proofs about long
      concatenations need not rediscover it). */
  lemma ConcatAssoc<T>(a: seq<T>, b: seq<T>, c: seq<T>)
    ensures a + (b + c) == a + b + c
  {
  }

  lemma ConcatEmpty<T>(a: seq<T>)
    ensures [] + a == a && a + [] == a
  {
  }

  lemma SplitLast<T>(xs: seq<T>)
    requires |xs| > 0
    ensures xs == xs[..|xs| - 1] + [xs[|xs| - 1]]
  {
  }

  /** A prefix of a prefix is a prefix. */
  lemma PrefixTrans<T>(a: seq<T>, b: seq<T>, c: seq<T>)
    requires |b| <= |a| && a[..|b|] == b
    requires |c| <= |b| && b[..|c|] == c
    ensures |c| <= |a| && a[..|c|] == c
  {
    assert forall k :: 0 <= k < |c| ==> a[k] == b[k] == c[k];
  }

  /** Some element among the first n satisfies p. */
  predicate AnyBefore<T>(xs: seq<T>, p: T -> bool, n: nat)
    requires n <= |xs|
  {
    n > 0 && (AnyBefore(xs, p, n - 1) || p(xs[n - 1]))
  }

  lemma {:induction false} AnyBeforeIff<T>(xs: seq<T>, p: T -> bool, n: nat)
    requires n <= |xs|
    ensures AnyBefore(xs, p, n) <==> exists j :: 0 <= j < n && p(xs[j])
  {
    if n > 0 {
      AnyBeforeIff(xs, p, n - 1);
    }
  }

  // ---------------------------------------------------------------------
  // Counting
  // ---------------------------------------------------------------------

  /** How many elements of `xs` satisfy `p`. */
  function Count<T>(xs: seq<T>, p: T -> bool): (n: nat)
    ensures n <= |xs|
    ensures n == 0 <==> forall i :: 0 <= i < |xs| ==> !p(xs[i])
    ensures n == |xs| <==> forall i :: 0 <= i < |xs| ==> p(xs[i])
  {
    if |xs| == 0 then 0
    else
      assert forall i :: 1 <= i < |xs| ==> xs[i] == xs[1..][i - 1];
      (if p(xs[0]) then 1 else 0) + Count(xs[1..], p)
  }

  /** Counting over one more element at the end. */
  lemma {:induction false} CountSnoc<T>(xs: seq<T>, x: T, p: T -> bool)
    ensures Count(xs + [x], p) == Count(xs, p) + (if p(x) then 1 else 0)
  {
    if |xs| > 0 {
      assert (xs + [x])[1..] == xs[1..] + [x];
      CountSnoc(xs[1..], x, p);
    }
  }

  /** When every element satisfies exactly one of `p`, `q` and `r`, the
      three counts add up to the length. */
  lemma {:induction false} CountPartition<T>(xs: seq<T>, p: T -> bool, q: T -> bool, r: T -> bool)
    requires forall i :: 0 <= i < |xs| ==> (if p(xs[i]) then 1 else 0) + (if q(xs[i]) then 1 else 0) + (if r(xs[i]) then 1 else 0) == 1
    ensures Count(xs, p) + Count(xs, q) + Count(xs, r) == |xs|
  {
    if |xs| > 0 {
      assert forall i :: 1 <= i < |xs| ==> xs[1..][i - 1] == xs[i];
      CountPartition(xs[1..], p, q, r);
    }
  }

  /** The sum of `f` over `xs`. */
  function Sum<T>(xs: seq<T>, f: T -> nat): (n: nat)
    ensures (forall i :: 0 <= i < |xs| ==> f(xs[i]) == 0) ==> n == 0
  {
    if |xs| == 0 then 0
    else
      assert forall i :: 1 <= i < |xs| ==> xs[i] == xs[1..][i - 1];
      f(xs[0]) + Sum(xs[1..], f)
  }

  /** Summing over one more element at the end. */
  lemma {:induction false} SumSnoc<T>(xs: seq<T>, x: T, f: T -> nat)
    ensures Sum(xs + [x], f) == Sum(xs, f) + f(x)
  {
    if |xs| > 0 {
      assert (xs + [x])[1..] == xs[1..] + [x];
      SumSnoc(xs[1..], x, f);
    }
  }

  /** A subset is no larger than its superset. */
  lemma SubsetCard<T>(a: set<T>, b: set<T>)
    requires a <= b
    ensures |a| <= |b|
  {
    assert b == a + (b - a);
    assert a * (b - a) == {};
  }

  predicate Distinct<T(==)>(xs: seq<T>) {
    forall i, j :: 0 <= i < j < |xs| ==> xs[i] != xs[j]
  }

  /** `a` is obtained from `b` by deleting elements, order kept. */
  ghost predicate Subsequence<T>(a: seq<T>, b: seq<T>) {
    |a| == 0 || (|b| > 0 && ((a[0] == b[0] && Subsequence(a[1..], b[1..])) || Subsequence(a, b[1..])))
  }

  /** A list comprehension `[x for x in xs if p(x)]`. */
  function Filter<T(!new,==)>(xs: seq<T>, p: T -> bool): (r: seq<T>)
    ensures forall x :: x in r <==> x in xs && p(x)
    ensures forall i :: 0 <= i < |r| ==> p(r[i])
    ensures |r| <= |xs|
    ensures Subsequence(r, xs)
    ensures Distinct(xs) ==> Distinct(r)
  {
    if |xs| == 0 then []
    else
      var rest := Filter(xs[1..], p);
      assert forall x :: x in xs <==> x == xs[0] || x in xs[1..];
      assert Distinct(xs) ==> xs[0] !in xs[1..] && Distinct(xs[1..]) by {
        if Distinct(xs) {
          forall i, j | 0 <= i < j < |xs[1..]| ensures xs[1..][i] != xs[1..][j] {
            assert xs[i + 1] != xs[j + 1];
          }
        }
      }
      if p(xs[0]) then
        var r := [xs[0]] + rest;
        assert r[1..] == rest;
        r
      else
        rest
  }
}

=== FILE: dictionary.dfy ===
/** 03_parse_dictionary.py: building the variable dictionary from the MDRM
    export. Rows whose mnemonic is a Call Report prefix are kept, named
    mnemonic + item code, de-duplicated keeping the most recent definition,
    given a cleaned description, and written sorted by variable name. */
module DataDictionary {
  import opened Common
  import opened Sorting
  import opened Tables

  /** The MDRM mnemonics that belong to the Call Report. */
  const CallReportPrefixes: seq<string> := ["RCON", "RCFD", "RIAD", "RCFA", "RCFN", "RCFW", "RCOA", "RCOW"]

  // ---------------------------------------------------------------------
  // Whitespace (`\s`, `str.strip`, `str.split`)
  // ---------------------------------------------------------------------

  /** Python's notion of a whitespace character, which both `\s` on a str
      pattern and `str.strip()` use. */
  predicate IsSpace(c: char) {
    || ('\t' <= c <= '\r')
    || ('\U{1C}' <= c <= ' ')
    || c == '\U{85}' || c == '\U{A0}' || c == '\U{1680}'
    || ('\U{2000}' <= c <= '\U{200A}')
    || c == '\U{2028}' || c == '\U{2029}' || c == '\U{202F}' || c == '\U{205F}' || c == '\U{3000}'
  }

  /** `s.lstrip()`. */
  function DropSpaces(s: string): (r: string)
    ensures |r| <= |s| && r == s[|s| - |r|..]
    ensures |r| > 0 ==> !IsSpace(r[0])
    ensures forall i :: 0 <= i < |s| - |r| ==> IsSpace(s[i])
    ensures |s| > 0 && IsSpace(s[0]) ==> |r| < |s|
  {
    if |s| > 0 && IsSpace(s[0]) then
      var r := DropSpaces(s[1..]);
      assert forall i :: 1 <= i < |s| - |r| ==> s[i] == s[1..][i - 1];
      r
    else s
  }

  /** `s.rstrip()`. */
  function DropTrailingSpaces(s: string): (r: string)
    ensures |r| <= |s| && r == s[..|r|]
    ensures |r| > 0 ==> !IsSpace(r[|r| - 1])
    ensures forall i :: |r| <= i < |s| ==> IsSpace(s[i])
  {
    if |s| > 0 && IsSpace(s[|s| - 1]) then DropTrailingSpaces(s[..|s| - 1]) else s
  }

  /** `s.strip()`. */
  function Strip(s: string): string {
    DropTrailingSpaces(DropSpaces(s))
  }

  /** `re.sub(r'\s+', ' ', s)`: every maximal whitespace run becomes one space. */
  function Collapse(s: string): string
    decreases |s|
  {
    if |s| == 0 then ""
    else if IsSpace(s[0]) then " " + Collapse(DropSpaces(s))
    else [s[0]] + Collapse(s[1..])
  }

  /** The longest whitespace-free prefix. */
  function TakeWord(s: string): (w: string)
    ensures |w| <= |s| && w == s[..|w|]
    ensures forall i :: 0 <= i < |w| ==> !IsSpace(w[i])
    ensures |w| < |s| ==> IsSpace(s[|w|])
    ensures |s| > 0 && !IsSpace(s[0]) ==> |w| > 0
  {
    if |s| == 0 || IsSpace(s[0]) then "" else [s[0]] + TakeWord(s[1..])
  }

  predicate IsWord(w: string) {
    |w| > 0 && forall i :: 0 <= i < |w| ==> !IsSpace(w[i])
  }

  /** `s.split()`: the maximal whitespace-free runs, in order. */
  function Words(s: string): (ws: seq<string>)
    ensures forall i :: 0 <= i < |ws| ==> IsWord(ws[i])
    decreases |s|
  {
    if |s| == 0 then []
    else if IsSpace(s[0]) then Words(s[1..])
    else
      var w := TakeWord(s);
      [w] + Words(s[|w|..])
  }

  /** `' '.join(ws)`. */
  function JoinSpaced(ws: seq<string>): string {
    if |ws| == 0 then "" else if |ws| == 1 then ws[0] else ws[0] + " " + JoinSpaced(ws[1..])
  }

  /** No leading or trailing whitespace, the only whitespace character is the
      plain space, and no two spaces are adjacent. */
  predicate Normalized(s: string) {
    && (forall i :: 0 <= i < |s| && IsSpace(s[i]) ==> s[i] == ' ')
    && (forall i :: 0 <= i < |s| - 1 ==> s[i] != ' ' || s[i + 1] != ' ')
    && (|s| > 0 ==> !IsSpace(s[0]) && !IsSpace(s[|s| - 1]))
  }

  /** Joining words with single spaces gives a normalized string that is
      empty exactly when there are no words. */
  lemma {:induction false} JoinNormalized(ws: seq<string>)
    requires forall i :: 0 <= i < |ws| ==> IsWord(ws[i])
    ensures Normalized(JoinSpaced(ws))
    ensures |JoinSpaced(ws)| == 0 <==> |ws| == 0
  {
    if |ws| > 1 {
      JoinNormalized(ws[1..]);
      var w := ws[0];
      var rest := JoinSpaced(ws[1..]);
      var j := w + " " + rest;
      assert IsWord(w);
      forall i | 0 <= i < |j| && IsSpace(j[i]) ensures j[i] == ' ' {
        if i > |w| {
          assert j[i] == rest[i - |w| - 1];
        }
      }
      forall i | 0 <= i < |j| - 1 ensures j[i] != ' ' || j[i + 1] != ' ' {
        if i == |w| {
          assert j[i + 1] == rest[0];
        } else if i > |w| {
          assert j[i] == rest[i - |w| - 1] && j[i + 1] == rest[i - |w|];
        }
      }
      assert j[|j| - 1] == rest[|rest| - 1];
    }
  }

  /** A run that starts with a word collapses to that word followed by the
      collapse of what comes after it. */
  lemma {:induction false} CollapseWord(t: string)
    requires |t| > 0 && !IsSpace(t[0])
    ensures Collapse(t) == TakeWord(t) + Collapse(t[|TakeWord(t)|..])
    decreases |t|
  {
    var w := TakeWord(t);
    var t' := t[1..];
    assert Collapse(t) == [t[0]] + Collapse(t');
    if |t'| > 0 && !IsSpace(t'[0]) {
      var w' := TakeWord(t');
      var after := t'[|w'|..];
      CollapseWord(t');
      assert w == [t[0]] + w';
      assert t[|w|..] == after by {
        assert |w| == 1 + |w'|;
      }
      ConcatAssoc([t[0]], w', Collapse(after));
    } else {
      assert TakeWord(t') == [];
      assert w == [t[0]];
    }
  }

  /** Leading whitespace does not change the words. */
  lemma {:induction false} WordsDropSpaces(s: string)
    ensures Words(DropSpaces(s)) == Words(s)
    decreases |s|
  {
    if |s| > 0 && IsSpace(s[0]) {
      WordsDropSpaces(s[1..]);
    }
  }

  /** A string has no words exactly when it is all whitespace. */
  lemma {:induction false} WordsEmptyIffBlank(s: string)
    ensures Words(s) == [] <==> forall i :: 0 <= i < |s| ==> IsSpace(s[i])
    decreases |s|
  {
    if |s| > 0 && IsSpace(s[0]) {
      WordsEmptyIffBlank(s[1..]);
      assert forall i :: 1 <= i < |s| ==> s[i] == s[1..][i - 1];
    }
  }

  function Lead(s: string): string {
    if |s| > 0 && IsSpace(s[0]) then " " else ""
  }

  function Trail(s: string): string {
    if |s| > 0 && IsSpace(s[|s| - 1]) then " " else ""
  }

  /** Collapsing is the single-space join of the words, with one space kept
      for leading and for trailing whitespace. */
  lemma {:induction false} CollapseShape(s: string)
    ensures Words(s) == [] ==> Collapse(s) == (if |s| == 0 then "" else " ")
    ensures Words(s) != [] ==> Collapse(s) == Lead(s) + JoinSpaced(Words(s)) + Trail(s)
    decreases |s|, 1
  {
    if |s| == 0 {
    } else if IsSpace(s[0]) {
      CollapseShapeSpace(s);
    } else {
      CollapseShapeWord(s);
      assert Lead(s) == "";
      ConcatEmpty(JoinSpaced(Words(s)));
    }
  }

  lemma {:induction false} CollapseShapeSpace(s: string)
    requires |s| > 0 && IsSpace(s[0])
    ensures Words(s) == [] ==> Collapse(s) == " "
    ensures Words(s) != [] ==> Collapse(s) == " " + JoinSpaced(Words(s)) + Trail(s)
    decreases |s|, 0
  {
    var s' := DropSpaces(s);
    WordsDropSpaces(s);
    assert Collapse(s) == " " + Collapse(s');
    if |s'| == 0 {
      assert Words(s') == [];
    } else {
      CollapseShapeWord(s');
      assert s'[|s'| - 1] == s[|s| - 1];
      assert Trail(s') == Trail(s);
      ConcatAssoc(" ", JoinSpaced(Words(s)), Trail(s));
    }
  }

  lemma {:induction false} CollapseShapeWord(s: string)
    requires |s| > 0 && !IsSpace(s[0])
    ensures Words(s) != []
    ensures Collapse(s) == JoinSpaced(Words(s)) + Trail(s)
    decreases |s|, 0
  {
    var w := TakeWord(s);
    var rest := s[|w|..];
    CollapseWord(s);
    var ws := Words(rest);
    assert Words(s) == [w] + ws;
    if |rest| == 0 {
      assert w == s;
      assert Collapse(rest) == "";
      assert Trail(s) == "";
      assert JoinSpaced([w] + ws) == w;
      ConcatEmpty(w);
    } else {
      CollapseShapeSpace(rest);
      assert rest[|rest| - 1] == s[|s| - 1];
      assert Trail(rest) == Trail(s);
      if ws == [] {
        WordsEmptyIffBlank(rest);
        assert Trail(s) == " ";
        assert Collapse(rest) == " ";
        assert JoinSpaced([w] + ws) == w;
      } else {
        var j' := JoinSpaced(ws);
        assert ([w] + ws)[1..] == ws;
        assert JoinSpaced([w] + ws) == w + " " + j';
        var t := Trail(s);
        assert Collapse(rest) == " " + j' + t;
        ConcatAssoc(w, " ", j');
        ConcatAssoc(w, " " + j', t);
        assert Collapse(s) == w + (" " + j' + t);
      }
    }
  }

  /** Stripping removes exactly the optional single spaces around a joined,
      non-empty word list. */
  lemma StripAround(lead: string, j: string, trail: string)
    requires lead == "" || lead == " "
    requires trail == "" || trail == " "
    requires |j| > 0 && !IsSpace(j[0]) && !IsSpace(j[|j| - 1])
    ensures Strip(lead + j + trail) == j
  {
    var x := lead + j + trail;
    if lead == " " {
      assert x[1..] == j + trail;
    } else {
      assert x == j + trail;
    }
    assert DropSpaces(x) == j + trail;
    if trail == " " {
      assert (j + trail)[..|j|] == j;
    }
  }

  /** Collapsing then stripping is joining the words with single spaces. */
  lemma CollapseStripIsJoin(s: string)
    ensures Strip(Collapse(s)) == JoinSpaced(Words(s))
  {
    var ws := Words(s);
    var c := Collapse(s);
    CollapseShape(s);
    if ws == [] {
      if |s| > 0 {
        assert c == " ";
        assert DropSpaces(c) == DropSpaces(c[1..]);
      }
    } else {
      JoinNormalized(ws);
      StripAround(Lead(s), JoinSpaced(ws), Trail(s));
    }
  }

  /** `re.sub(r'\s+', ' ', s).strip()`: the same as `' '.join(s.split())`,
      hence normalized. */
  function NormalizeSpace(s: string): (r: string)
    ensures r == JoinSpaced(Words(s))
    ensures Normalized(r)
  {
    CollapseStripIsJoin(s);
    JoinNormalized(Words(s));
    Strip(Collapse(s))
  }

  // ---------------------------------------------------------------------
  // Tags (`re.sub(r'<[^>]+>', '', s)`)
  // ---------------------------------------------------------------------

  /** The first `>` at or after `from`. */
  function FindClose(s: string, from: nat): (r: Option<nat>)
    ensures r.Some? ==> from <= r.value < |s| && s[r.value] == '>'
    ensures r.None? <==> forall k :: from <= k < |s| ==> s[k] != '>'
    decreases |s| - from
  {
    if from >= |s| then None else if s[from] == '>' then Some(from) else FindClose(s, from + 1)
  }

  /** A match of `<[^>]+>` starts at i: a `<`, at least one character that
      is not `>`, and a later `>`. */
  predicate TagAt(s: string, i: int) {
    && 0 <= i && i + 1 < |s|
    && s[i] == '<' && s[i + 1] != '>'
    && exists k :: i + 1 < k < |s| && s[k] == '>'
  }

  predicate TagFree(s: string) {
    forall i :: 0 <= i < |s| ==> !TagAt(s, i)
  }

  /** Removes every match of the tag pattern, scanning left to right; text
      between a removed tag and the next match is kept as is. */
  function StripTags(s: string): (r: string)
    ensures |r| <= |s|
    ensures forall c :: c in r ==> c in s
    decreases |s|
  {
    if |s| == 0 then ""
    else if s[0] == '<' && |s| > 1 && s[1] != '>' && FindClose(s, 1).Some? then
      var r := StripTags(s[FindClose(s, 1).value + 1..]);
      assert forall c :: c in r ==> c in s by {
        forall c | c in r ensures c in s {
          var k :| FindClose(s, 1).value + 1 <= k < |s| && s[k] == c;
        }
      }
      r
    else
      var r := [s[0]] + StripTags(s[1..]);
      assert forall c :: c in s[1..] ==> c in s;
      r
  }

  /** Tags in the raw text are located where the scan finds them. */
  lemma TagAtShift(s: string, i: int)
    requires |s| > 0
    ensures TagAt(s[1..], i) <==> i >= 0 && TagAt(s, i + 1)
  {
    if i >= 0 && TagAt(s, i + 1) {
      var k :| i + 2 < k < |s| && s[k] == '>';
      assert s[1..][k - 1] == '>';
    }
  }

  /** What remains after removing tags contains no match of the pattern. */
  lemma {:induction false} StripTagsTagFree(s: string)
    ensures TagFree(StripTags(s))
    decreases |s|
  {
    if |s| == 0 {
    } else if s[0] == '<' && |s| > 1 && s[1] != '>' && FindClose(s, 1).Some? {
      StripTagsTagFree(s[FindClose(s, 1).value + 1..]);
    } else {
      var rest := StripTags(s[1..]);
      var r := [s[0]] + rest;
      StripTagsTagFree(s[1..]);
      forall i | 0 <= i < |r| ensures !TagAt(r, i) {
        TagAtShift(r, i - 1);
        assert r[1..] == rest;
        if i == 0 {
          KeptCharNoTag(s);
        }
      }
    }
  }

  /** A first character that does not open a tag does not open one in the
      result either. */
  lemma KeptCharNoTag(s: string)
    requires |s| > 0 && !(s[0] == '<' && |s| > 1 && s[1] != '>' && FindClose(s, 1).Some?)
    ensures !TagAt([s[0]] + StripTags(s[1..]), 0)
  {
    var rest := StripTags(s[1..]);
    var r := [s[0]] + rest;
    if s[0] == '<' && |s| > 1 {
      if s[1] == '>' {
        assert s[1..][0] == '>';
        assert rest[0] == '>';
        assert r[1] == '>';
      } else {
        assert '>' !in s[1..];
        assert '>' !in rest;
        forall k | 1 < k < |r| ensures r[k] != '>' {
          assert r[k] == rest[k - 1];
        }
      }
    }
  }

  /** Text without tags is left unchanged. */
  lemma {:induction false} StripTagsKeepsTagFree(s: string)
    requires TagFree(s)
    ensures StripTags(s) == s
    decreases |s|
  {
    if |s| > 0 {
      if s[0] == '<' && |s| > 1 && s[1] != '>' && FindClose(s, 1).Some? {
        assert TagAt(s, 0);
      }
      forall i | 0 <= i < |s| - 1 ensures !TagAt(s[1..], i) {
        TagAtShift(s, i);
      }
      StripTagsKeepsTagFree(s[1..]);
    }
  }

  /** Removing tags twice removes nothing more. */
  lemma StripTagsIdempotent(s: string)
    ensures StripTags(StripTags(s)) == StripTags(s)
  {
    StripTagsTagFree(s);
    StripTagsKeepsTagFree(StripTags(s));
  }

  // ---------------------------------------------------------------------
  // Descriptions
  // ---------------------------------------------------------------------

  /** `clean_description`. `unescape` stands for `html.unescape`. Anything
      but a string (a missing cell included) cleans to "". */
  function CleanDescription(v: Value, unescape: string -> string): (r: string)
    ensures !v.Text? ==> r == ""
    ensures v.Text? ==> r == JoinSpaced(Words(StripTags(unescape(v.s))))
    ensures Normalized(r)
  {
    if !v.Text? then "" else NormalizeSpace(StripTags(unescape(v.s)))
  }

  // ---------------------------------------------------------------------
  // Column roles
  // ---------------------------------------------------------------------

  predicate IsMnemonicHeader(c: string) {
    Contains(Lower(c), "mnemonic")
  }

  predicate IsItemCodeHeader(c: string) {
    !IsMnemonicHeader(c) && Contains(Lower(c), "item") && Contains(Lower(c), "code")
  }

  predicate IsItemNameHeader(c: string) {
    !IsMnemonicHeader(c) && !IsItemCodeHeader(c) && Contains(Lower(c), "item") && Contains(Lower(c), "name")
  }

  predicate IsEndDateHeader(c: string) {
    && !IsMnemonicHeader(c) && !IsItemCodeHeader(c) && !IsItemNameHeader(c)
    && Contains(Lower(c), "end") && Contains(Lower(c), "date")
  }

  datatype Roles = Roles(mnemonic: Option<string>, itemCode: Option<string>, description: Option<string>, endDate: Option<string>)

  /** One pass of the header loop: the first keyword test that holds assigns
      its role, overwriting an earlier assignment. */
  function RoleStep(acc: Roles, c: string): Roles {
    var l := Lower(c);
    if Contains(l, "mnemonic") then acc.(mnemonic := Some(c))
    else if Contains(l, "item") && Contains(l, "code") then acc.(itemCode := Some(c))
    else if Contains(l, "item") && Contains(l, "name") then acc.(description := Some(c))
    else if Contains(l, "end") && Contains(l, "date") then acc.(endDate := Some(c))
    else acc
  }

  /** The header loop over all columns, left to right. */
  function ScanRoles(cols: seq<string>): Roles {
    if |cols| == 0 then Roles(None, None, None, None)
    else RoleStep(ScanRoles(cols[..|cols| - 1]), cols[|cols| - 1])
  }

  /** The position of the last column satisfying `p`. */
  function LastIndexWhere(cols: seq<string>, p: string -> bool): (r: Option<nat>)
    ensures r.None? <==> forall i :: 0 <= i < |cols| ==> !p(cols[i])
    ensures r.Some? ==> r.value < |cols| && p(cols[r.value])
    ensures r.Some? ==> forall j :: r.value < j < |cols| ==> !p(cols[j])
  {
    if |cols| == 0 then None
    else if p(cols[|cols| - 1]) then Some(|cols| - 1)
    else
      var r := LastIndexWhere(cols[..|cols| - 1], p);
      assert forall i :: 0 <= i < |cols| - 1 ==> cols[..|cols| - 1][i] == cols[i];
      r
  }

  /** The last column satisfying `p`. */
  function LastWhere(cols: seq<string>, p: string -> bool): (r: Option<string>)
    ensures r.None? <==> forall i :: 0 <= i < |cols| ==> !p(cols[i])
    ensures r.Some? ==> exists i :: 0 <= i < |cols| && cols[i] == r.value && p(cols[i])
                                  && (forall j :: i < j < |cols| ==> !p(cols[j]))
  {
    match LastIndexWhere(cols, p)
    case None => None
    case Some(i) => Some(cols[i])
  }

  /** One more column: it is the last match when it matches, otherwise the
      last match is the one among the earlier columns. */
  lemma LastWhereSnoc(cols: seq<string>, p: string -> bool)
    requires |cols| > 0
    ensures LastWhere(cols, p) == if p(cols[|cols| - 1]) then Some(cols[|cols| - 1]) else LastWhere(cols[..|cols| - 1], p)
  {
  }

  /** Without a `break`, each role goes to the LAST header that the loop
      assigns to it. */
  lemma {:induction false} ScanRolesIsLast(cols: seq<string>)
    ensures ScanRoles(cols) == Roles(LastWhere(cols, IsMnemonicHeader), LastWhere(cols, IsItemCodeHeader),
                                     LastWhere(cols, IsItemNameHeader), LastWhere(cols, IsEndDateHeader))
  {
    if |cols| > 0 {
      ScanRolesIsLast(cols[..|cols| - 1]);
      LastWhereSnoc(cols, IsMnemonicHeader);
      LastWhereSnoc(cols, IsItemCodeHeader);
      LastWhereSnoc(cols, IsItemNameHeader);
      LastWhereSnoc(cols, IsEndDateHeader);
    }
  }

  /** The first candidate name that is a column. */
  function FirstPresent(candidates: seq<string>, cols: seq<string>): (r: Option<string>)
    ensures r.None? <==> forall i :: 0 <= i < |candidates| ==> candidates[i] !in cols
    ensures r.Some? ==> r.value in cols
    ensures r.Some? ==> exists i :: 0 <= i < |candidates| && candidates[i] == r.value
                                  && (forall j :: 0 <= j < i ==> candidates[j] !in cols)
  {
    if |candidates| == 0 then None
    else if candidates[0] in cols then Some(candidates[0])
    else
      var r := FirstPresent(candidates[1..], cols);
      assert forall i :: 1 <= i < |candidates| ==> candidates[i] == candidates[1..][i - 1];
      r
  }

  const MnemonicFallbacks: seq<string> := ["Mnemonic", "Variable", "MDRM", "Code"]
  const ItemCodeFallbacks: seq<string> := ["Item Code", "ItemCode", "Code"]
  const DescriptionFallbacks: seq<string> := ["Item Name", "ItemName", "Description", "Item_Name"]

  datatype Columns = Columns(mnemonic: string, itemCode: Option<string>, description: string, endDate: Option<string>)

  function OrElse(a: Option<string>, b: Option<string>): (r: Option<string>)
    ensures r.Some? <==> a.Some? || b.Some?
    ensures a.Some? ==> r == a
    ensures a.None? ==> r == b
  {
    if a.Some? then a else b
  }

  /** Column-role resolution: the header loop, then the fixed fallback names
      for the roles still missing. None is the ValueError raised when the
      mnemonic or the description column stays unresolved. */
  function ResolveRoles(cols: seq<string>): (r: Option<Columns>)
    ensures r.None? <==>
              (LastWhere(cols, IsMnemonicHeader).None? && FirstPresent(MnemonicFallbacks, cols).None?)
              || (LastWhere(cols, IsItemNameHeader).None? && FirstPresent(DescriptionFallbacks, cols).None?)
    ensures r.Some? ==> r.value.mnemonic in cols && r.value.description in cols
    ensures r.Some? ==> r.value.endDate == LastWhere(cols, IsEndDateHeader)
    ensures r.Some? && LastWhere(cols, IsMnemonicHeader).Some? ==> r.value.mnemonic == LastWhere(cols, IsMnemonicHeader).value
    ensures r.Some? && LastWhere(cols, IsItemNameHeader).Some? ==> r.value.description == LastWhere(cols, IsItemNameHeader).value
    ensures r.Some? ==> (r.value.itemCode.Some? <==>
                          LastWhere(cols, IsItemCodeHeader).Some? || FirstPresent(ItemCodeFallbacks, cols).Some?)
    ensures r.Some? && LastWhere(cols, IsMnemonicHeader).None? ==> Some(r.value.mnemonic) == FirstPresent(MnemonicFallbacks, cols)
    ensures r.Some? && LastWhere(cols, IsItemNameHeader).None? ==> Some(r.value.description) == FirstPresent(DescriptionFallbacks, cols)
    ensures r.Some? && LastWhere(cols, IsItemCodeHeader).Some? ==> r.value.itemCode == LastWhere(cols, IsItemCodeHeader)
    ensures r.Some? && LastWhere(cols, IsItemCodeHeader).None? ==> r.value.itemCode == FirstPresent(ItemCodeFallbacks, cols)
  {
    var roles := ScanRoles(cols);
    ScanRolesIsLast(cols);
    var mnemonic := OrElse(roles.mnemonic, FirstPresent(MnemonicFallbacks, cols));
    var itemCode := OrElse(roles.itemCode, FirstPresent(ItemCodeFallbacks, cols));
    var description := OrElse(roles.description, FirstPresent(DescriptionFallbacks, cols));
    if mnemonic.None? || description.None? then None
    else Some(Columns(mnemonic.value, itemCode, description.value, roles.endDate))
  }

  // ---------------------------------------------------------------------
  // Rows
  // ---------------------------------------------------------------------

  /** One MDRM row reduced to what the dedup and output look at. */
  datatype MdrmEntry = MdrmEntry(key: string, end: Option<Date>, description: Value)

  predicate IsCallReportRow(r: Row, c: Columns) {
    AsStr(Cell(r, c.mnemonic)) in CallReportPrefixes
  }

  /** `_full_variable`: mnemonic followed by item code, both as text, or the
      mnemonic alone when there is no item-code column. */
  function FullVariable(r: Row, c: Columns): (v: string)
    ensures c.itemCode.None? ==> v == AsStr(Cell(r, c.mnemonic))
    ensures c.itemCode.Some? ==> v == AsStr(Cell(r, c.mnemonic)) + AsStr(Cell(r, c.itemCode.value))
  {
    AsStr(Cell(r, c.mnemonic)) + (if c.itemCode.Some? then AsStr(Cell(r, c.itemCode.value)) else "")
  }

  /** `_end_date`; `toDate` stands for `pd.to_datetime(errors='coerce')`,
      None being NaT. Without an end-date column every date is NaT. */
  function EndDate(r: Row, c: Columns, toDate: Value -> Option<Date>): Option<Date> {
    if c.endDate.Some? then toDate(Cell(r, c.endDate.value)) else None
  }

  function Entry(r: Row, c: Columns, toDate: Value -> Option<Date>): MdrmEntry {
    MdrmEntry(FullVariable(r, c), EndDate(r, c, toDate), Cell(r, c.description))
  }

  /** The prefix filter followed by naming: one entry per row whose mnemonic
      text is exactly a Call Report prefix, in row order. */
  function Entries(rows: seq<Row>, c: Columns, toDate: Value -> Option<Date>): (es: seq<MdrmEntry>)
    ensures |es| <= |rows|
    ensures forall e :: e in es <==> exists r :: r in rows && IsCallReportRow(r, c) && e == Entry(r, c, toDate)
  {
    if |rows| == 0 then []
    else
      var rest := Entries(rows[1..], c, toDate);
      assert forall r :: r in rows <==> r == rows[0] || r in rows[1..];
      if IsCallReportRow(rows[0], c) then [Entry(rows[0], c, toDate)] + rest else rest
  }

  // ---------------------------------------------------------------------
  // De-duplication
  // ---------------------------------------------------------------------

  /** End date `a` ranks no lower than `b` in the descending, NaT-first
      order: NaT ranks highest. */
  predicate LaterEq(a: Option<Date>, b: Option<Date>) {
    a.None? || (b.Some? && DateLe(b.value, a.value))
  }

  function Keys(es: seq<MdrmEntry>): set<string> {
    set e | e in es :: e.key
  }

  predicate DistinctKeys(es: seq<MdrmEntry>) {
    forall i, j :: 0 <= i < j < |es| ==> es[i].key != es[j].key
  }

  lemma KeysCons(e: MdrmEntry, es: seq<MdrmEntry>)
    ensures Keys([e] + es) == {e.key} + Keys(es)
  {
    assert forall y :: y in [e] + es <==> y == e || y in es;
  }

  lemma DistinctKeysCons(e: MdrmEntry, es: seq<MdrmEntry>)
    ensures DistinctKeys([e] + es) ==> DistinctKeys(es) && e.key !in Keys(es)
    ensures DistinctKeys(es) && e.key !in Keys(es) ==> DistinctKeys([e] + es)
  {
    var r := [e] + es;
    assert forall i :: 0 < i < |r| ==> r[i] == es[i - 1];
    if DistinctKeys(r) {
      forall i, j | 0 <= i < j < |es| ensures es[i].key != es[j].key {
        assert r[i + 1] == es[i] && r[j + 1] == es[j];
      }
      forall y | y in es ensures y.key != e.key {
        var i :| 0 <= i < |es| && es[i] == y;
        assert r[i + 1] == y && r[0] == e;
      }
    }
    if DistinctKeys(es) && e.key !in Keys(es) {
      forall i, j | 0 <= i < j < |r| ensures r[i].key != r[j].key {
        if i == 0 {
          assert r[j] in es;
          assert r[j].key in Keys(es);
        } else {
          assert r[i] == es[i - 1] && r[j] == es[j - 1];
        }
      }
    }
  }

  lemma KeyUnique(es: seq<MdrmEntry>, a: MdrmEntry, b: MdrmEntry)
    requires DistinctKeys(es) && a in es && b in es && a.key == b.key
    ensures a == b
  {
    var i :| 0 <= i < |es| && es[i] == a;
    var j :| 0 <= j < |es| && es[j] == b;
    assert i == j;
  }

  /** Folds one more row into the kept rows: it replaces the kept row of its
      variable only when it ranks strictly higher. */
  function Keep(kept: seq<MdrmEntry>, x: MdrmEntry): (r: seq<MdrmEntry>)
    requires DistinctKeys(kept)
    ensures DistinctKeys(r)
    ensures Keys(r) == Keys(kept) + {x.key}
    ensures |r| <= |kept| + 1
    ensures forall e :: e in r ==> e in kept || e == x
  {
    if |kept| == 0 then [x]
    else
      var k := kept[0];
      var tail := kept[1..];
      assert kept == [k] + tail;
      KeysCons(k, tail);
      DistinctKeysCons(k, tail);
      assert forall o :: o in kept ==> o == k || o in tail;
      if k.key == x.key then
        if LaterEq(k.end, x.end) then
          kept
        else
          var r := [x] + tail;
          KeysCons(x, tail);
          DistinctKeysCons(x, tail);
          assert forall e :: e in r ==> e == x || e in tail;
          r
    else
      var rest := Keep(tail, x);
      var r := [k] + rest;
      KeysCons(k, rest);
      DistinctKeysCons(k, rest);
      assert forall e :: e in r ==> e == k || e in rest;
      r
  }

  /** The rank order is total and reflexive. */
  lemma LaterEqTotal(a: Option<Date>, b: Option<Date>)
    ensures LaterEq(a, a)
    ensures !LaterEq(a, b) ==> LaterEq(b, a)
  {
  }

  /** The row `Keep` leaves for `x`'s variable ranks no lower than `x` and
      than the row kept before. */
  lemma {:induction false} KeepRanks(kept: seq<MdrmEntry>, x: MdrmEntry)
    requires DistinctKeys(kept)
    ensures forall e :: e in Keep(kept, x) && e.key == x.key ==> LaterEq(e.end, x.end)
    ensures forall e, o :: e in Keep(kept, x) && o in kept && e.key == x.key && o.key == x.key ==> LaterEq(e.end, o.end)
  {
    if |kept| > 0 {
      var k := kept[0];
      var tail := kept[1..];
      var r := Keep(kept, x);
      assert kept == [k] + tail;
      DistinctKeysCons(k, tail);
      assert forall o :: o in kept ==> o == k || o in tail;
      if k.key == x.key {
        forall o | o in kept && o.key == x.key ensures o == k {
          KeyUnique(kept, o, k);
        }
        LaterEqTotal(k.end, x.end);
        LaterEqTotal(x.end, k.end);
        if LaterEq(k.end, x.end) {
          assert r == kept;
        } else {
          assert r == [x] + tail;
          forall e | e in tail ensures e.key != x.key {
            assert e.key in Keys(tail);
          }
          assert forall e :: e in r ==> e == x || e in tail;
        }
      } else {
        var rest := Keep(tail, x);
        KeepRanks(tail, x);
        assert r == [k] + rest;
        forall e | e in r && e.key == x.key ensures e in rest {
          assert e == k || e in rest;
        }
        forall o | o in kept && o.key == x.key ensures o in tail {
        }
      }
    }
  }

  /** `sort_values('_end_date', ascending=False, na_position='first')`
      followed by `drop_duplicates('_full_variable', keep='first')`: one row
      per variable, and the kept row ranks no lower than any row of its
      variable. Among rows of equal rank the sort is free to keep any; this
      model keeps the earliest. */
  function Dedup(xs: seq<MdrmEntry>): (r: seq<MdrmEntry>)
    ensures DistinctKeys(r)
    ensures Keys(r) == Keys(xs)
    ensures forall e :: e in r ==> e in xs
    ensures forall e, x :: e in r && x in xs && e.key == x.key ==> LaterEq(e.end, x.end)
    ensures |r| <= |xs|
  {
    if |xs| == 0 then []
    else
      var init := xs[..|xs| - 1];
      var x := xs[|xs| - 1];
      var kept := Dedup(init);
      var r := Keep(kept, x);
      SplitLast(xs);
      KeysSnoc(init, x);
      KeepRanksHighest(init, kept, x, r);
      r
  }

  lemma KeysSnoc(init: seq<MdrmEntry>, x: MdrmEntry)
    ensures Keys(init + [x]) == Keys(init) + {x.key}
  {
    assert forall y :: y in init + [x] <==> y in init || y == x;
  }

  /** The rank step of the dedup: if `kept` ranks highest among `init`,
      folding in `x` ranks highest among `init + [x]`. */
  lemma KeepRanksHighest(init: seq<MdrmEntry>, kept: seq<MdrmEntry>, x: MdrmEntry, r: seq<MdrmEntry>)
    requires DistinctKeys(kept) && Keys(kept) == Keys(init)
    requires forall e, y :: e in kept && y in init && e.key == y.key ==> LaterEq(e.end, y.end)
    requires r == Keep(kept, x)
    ensures forall e, y :: e in r && y in init + [x] && e.key == y.key ==> LaterEq(e.end, y.end)
  {
    KeepRanks(kept, x);
    forall e, y | e in r && y in init + [x] && e.key == y.key ensures LaterEq(e.end, y.end) {
      if y != x {
        assert y in init;
        assert y.key in Keys(kept);
        var o :| o in kept && o.key == y.key;
        if e.key == x.key {
          assert LaterEq(e.end, o.end);
        } else {
          assert e in kept;
          KeyUnique(kept, e, o);
        }
      }
    }
  }

  // ---------------------------------------------------------------------
  // Output
  // ---------------------------------------------------------------------

  datatype DictEntry = DictEntry(variable: string, description: string)

  predicate VariableLe(a: DictEntry, b: DictEntry) {
    StrLe(a.variable, b.variable)
  }

  lemma VariableLeIsTotalPreorder()
    ensures TotalPreorder(VariableLe)
  {
    forall a: DictEntry, b: DictEntry ensures VariableLe(a, b) || VariableLe(b, a) {
      StrLeTotal(a.variable, b.variable);
    }
    forall a: DictEntry, b: DictEntry, c: DictEntry | VariableLe(a, b) && VariableLe(b, c) ensures VariableLe(a, c) {
      StrLeTransitive(a.variable, b.variable, c.variable);
    }
  }

  /** The output rows of the kept entries, upper-cased and cleaned, minus
      those whose description cleans to "" (dropped after the dedup, so such
      a variable disappears entirely). */
  function Described(kept: seq<MdrmEntry>, unescape: string -> string): (out: seq<DictEntry>)
    ensures |out| <= |kept|
    ensures forall o :: o in out ==> |o.description| > 0 && Normalized(o.description)
  {
    if |kept| == 0 then []
    else
      var o := DictEntry(Upper(kept[0].key), CleanDescription(kept[0].description, unescape));
      var rest := Described(kept[1..], unescape);
      if |o.description| > 0 then [o] + rest else rest
  }

  /** The output row of a kept entry. */
  function DescribedRow(e: MdrmEntry, unescape: string -> string): DictEntry {
    DictEntry(Upper(e.key), CleanDescription(e.description, unescape))
  }

  /** Every kept entry whose description cleans to something non-empty has
      its row in the output. */
  lemma {:induction false} DescribedHas(kept: seq<MdrmEntry>, unescape: string -> string, e: MdrmEntry)
    requires e in kept && |DescribedRow(e, unescape).description| > 0
    ensures DescribedRow(e, unescape) in Described(kept, unescape)
  {
    if kept[0] != e {
      assert e in kept[1..];
      DescribedHas(kept[1..], unescape, e);
    }
  }

  /** Every output row is the row of some kept entry. */
  lemma {:induction false} DescribedFrom(kept: seq<MdrmEntry>, unescape: string -> string, o: DictEntry)
    requires o in Described(kept, unescape)
    ensures exists e :: e in kept && o == DescribedRow(e, unescape)
  {
    var rest := Described(kept[1..], unescape);
    if o != DescribedRow(kept[0], unescape) {
      assert o in rest;
      DescribedFrom(kept[1..], unescape, o);
      var e :| e in kept[1..] && o == DescribedRow(e, unescape);
      assert e in kept;
    }
  }

  /** The output rows are exactly the upper-cased, cleaned entries whose
      description is non-empty. */
  lemma DescribedMembers(kept: seq<MdrmEntry>, unescape: string -> string)
    ensures forall o :: o in Described(kept, unescape) <==>
              exists e :: e in kept && o == DescribedRow(e, unescape) && |o.description| > 0
  {
    forall o | o in Described(kept, unescape)
      ensures exists e :: e in kept && o == DescribedRow(e, unescape) && |o.description| > 0
    {
      DescribedFrom(kept, unescape, o);
    }
    forall o | exists e :: e in kept && o == DescribedRow(e, unescape) && |o.description| > 0
      ensures o in Described(kept, unescape)
    {
      var e :| e in kept && o == DescribedRow(e, unescape) && |o.description| > 0;
      DescribedHas(kept, unescape, e);
    }
  }

  /** `parse_dictionary` after reading: None when the roles do not resolve;
      otherwise the dictionary rows sorted by variable. */
  function ParseDictionary(t: Table, unescape: string -> string, toDate: Value -> Option<Date>): (r: Option<seq<DictEntry>>)
    ensures r.None? <==> ResolveRoles(t.columns).None?
    ensures r.Some? ==>
              var c := ResolveRoles(t.columns).value;
              multiset(r.value) == multiset(Described(Dedup(Entries(t.rows, c, toDate)), unescape))
    ensures r.Some? ==> SortedBy(r.value, VariableLe)
    ensures r.Some? ==> |r.value| <= |t.rows|
    ensures r.Some? ==> forall o :: o in r.value ==> |o.description| > 0 && Normalized(o.description)
  {
    match ResolveRoles(t.columns)
    case None => None
    case Some(c) =>
      var described := Described(Dedup(Entries(t.rows, c, toDate)), unescape);
      VariableLeIsTotalPreorder();
      var sorted := SortBy(described, VariableLe);
      assert forall o :: o in sorted ==> o in described by {
        forall o | o in sorted ensures o in described {
          assert o in multiset(sorted);
        }
      }
      Some(sorted)
  }

  /** Every dictionary row comes from an MDRM row with a Call Report
      mnemonic whose upper-cased full variable it carries, and that row's end
      date ranks no lower than the end date of any row of the same variable
      (a NaT end date wins over every date). */
  lemma DictionaryRowOrigin(t: Table, unescape: string -> string, toDate: Value -> Option<Date>, o: DictEntry)
    requires ParseDictionary(t, unescape, toDate).Some?
    requires o in ParseDictionary(t, unescape, toDate).value
    ensures var c := ResolveRoles(t.columns).value;
            exists r :: r in t.rows && IsCallReportRow(r, c)
              && o.variable == Upper(FullVariable(r, c))
              && o.description == CleanDescription(Cell(r, c.description), unescape)
              && (forall r' :: r' in t.rows && IsCallReportRow(r', c) && FullVariable(r', c) == FullVariable(r, c)
                    ==> LaterEq(EndDate(r, c, toDate), EndDate(r', c, toDate)))
  {
    var c := ResolveRoles(t.columns).value;
    var es := Entries(t.rows, c, toDate);
    var kept := Dedup(es);
    var out := ParseDictionary(t, unescape, toDate).value;
    assert o in multiset(out);
    assert o in Described(kept, unescape);
    DescribedFrom(kept, unescape, o);
    var e :| e in kept && o == DescribedRow(e, unescape);
    assert e in es;
    var r :| r in t.rows && IsCallReportRow(r, c) && e == Entry(r, c, toDate);
    forall r' | r' in t.rows && IsCallReportRow(r', c) && FullVariable(r', c) == FullVariable(r, c)
      ensures LaterEq(EndDate(r, c, toDate), EndDate(r', c, toDate))
    {
      assert Entry(r', c, toDate) in es;
    }
  }

  /** Every Call Report variable of the export has a kept definition, and
      when that definition's description cleans to something non-empty it
      appears in the dictionary. */
  lemma DictionaryComplete(t: Table, unescape: string -> string, toDate: Value -> Option<Date>, r: Row)
    requires ParseDictionary(t, unescape, toDate).Some?
    requires var c := ResolveRoles(t.columns).value;
             r in t.rows && IsCallReportRow(r, c)
    ensures var c := ResolveRoles(t.columns).value;
            FullVariable(r, c) in Keys(Dedup(Entries(t.rows, c, toDate)))
    ensures var c := ResolveRoles(t.columns).value;
            forall e :: e in Dedup(Entries(t.rows, c, toDate)) && e.key == FullVariable(r, c)
                          && |CleanDescription(e.description, unescape)| > 0
              ==> DictEntry(Upper(e.key), CleanDescription(e.description, unescape)) in ParseDictionary(t, unescape, toDate).value
  {
    var c := ResolveRoles(t.columns).value;
    var es := Entries(t.rows, c, toDate);
    var kept := Dedup(es);
    var x := Entry(r, c, toDate);
    assert x in es;
    assert x.key in Keys(es);
    var described := Described(kept, unescape);
    var out := ParseDictionary(t, unescape, toDate).value;
    assert multiset(out) == multiset(described);
    forall e | e in kept && e.key == FullVariable(r, c) && |CleanDescription(e.description, unescape)| > 0
      ensures DictEntry(Upper(e.key), CleanDescription(e.description, unescape)) in out
    {
      var o := DescribedRow(e, unescape);
      DescribedHas(kept, unescape, e);
      assert o in multiset(described);
    }
  }

  /** The read attempts of the MDRM export: UTF-8, then Latin-1, then
      cp1252; `read` gives the outcome per encoding. */
  function MdrmAttempts(read: string -> ReadOutcome<Table>): seq<ReadOutcome<Table>> {
    [read("utf-8"), read("latin-1"), read("cp1252")]
  }

  /** The MDRM export read with the encodings in turn, a UnicodeDecodeError
      moving on to the next. None is the error raised when no encoding reads
      it (or a read fails in any other way). */
  function ReadMdrm(read: string -> ReadOutcome<Table>): (r: Option<Table>)
    ensures r.Some? <==> exists i :: UsedAttempt(MdrmAttempts(read), i)
    ensures forall i :: UsedAttempt(MdrmAttempts(read), i) ==> r == Some(MdrmAttempts(read)[i].value)
  {
    FirstRead(MdrmAttempts(read))
  }

  /** The whole of `parse_dictionary`: the table of the encoding that reads
      the file is built into the dictionary; nothing is built when no
      encoding reads it. */
  function BuildDictionary(read: string -> ReadOutcome<Table>, unescape: string -> string, toDate: Value -> Option<Date>)
    : (r: Option<seq<DictEntry>>)
    ensures r.Some? ==> ReadMdrm(read).Some? && r == ParseDictionary(ReadMdrm(read).value, unescape, toDate)
    ensures ReadMdrm(read).None? ==> r.None?
    ensures forall i :: UsedAttempt(MdrmAttempts(read), i) ==>
              r == ParseDictionary(MdrmAttempts(read)[i].value, unescape, toDate)
  {
    match ReadMdrm(read)
    case None => None
    case Some(t) => ParseDictionary(t, unescape, toDate)
  }

  /** A decode error under UTF-8 falls back to Latin-1, whose table is the
      one built. */
  lemma BuildDictionaryLatin1(read: string -> ReadOutcome<Table>, unescape: string -> string, toDate: Value -> Option<Date>)
    requires read("utf-8").DecodeFailure? && read("latin-1").Read?
    ensures BuildDictionary(read, unescape, toDate) == ParseDictionary(read("latin-1").value, unescape, toDate)
  {
    assert UsedAttempt(MdrmAttempts(read), 1);
  }

  /** Any failure other than a decode error ends the attempts: nothing is
      built, whatever the later encodings would read. */
  lemma BuildDictionaryOtherFailure(read: string -> ReadOutcome<Table>, unescape: string -> string, toDate: Value -> Option<Date>)
    requires read("utf-8").OtherFailure?
    ensures BuildDictionary(read, unescape, toDate).None?
  {
    var a := MdrmAttempts(read);
    assert a[0] == read("utf-8");
    forall i ensures !UsedAttempt(a, i) {
      if 0 < i < |a| {
        assert !a[0].DecodeFailure?;
      }
    }
  }
}

=== FILE: download.dfy ===
/** download.py: which quarterly Chicago Fed archives are requested, under
    which names they are saved, and the skip-if-present bookkeeping. The
    HTTP request itself is an outcome supplied per request name. */
module Download {
  import opened Common
  import opened Periods

  // ---------------------------------------------------------------------
  // File names
  // ---------------------------------------------------------------------

  /** `s[-2:]`. */
  function LastTwo(s: string): (r: string)
    ensures |s| >= 2 ==> r == s[|s| - 2..]
  {
    if |s| >= 2 then s[|s| - 2..] else s
  }

  /** `s.zfill(2)` for a sign-free string of at least one character. */
  function Zfill2(s: string): (r: string)
    ensures |s| >= 2 ==> r == s
  {
    if |s| >= 2 then s else "0" + s
  }

  /** `f"call{str(year)[-2:]}{str(month).zfill(2)}"`. */
  function NameBase(d: Date): string {
    "call" + LastTwo(IntToDecimal(d.year)) + Zfill2(IntToDecimal(d.month))
  }

  /** The name the archive is saved under. */
  function SavedName(d: Date): string {
    NameBase(d) + ".zip"
  }

  /** The name the archive is requested under. */
  function RequestName(d: Date): string {
    NameBase(d) + "-zip.zip"
  }

  /** The tens and units digits of n are those of n % 100. */
  lemma LastTwoArith(n: nat)
    ensures (n % 100) / 10 == (n / 10) % 10 && (n % 100) % 10 == n % 10
  {
    var a, b := n / 100, n % 100;
    assert n == 100 * a + b;
    var c, e := b / 10, b % 10;
    assert b == 10 * c + e && 0 <= e < 10 && 0 <= c < 10;
    assert n == 10 * (10 * a + c) + e;
    assert n / 10 == 10 * a + c && n % 10 == e;
    assert (n / 10) % 10 == c;
  }

  /** The last two characters of a decimal numeral are its last two digits. */
  lemma {:induction false} LastTwoDigits(n: nat)
    requires n >= 10
    ensures LastTwo(NatToDecimal(n)) == TwoDigits(n % 100)
  {
    var s := NatToDecimal(n);
    var p := NatToDecimal(n / 10);
    assert s == p + [DigitChar(n % 10)];
    var t := (n / 10) % 10;
    assert p[|p| - 1] == DigitChar(t) by {
      if n / 10 >= 10 {
        assert p == NatToDecimal(n / 10 / 10) + [DigitChar(t)];
      }
    }
    assert LastTwo(s) == [DigitChar(t), DigitChar(n % 10)] by {
      assert s[|s| - 2] == p[|p| - 1];
    }
    LastTwoArith(n);
  }

  /** A two-digit number's numeral has no leading zero to add. */
  lemma TwoDigitNumeral(n: nat)
    requires 10 <= n < 100
    ensures NatToDecimal(n) == TwoDigits(n)
  {
    assert NatToDecimal(n / 10) == [DigitChar(n / 10)];
  }

  /** For a year of at least two digits and a month below 100 the saved name
      is `call`, two year digits, two month digits, `.zip`. */
  lemma SavedNameShape(d: Date)
    requires d.year >= 10 && 1 <= d.month < 100
    ensures SavedName(d) == "call" + TwoDigits(d.year % 100) + TwoDigits(d.month) + ".zip"
  {
    assert LastTwo(IntToDecimal(d.year)) == TwoDigits(d.year % 100) by {
      LastTwoDigits(d.year);
    }
    assert Zfill2(IntToDecimal(d.month)) == TwoDigits(d.month) by {
      if d.month >= 10 {
        TwoDigitNumeral(d.month);
      } else {
        assert IntToDecimal(d.month) == [DigitChar(d.month)];
      }
    }
  }

  /** `call`, two two-digit numerals and `.zip`, character by character. */
  lemma NameChars(yy: string, mm: string)
    requires |yy| == 2 && |mm| == 2 && AllDigits(yy) && AllDigits(mm)
    ensures var s := "call" + yy + mm + ".zip";
            && |s| == 12 && s[0..3] == "cal" && s[3] == 'l'
            && s[4..6] == yy && s[6..8] == mm && AllDigits(s[4..8])
            && Lower(s) == s
  {
    var s := "call" + yy + mm + ".zip";
    assert s[4..8] == yy + mm;
    forall i | 0 <= i < |s| ensures LowerChar(s[i]) == s[i] {
      if 4 <= i < 6 {
        assert s[i] == yy[i - 4];
      } else if 6 <= i < 8 {
        assert s[i] == mm[i - 6];
      }
    }
  }

  /** The saved name of a quarter end in 1976..2075 spelled out character
      by character: `call`, four digits, `.zip`, all lower case. */
  lemma SavedNameChars(d: Date)
    requires IsQuarterEnd(d) && 1976 <= d.year <= 2075
    ensures var s := SavedName(d);
            && |s| == 12 && s[0..3] == "cal" && s[3] == 'l'
            && s[4..6] == TwoDigits(d.year % 100) && s[6..8] == TwoDigits(d.month)
            && AllDigits(s[4..8]) && Lower(s) == s
  {
    SavedNameShape(d);
    NameChars(TwoDigits(d.year % 100), TwoDigits(d.month));
  }

  /** The year pivot and quarter-end day give back a quarter end in
      1976..2075 from its two-digit year and its month. */
  lemma ChicagoDateOfQuarterEnd(d: Date)
    requires IsQuarterEnd(d) && 1976 <= d.year <= 2075
    ensures ChicagoDate(d.year % 100, d.month) == Some(d)
  {
    var yy := d.year % 100;
    assert (if yy >= 76 then 1900 + yy else 2000 + yy) == d.year;
  }

  /** Round trip with the Chicago filename rule: inferring the period of a
      saved archive name gives back the quarter-end date it was built from,
      for every quarter end the two-digit year pivot can express. */
  lemma SavedNameRoundTrip(d: Date)
    requires IsQuarterEnd(d) && 1976 <= d.year <= 2075
    ensures InferChicago(SavedName(d)) == Some(d)
  {
    var s := SavedName(d);
    SavedNameChars(d);
    InferChicagoAtStart(s);
    ChicagoDateAtFields(s, 4, TwoDigits(d.year % 100), TwoDigits(d.month));
    ChicagoDateOfQuarterEnd(d);
  }

  // ---------------------------------------------------------------------
  // Which quarters are requested
  // ---------------------------------------------------------------------

  /** The first and last quarter ends the Chicago Fed publishes. */
  const FirstPublished := Date(1976, 3, 31)
  const LastPublished := Date(2021, 6, 30)

  /** The quarter-end date of a valid quarter. */
  function QuarterEndOf(x: QuarterId): (d: Date)
    requires ValidQuarter(x)
    ensures IsQuarterEnd(d) && QuarterOfDate(d) == x
  {
    Date(x.year, 3 * x.q, QuarterEndDay(3 * x.q).value)
  }

  function QuarterOfIndex(k: int): (x: QuarterId)
    ensures ValidQuarter(x) && QuarterIndex(x) == k
  {
    QuarterId(k / 4, k % 4 + 1)
  }

  /** Quarter ends are ordered as their quarter indices. */
  lemma QuarterEndOrder(a: Date, b: Date)
    requires IsQuarterEnd(a) && IsQuarterEnd(b)
    ensures DateLe(a, b) <==> QuarterIndex(QuarterOfDate(a)) <= QuarterIndex(QuarterOfDate(b))
  {
  }

  /** A quarter end is the quarter end of its own quarter. */
  lemma QuarterEndOfDate(d: Date)
    requires IsQuarterEnd(d)
    ensures QuarterEndOf(QuarterOfDate(d)) == d
  {
  }

  /** Quarter ends with indices lo..hi, in order. */
  function QuarterEndsBetween(lo: int, hi: int): (r: seq<Date>)
    ensures |r| == if lo <= hi then hi - lo + 1 else 0
    ensures forall i :: 0 <= i < |r| ==> r[i] == QuarterEndOf(QuarterOfIndex(lo + i))
    decreases hi - lo
  {
    if lo > hi then [] else [QuarterEndOf(QuarterOfIndex(lo))] + QuarterEndsBetween(lo + 1, hi)
  }

  /** A date is listed between lo and hi exactly when it is a quarter end
      whose index lies in lo..hi. */
  lemma QuarterEndsBetweenMember(lo: int, hi: int, d: Date)
    ensures d in QuarterEndsBetween(lo, hi) <==>
              IsQuarterEnd(d) && lo <= QuarterIndex(QuarterOfDate(d)) <= hi
  {
    var r := QuarterEndsBetween(lo, hi);
    if IsQuarterEnd(d) && lo <= QuarterIndex(QuarterOfDate(d)) <= hi {
      var k := QuarterIndex(QuarterOfDate(d));
      QuarterIndexInjective(QuarterOfIndex(k), QuarterOfDate(d));
      QuarterEndOfDate(d);
      assert r[k - lo] == d;
    }
  }

  /** Each listed quarter end is followed by the next quarter's. */
  lemma QuarterEndsBetweenSuccessive(lo: int, hi: int)
    ensures var r := QuarterEndsBetween(lo, hi);
            forall i :: 0 <= i < |r| - 1 ==> IsQuarterEnd(r[i]) && r[i + 1] == QuarterEndOf(NextQuarter(QuarterOfDate(r[i])))
  {
    var r := QuarterEndsBetween(lo, hi);
    forall i | 0 <= i < |r| - 1 ensures IsQuarterEnd(r[i]) && r[i + 1] == QuarterEndOf(NextQuarter(QuarterOfDate(r[i]))) {
      QuarterIndexInjective(QuarterOfIndex(lo + i + 1), NextQuarter(QuarterOfIndex(lo + i)));
    }
  }

  /** The clamped window `[max(Mar 31 of start, first), min(Dec 31 of end, last)]`. */
  function WindowStart(startYear: int): (d: Date)
    ensures IsQuarterEnd(d) && DateLe(FirstPublished, d)
  {
    DateMax(Date(startYear, 3, 31), FirstPublished)
  }

  function WindowEnd(endYear: int): (d: Date)
    ensures IsQuarterEnd(d) && DateLe(d, LastPublished)
  {
    DateMin(Date(endYear, 12, 31), LastPublished)
  }

  /** `pd.date_range(start_dt, end_dt, freq='QE')` after clamping the
      requested years to what is published: exactly the quarter-end dates in
      the clamped window, each followed by the next quarter's end. */
  function RequestedQuarters(startYear: int, endYear: int): (r: seq<Date>)
    ensures forall d :: d in r <==>
              IsQuarterEnd(d) && DateLe(WindowStart(startYear), d) && DateLe(d, WindowEnd(endYear))
    ensures forall i :: 0 <= i < |r| - 1 ==> IsQuarterEnd(r[i]) && r[i + 1] == QuarterEndOf(NextQuarter(QuarterOfDate(r[i])))
  {
    var start := WindowStart(startYear);
    var end := WindowEnd(endYear);
    var lo := QuarterIndex(QuarterOfDate(start));
    var hi := QuarterIndex(QuarterOfDate(end));
    var r := QuarterEndsBetween(lo, hi);
    assert forall d :: d in r <==> IsQuarterEnd(d) && DateLe(start, d) && DateLe(d, end) by {
      forall d ensures d in r <==> IsQuarterEnd(d) && DateLe(start, d) && DateLe(d, end) {
        QuarterEndsBetweenMember(lo, hi, d);
        if IsQuarterEnd(d) {
          QuarterEndOrder(start, d);
          QuarterEndOrder(d, end);
        }
      }
    }
    QuarterEndsBetweenSuccessive(lo, hi);
    r
  }

  /** Everything requested is published. */
  lemma RequestedArePublished(startYear: int, endYear: int, d: Date)
    requires d in RequestedQuarters(startYear, endYear)
    ensures DateLe(FirstPublished, d) && DateLe(d, LastPublished)
  {
  }

  // ---------------------------------------------------------------------
  // The download loop
  // ---------------------------------------------------------------------

  /** What a request for one archive does. A transfer that fails after the
      output file was opened leaves that (partial) file behind. */
  datatype FetchOutcome = Fetched | FailedBeforeWrite | FailedDuringWrite

  datatype DownloadLog = DownloadLog(downloaded: seq<string>, failed: seq<string>, present: set<string>)

  /** The per-quarter loop of `download_chicago_fed_data`: an archive already
      on disk is listed without a request; a failed request is recorded and
      the loop goes on. `present` is the set of saved names on disk. Every
      quarter is listed once, and every listed archive is on disk after. */
  function FetchAll(quarters: seq<Date>, present: set<string>, fetch: string -> FetchOutcome): (log: DownloadLog)
    ensures |log.downloaded| + |log.failed| == |quarters|
    ensures present <= log.present
    ensures forall x :: x in log.downloaded ==> x in log.present
  {
    if |quarters| == 0 then DownloadLog([], [], present)
    else
      var d := quarters[0];
      var saved := SavedName(d);
      var request := RequestName(d);
      var outcome := fetch(request);
      var present' :=
        if saved in present || outcome.Fetched? || outcome.FailedDuringWrite? then present + {saved} else present;
      var rest := FetchAll(quarters[1..], present', fetch);
      if saved in present then
        DownloadLog([saved] + rest.downloaded, rest.failed, rest.present)
      else if outcome.Fetched? then
        DownloadLog([saved] + rest.downloaded, rest.failed, rest.present)
      else
        DownloadLog(rest.downloaded, [request] + rest.failed, rest.present)
  }

  /** Quarter i is listed: as downloaded when its archive was on disk or
      its request succeeded, and otherwise as failed. */
  lemma {:induction false} FetchAllListsQuarter(quarters: seq<Date>, present: set<string>,
                                                fetch: string -> FetchOutcome, i: nat)
    requires i < |quarters|
    ensures var log := FetchAll(quarters, present, fetch);
            && (SavedName(quarters[i]) in log.downloaded || RequestName(quarters[i]) in log.failed)
            && (SavedName(quarters[i]) in present ==> SavedName(quarters[i]) in log.downloaded)
            && (fetch(RequestName(quarters[i])).Fetched? ==> SavedName(quarters[i]) in log.downloaded)
  {
    if i > 0 {
      var d := quarters[0];
      var outcome := fetch(RequestName(d));
      var present' :=
        if SavedName(d) in present || outcome.Fetched? || outcome.FailedDuringWrite? then present + {SavedName(d)} else present;
      FetchAllListsQuarter(quarters[1..], present', fetch, i - 1);
      assert quarters[1..][i - 1] == quarters[i];
    }
  }

  /** A listed download is the saved name of a requested quarter that was
      on disk before or whose request at least began writing it. */
  lemma {:induction false} FetchAllDownloadedSound(quarters: seq<Date>, present: set<string>,
                                                   fetch: string -> FetchOutcome, x: string)
    requires x in FetchAll(quarters, present, fetch).downloaded
    ensures exists d :: d in quarters && x == SavedName(d)
              && (x in present || !fetch(RequestName(d)).FailedBeforeWrite?)
  {
    var d := quarters[0];
    var outcome := fetch(RequestName(d));
    var present' :=
      if SavedName(d) in present || outcome.Fetched? || outcome.FailedDuringWrite? then present + {SavedName(d)} else present;
    var rest := FetchAll(quarters[1..], present', fetch);
    if x == SavedName(d) && (x in present || !outcome.FailedBeforeWrite?) {
      assert d in quarters;
    } else {
      assert x in rest.downloaded by {
        if SavedName(d) in present || outcome.Fetched? {
          assert x in [SavedName(d)] + rest.downloaded && x != SavedName(d);
        }
      }
      assert x in present' ==> x in present;
      FetchAllDownloadedSound(quarters[1..], present', fetch, x);
      var e :| e in quarters[1..] && x == SavedName(e) && (x in present' || !fetch(RequestName(e)).FailedBeforeWrite?);
      assert e in quarters;
    }
  }

  /** A listed failure is the request name of a quarter whose archive was
      not on disk and whose request did not succeed. */
  lemma {:induction false} FetchAllFailedSound(quarters: seq<Date>, present: set<string>,
                                               fetch: string -> FetchOutcome, x: string)
    requires x in FetchAll(quarters, present, fetch).failed
    ensures exists d :: d in quarters && x == RequestName(d)
              && SavedName(d) !in present && !fetch(x).Fetched?
  {
    var d := quarters[0];
    var outcome := fetch(RequestName(d));
    var present' :=
      if SavedName(d) in present || outcome.Fetched? || outcome.FailedDuringWrite? then present + {SavedName(d)} else present;
    var rest := FetchAll(quarters[1..], present', fetch);
    if x == RequestName(d) && SavedName(d) !in present && !outcome.Fetched? {
      assert d in quarters;
    } else {
      assert x in rest.failed;
      FetchAllFailedSound(quarters[1..], present', fetch, x);
      var e :| e in quarters[1..] && x == RequestName(e) && SavedName(e) !in present' && !fetch(x).Fetched?;
      assert e in quarters;
    }
  }

  /** A quarter's archive is on disk afterwards when it was there before
      or when its request got as far as opening the file. */
  predicate WroteArchive(quarters: seq<Date>, fetch: string -> FetchOutcome, x: string) {
    exists d :: d in quarters && x == SavedName(d) && !fetch(RequestName(d)).FailedBeforeWrite?
  }

  /** The files on disk after the loop: those before, plus the saved name
      of every quarter whose request began writing. */
  lemma {:induction false} FetchAllPresent(quarters: seq<Date>, present: set<string>,
                                           fetch: string -> FetchOutcome, x: string)
    ensures x in FetchAll(quarters, present, fetch).present <==> x in present || WroteArchive(quarters, fetch, x)
  {
    if |quarters| > 0 {
      var d := quarters[0];
      var outcome := fetch(RequestName(d));
      var present' :=
        if SavedName(d) in present || outcome.Fetched? || outcome.FailedDuringWrite? then present + {SavedName(d)} else present;
      FetchAllPresent(quarters[1..], present', fetch, x);
      if WroteArchive(quarters, fetch, x) {
        var e :| e in quarters && x == SavedName(e) && !fetch(RequestName(e)).FailedBeforeWrite?;
        if e != d {
          assert e in quarters[1..];
        }
      }
      if WroteArchive(quarters[1..], fetch, x) {
        var e :| e in quarters[1..] && x == SavedName(e) && !fetch(RequestName(e)).FailedBeforeWrite?;
        assert e in quarters;
      }
    }
  }

  /** `pd.to_datetime` of `{start}-03-31` and of `{end}-12-31` stays inside
      the nanosecond timestamp range, 1677-09-21 to 2262-04-11; outside it the
      conversion raises before any clamping. */
  predicate TimestampYears(startYear: int, endYear: int) {
    1678 <= startYear <= 2262 && 1677 <= endYear <= 2261
  }

  /** `download_chicago_fed_data`. None when a year is outside the timestamp
      range, or when the clamped window holds no quarter: the progress
      message indexes the first quarter and raises. */
  function DownloadChicago(startYear: int, endYear: int, present: set<string>, fetch: string -> FetchOutcome)
    : (r: Option<DownloadLog>)
    ensures r.None? <==> !TimestampYears(startYear, endYear) || |RequestedQuarters(startYear, endYear)| == 0
    ensures r.Some? ==> |r.value.downloaded| + |r.value.failed| == |RequestedQuarters(startYear, endYear)|
  {
    var quarters := RequestedQuarters(startYear, endYear);
    if !TimestampYears(startYear, endYear) || |quarters| == 0 then None else Some(FetchAll(quarters, present, fetch))
  }

  /** The year validation in `main`: years are clamped into 1976..2021, and
      an empty range ends the program with exit status 1 (None). */
  function ValidateYears(startYear: int, endYear: int): (r: Option<(int, int)>)
    ensures r.Some? ==> 1976 <= r.value.0 <= r.value.1 <= 2021
    ensures r.Some? ==> r.value.0 >= startYear && r.value.1 <= endYear
    ensures r.None? <==> startYear > 2021 || endYear < 1976 || startYear > endYear
  {
    var s := if startYear < 1976 || endYear > 2021 then (if startYear < 1976 then 1976 else startYear) else startYear;
    var e := if startYear < 1976 || endYear > 2021 then (if endYear > 2021 then 2021 else endYear) else endYear;
    if s > e then None else Some((s, e))
  }

  /** Years that pass `main`'s validation always give a non-empty request
      list starting at March 31 of the start year, and lie inside the
      timestamp range, so the download never fails before it starts. */
  lemma ValidatedRangeNonEmpty(startYear: int, endYear: int)
    requires ValidateYears(startYear, endYear).Some?
    ensures var (s, e) := ValidateYears(startYear, endYear).value;
            |RequestedQuarters(s, e)| > 0 && RequestedQuarters(s, e)[0] == Date(s, 3, 31)
    ensures var (s, e) := ValidateYears(startYear, endYear).value;
            TimestampYears(s, e)
  {
    var (s, e) := ValidateYears(startYear, endYear).value;
    var r := RequestedQuarters(s, e);
    assert Date(s, 3, 31) in r;
    var i :| 0 <= i < |r| && r[i] == Date(s, 3, 31);
    if i > 0 {
      FirstIsSmallest(r, i);
    }
  }

  /** In a list where each element is the next quarter's end of the one
      before, the first element is strictly earlier than every later one. */
  lemma {:induction false} FirstIsSmallest(r: seq<Date>, i: int)
    requires 0 < i < |r|
    requires forall j :: 0 <= j < |r| - 1 ==> IsQuarterEnd(r[j]) && r[j + 1] == QuarterEndOf(NextQuarter(QuarterOfDate(r[j])))
    ensures IsQuarterEnd(r[0]) && IsQuarterEnd(r[i])
    ensures QuarterIndex(QuarterOfDate(r[0])) < QuarterIndex(QuarterOfDate(r[i]))
  {
    if i > 1 {
      FirstIsSmallest(r, i - 1);
    }
  }
}

=== FILE: entities.dfy ===
/** 04_parse_chicago.py: the Chicago Fed extraction split by entity type.
    Each quarter's table is extracted as in parse_chicago.py, then its rows
    are partitioned by the RSSD9331 entity code into commercial banks,
    foreign bank branches and Edge/Agreement corporations, and each
    non-empty partition is written to its own directory. */
module ChicagoEntities {
  import opened Common
  import opened Tables
  import opened Periods
  import opened Sorting
  import opened ChicagoParse
  import opened Selection

  // ---------------------------------------------------------------------
  // Entity types
  // ---------------------------------------------------------------------

  datatype EntityType = CommercialBanks | ForeignBranches | EdgeCorporations

  /** The entity types in the order the script visits them. */
  const EntityTypes: seq<EntityType> := [CommercialBanks, ForeignBranches, EdgeCorporations]

  /** The output directory name of each entity type. */
  function DirName(e: EntityType): string {
    match e
    case CommercialBanks => "FFIEC_031_041"
    case ForeignBranches => "FFIEC_002"
    case EdgeCorporations => "FRB_2886b"
  }

  /** The RSSD9331 codes that select each entity type. */
  function Codes(e: EntityType): set<int> {
    match e
    case CommercialBanks => {1}
    case ForeignBranches => {10, 11}
    case EdgeCorporations => {13, 17}
  }

  /** The code sets of different entity types are disjoint. */
  lemma CodesDisjoint(e1: EntityType, e2: EntityType)
    requires e1 != e2
    ensures Codes(e1) * Codes(e2) == {}
  {
  }

  /** The entity type a code selects, if any. */
  function EntityOfCode(code: int): (r: Option<EntityType>)
    ensures forall e :: r == Some(e) <==> code in Codes(e)
  {
    if code == 1 then Some(CommercialBanks)
    else if code == 10 || code == 11 then Some(ForeignBranches)
    else if code == 13 || code == 17 then Some(EdgeCorporations)
    else None
  }

  /** Commercial-bank output stops after this date: from 2011 on those
      banks are covered by the FFIEC bulk files. */
  const CommercialBankCutoff := Date(2010, 12, 31)

  /** Whether an entity type is produced for a reporting period. */
  predicate Applicable(e: EntityType, period: Date) {
    !(e == CommercialBanks && DateLt(CommercialBankCutoff, period))
  }

  // ---------------------------------------------------------------------
  // Partitioning the rows
  // ---------------------------------------------------------------------

  /** `df['RSSD9331'].isin(codes)`: only a numeric cell matches. */
  predicate Belongs(r: Row, e: EntityType) {
    var v := Cell(r, "RSSD9331");
    v.Num? && v.n in Codes(e)
  }

  /** A row belongs to at most one entity type, and to none when its code
      is outside every code set. */
  lemma BelongsToOne(r: Row, e1: EntityType, e2: EntityType)
    ensures Belongs(r, e1) && Belongs(r, e2) ==> e1 == e2
    ensures Cell(r, "RSSD9331").Num? && EntityOfCode(Cell(r, "RSSD9331").n).None? ==> !Belongs(r, e1)
  {
  }

  /** The rows of one entity type, in table order. */
  function Partition(rows: seq<Row>, e: EntityType): (p: seq<Row>)
    ensures |p| <= |rows|
    ensures forall r :: r in p <==> r in rows && Belongs(r, e)
    ensures forall k :: 0 <= k < |p| ==> Belongs(p[k], e)
  {
    if |rows| == 0 then []
    else
      var rest := Partition(rows[1..], e);
      assert forall r :: r in rows <==> r == rows[0] || r in rows[1..];
      if Belongs(rows[0], e) then [rows[0]] + rest else rest
  }

  /** Because the code sets are disjoint, the three partitions together
      hold no more rows than the table. */
  lemma {:induction false} PartitionsFit(rows: seq<Row>)
    ensures |Partition(rows, CommercialBanks)| + |Partition(rows, ForeignBranches)|
            + |Partition(rows, EdgeCorporations)| <= |rows|
  {
    if |rows| > 0 {
      PartitionsFit(rows[1..]);
    }
  }

  // ---------------------------------------------------------------------
  // One quarter
  // ---------------------------------------------------------------------

  /** The output file of an entity type for a quarter, relative to the
      output directory. */
  function OutputPath(e: EntityType, period: Date): string
    requires 1 <= period.month <= 12
  {
    DirName(e) + "/" + QuarterLabel(QuarterOfDate(period)) + ".parquet"
  }

  /** Every applicable entity's output already exists. */
  predicate AllOutputsExist(period: Date, existing: set<string>)
    requires 1 <= period.month <= 12
  {
    forall e :: e in EntityTypes && Applicable(e, period) ==> OutputPath(e, period) in existing
  }

  /** What `process_quarter` returns: 'skipped', or the number of records
      written per entity type (empty after an error). */
  datatype QuarterResult = QuarterSkipped | Records(counts: map<EntityType, nat>)

  /** The entity types written for an extracted table: applicable ones with
      a non-empty partition. */
  function Written(x: Table, period: Date): (m: map<EntityType, nat>)
    ensures forall e :: e in m <==> Applicable(e, period) && |Partition(x.rows, e)| > 0
    ensures forall e :: e in m ==> m[e] == |Partition(x.rows, e)|
  {
    map e | e in EntityTypes && Applicable(e, period) && |Partition(x.rows, e)| > 0 :: |Partition(x.rows, e)|
  }

  /** The table written for one entity type: the extracted columns (the
      metadata columns already in front) and that entity's rows. */
  function EntityTable(x: Table, e: EntityType): (t: Table)
    ensures t.columns == x.columns
    ensures forall r :: r in t.rows <==> r in x.rows && Belongs(r, e)
  {
    Table(x.columns, Partition(x.rows, e))
  }

  /** `process_quarter`. `existing` is the set of output files already on
      disk, `read` the read outcome per encoding, and `writeOk` whether
      writing an entity's file succeeds; a failed write, like a failed read,
      is caught and gives an empty result. Every entity's table has the
      extracted columns, so when those repeat a name the first write fails. */
  function ProcessQuarter(read: string -> ReadOutcome<Table>, period: Date, existing: set<string>,
                          force: bool, writeOk: EntityType -> bool): (r: QuarterResult)
    requires IsQuarterEnd(period)
    ensures r.QuarterSkipped? <==> !force && AllOutputsExist(period, existing)
    ensures r.Records? ==> forall e :: e in r.counts ==> Applicable(e, period)
  {
    if !force && AllOutputsExist(period, existing) then QuarterSkipped
    else match ExtractRawQuarter(read, period)
      case None => Records(map[])
      case Some(x) =>
        if "RSSD9331" !in x.columns then Records(map[])
        else
          var m := Written(x, period);
          if Writable(x) && forall e :: e in m ==> writeOk(e) then Records(m) else Records(map[])
  }

  /** A quarter after 2010-12-31 never produces commercial-bank output. */
  lemma NoCommercialBanksAfterCutoff(read: string -> ReadOutcome<Table>, period: Date, existing: set<string>,
                                     force: bool, writeOk: EntityType -> bool)
    requires IsQuarterEnd(period) && DateLt(CommercialBankCutoff, period)
    ensures var r := ProcessQuarter(read, period, existing, force, writeOk);
            r.Records? ==> CommercialBanks !in r.counts
  {
  }

  /** The outcome of a processed quarter: without an RSSD9331 column, or
      with names that collide after upper-casing, the result is empty;
      otherwise, when every write succeeds, exactly the applicable non-empty
      partitions are reported, each with its size, and the reported sizes
      add up to at most the number of rows read. */
  lemma ProcessQuarterRecords(read: string -> ReadOutcome<Table>, period: Date, existing: set<string>,
                              force: bool, writeOk: EntityType -> bool)
    requires IsQuarterEnd(period) && (force || !AllOutputsExist(period, existing))
    requires ReadXport(read).Some?
    ensures var t := ReadXport(read).value;
            var x := ExtractRaw(t, period);
            var r := ProcessQuarter(read, period, existing, force, writeOk);
            && r.Records?
            && ("RSSD9331" !in x.columns ==> r.counts == map[])
            && (LabelsCollide(t.columns) ==> r.counts == map[])
            && ("RSSD9331" in x.columns && !LabelsCollide(t.columns) && (forall e :: writeOk(e)) ==>
                  && (forall e :: e in r.counts <==> Applicable(e, period) && |Partition(x.rows, e)| > 0)
                  && (forall e :: e in r.counts ==> r.counts[e] == |EntityTable(x, e).rows|))
            && Total(r.counts) <= |t.rows|
  {
    var t := ReadXport(read).value;
    var x := ExtractRaw(t, period);
    ExtractRawWritable(t, period);
    PartitionsFit(x.rows);
  }

  /** The records of a result summed over the entity types. */
  function Total(m: map<EntityType, nat>): nat {
    (if CommercialBanks in m then m[CommercialBanks] else 0)
    + (if ForeignBranches in m then m[ForeignBranches] else 0)
    + (if EdgeCorporations in m then m[EdgeCorporations] else 0)
  }

  // ---------------------------------------------------------------------
  // The driver
  // ---------------------------------------------------------------------

  /** A file kept for processing, with its inferred period. */
  datatype Candidate = Candidate(name: string, period: Date)

  predicate PeriodLe(a: Candidate, b: Candidate) {
    DateLe(a.period, b.period)
  }

  lemma PeriodLeIsTotalPreorder()
    ensures TotalPreorder(PeriodLe)
  {
  }

  /** The files whose period is inferable and inside the optional
      inclusive window, in input order. */
  function Candidates(names: seq<string>, start: Option<Date>, end: Option<Date>): (cs: seq<Candidate>)
    ensures forall c :: c in cs <==> c.name in names && Selected(c.name, start, end) && c.period == InferChicago(c.name).value
    ensures forall c :: c in cs ==> IsQuarterEnd(c.period)
  {
    if |names| == 0 then []
    else
      var rest := Candidates(names[1..], start, end);
      assert forall n :: n in names <==> n == names[0] || n in names[1..];
      var p := InferChicago(names[0]);
      if p.Some? && InWindow(p.value, start, end) then [Candidate(names[0], p.value)] + rest else rest
  }

  /** The files `main` processes, in ascending period order. */
  function SelectFiles(names: seq<string>, start: Option<Date>, end: Option<Date>): (cs: seq<Candidate>)
    ensures forall c :: c in cs <==> c.name in names && Selected(c.name, start, end) && c.period == InferChicago(c.name).value
    ensures SortedBy(cs, PeriodLe)
    ensures multiset(cs) == multiset(Candidates(names, start, end))
  {
    PeriodLeIsTotalPreorder();
    var cs := SortBy(Candidates(names, start, end), PeriodLe);
    assert forall c :: c in cs <==> c in multiset(cs);
    cs
  }

  /** The position of each entity type in the script's loop. */
  function Rank(e: EntityType): (n: nat)
    ensures n < |EntityTypes| && EntityTypes[n] == e
  {
    match e
    case CommercialBanks => 0
    case ForeignBranches => 1
    case EdgeCorporations => 2
  }

  /** The files a quarter's pass writes. A skipped quarter, an unreadable
      file, a table without RSSD9331 and one whose column names repeat
      write nothing; otherwise the
      non-empty applicable partitions are written in the script's order up
      to the first write that fails, and the files written before that
      failure stay on disk although the quarter reports nothing. */
  function QuarterWrites(read: string -> ReadOutcome<Table>, period: Date, disk: set<string>,
                         force: bool, writeOk: EntityType -> bool): (w: set<string>)
    requires IsQuarterEnd(period)
    ensures ProcessQuarter(read, period, disk, force, writeOk).QuarterSkipped? ==> w == {}
    ensures var r := ProcessQuarter(read, period, disk, force, writeOk);
            r.Records? ==> forall e :: e in r.counts ==> OutputPath(e, period) in w
    ensures forall p :: p in w ==> exists e :: Applicable(e, period) && p == OutputPath(e, period)
  {
    if !force && AllOutputsExist(period, disk) then {}
    else match ExtractRawQuarter(read, period)
      case None => {}
      case Some(x) =>
        if "RSSD9331" !in x.columns || !Writable(x) then {}
        else
          var m := Written(x, period);
          set e | e in m && writeOk(e) && (forall e' :: e' in m && Rank(e') < Rank(e) ==> writeOk(e')) :: OutputPath(e, period)
  }

  /** The files a pass over candidate `c` writes, given the disk before it. */
  function Writer(force: bool, read: string -> string -> ReadOutcome<Table>, writeOk: string -> EntityType -> bool)
    : (Candidate, set<string>) -> set<string>
  {
    (c: Candidate, d: set<string>) =>
      if IsQuarterEnd(c.period) then QuarterWrites(read(c.name), c.period, d, force, writeOk(c.name)) else {}
  }

  /** The output files on disk after the passes over `cs`, starting from
      `existing`; `step` gives the files one pass writes. */
  function DiskAfterQuarters(cs: seq<Candidate>, existing: set<string>, step: (Candidate, set<string>) -> set<string>)
    : (d: set<string>)
    ensures existing <= d
  {
    if |cs| == 0 then existing
    else
      var d := DiskAfterQuarters(cs[..|cs| - 1], existing, step);
      d + step(cs[|cs| - 1], d)
  }

  /** Files are never removed: a later pass sees every file an earlier one
      saw or wrote. */
  lemma {:induction false} DiskAfterQuartersGrows(cs: seq<Candidate>, existing: set<string>,
                                                  step: (Candidate, set<string>) -> set<string>, j: nat, k: nat)
    requires j <= k <= |cs|
    ensures DiskAfterQuarters(cs[..j], existing, step) <= DiskAfterQuarters(cs[..k], existing, step)
    decreases k - j
  {
    if j < k {
      DiskAfterQuartersGrows(cs, existing, step, j, k - 1);
      assert cs[..k][..k - 1] == cs[..k - 1];
    }
  }

  /** The whole run: every selected quarter is processed in period order,
      each seeing the files on disk before it, including those earlier
      quarters of the run wrote. `read` gives each file's read outcomes,
      `writeOk` each quarter's write outcomes per entity. */
  function RunEntities(names: seq<string>, start: Option<Date>, end: Option<Date>, existing: set<string>, force: bool,
                       read: string -> string -> ReadOutcome<Table>, writeOk: string -> EntityType -> bool)
    : (results: seq<QuarterResult>)
    ensures |results| == |SelectFiles(names, start, end)|
    ensures force ==> forall k :: 0 <= k < |results| ==> results[k].Records?
    ensures forall k :: 0 <= k < |results| && results[k].Records? ==>
              forall e :: e in results[k].counts ==> Applicable(e, SelectFiles(names, start, end)[k].period)
  {
    var cs := SelectFiles(names, start, end);
    seq(|cs|, k requires 0 <= k < |cs| =>
      assert cs[k] in cs;
      ProcessQuarter(read(cs[k].name), cs[k].period,
                     DiskAfterQuarters(cs[..k], existing, Writer(force, read, writeOk)), force, writeOk(cs[k].name)))
  }

  /** A later file of the same period is skipped, when the run is not
      forced, once an earlier one was skipped or wrote every applicable
      entity type: the later pass finds all the outputs on disk. */
  lemma RepeatedQuarterSkipped(names: seq<string>, start: Option<Date>, end: Option<Date>, existing: set<string>,
                               read: string -> string -> ReadOutcome<Table>, writeOk: string -> EntityType -> bool,
                               j: nat, k: nat)
    requires j < k < |SelectFiles(names, start, end)|
    requires SelectFiles(names, start, end)[j].period == SelectFiles(names, start, end)[k].period
    requires var r := RunEntities(names, start, end, existing, false, read, writeOk)[j];
             r.QuarterSkipped?
             || (r.Records? && forall e :: Applicable(e, SelectFiles(names, start, end)[j].period) ==> e in r.counts)
    ensures RunEntities(names, start, end, existing, false, read, writeOk)[k].QuarterSkipped?
  {
    var cs := SelectFiles(names, start, end);
    var step := Writer(false, read, writeOk);
    var c := cs[j];
    assert c in cs && cs[k] in cs;
    var dj := DiskAfterQuarters(cs[..j], existing, step);
    var dk := DiskAfterQuarters(cs[..k], existing, step);
    PassCoversQuarter(read(c.name), c.period, dj, writeOk(c.name));
    DiskAfterQuartersStep(cs, existing, step, j);
    DiskAfterQuartersGrows(cs, existing, step, j + 1, k);
    AllOutputsExistGrows(c.period, DiskAfterQuarters(cs[..j + 1], existing, step), dk);
  }

  /** After a pass that skipped its quarter or wrote every applicable
      entity type, every output of that quarter is on disk. */
  lemma PassCoversQuarter(read: string -> ReadOutcome<Table>, period: Date, disk: set<string>, writeOk: EntityType -> bool)
    requires IsQuarterEnd(period)
    requires var r := ProcessQuarter(read, period, disk, false, writeOk);
             r.QuarterSkipped? || (r.Records? && forall e :: Applicable(e, period) ==> e in r.counts)
    ensures AllOutputsExist(period, disk + QuarterWrites(read, period, disk, false, writeOk))
  {
  }

  lemma AllOutputsExistGrows(period: Date, d1: set<string>, d2: set<string>)
    requires 1 <= period.month <= 12 && d1 <= d2 && AllOutputsExist(period, d1)
    ensures AllOutputsExist(period, d2)
  {
  }

  lemma DiskAfterQuartersStep(cs: seq<Candidate>, existing: set<string>, step: (Candidate, set<string>) -> set<string>, j: nat)
    requires j < |cs|
    ensures DiskAfterQuarters(cs[..j + 1], existing, step)
            == DiskAfterQuarters(cs[..j], existing, step) + step(cs[j], DiskAfterQuarters(cs[..j], existing, step))
  {
    assert cs[..j + 1][..j] == cs[..j];
  }

  /** Per-entity statistics: quarters written, records written, quarters
      skipped. */
  datatype EntityStats = EntityStats(processed: nat, records: nat, skipped: nat)

  predicate Skips(r: QuarterResult) { r.QuarterSkipped? }

  /** A result that reports entity type `e`. */
  function Reports(e: EntityType): QuarterResult -> bool {
    (r: QuarterResult) => r.Records? && e in r.counts
  }

  /** The records a result reports for `e` (none when it does not report it). */
  function RecordsOf(e: EntityType): QuarterResult -> nat {
    (r: QuarterResult) => if r.Records? && e in r.counts then r.counts[e] else 0
  }

  /** The statistics `main` accumulates for one entity type: the quarters
      skipped (a skipped quarter counts for every entity type), the quarters
      that report `e` and the records they report for it. */
  function StatsFor(results: seq<QuarterResult>, e: EntityType): (s: EntityStats)
    ensures s.skipped == Count(results, Skips)
    ensures s.processed == Count(results, Reports(e))
    ensures s.records == Sum(results, RecordsOf(e))
    ensures s.processed + s.skipped <= |results|
  {
    if |results| == 0 then EntityStats(0, 0, 0)
    else
      var init := results[..|results| - 1];
      var last := results[|results| - 1];
      assert results == init + [last];
      CountSnoc(init, last, Skips);
      CountSnoc(init, last, Reports(e));
      SumSnoc(init, last, RecordsOf(e));
      var s := StatsFor(init, e);
      match last
      case QuarterSkipped => s.(skipped := s.skipped + 1)
      case Records(m) =>
        if e in m then s.(processed := s.processed + 1, records := s.records + m[e]) else s
  }

  /** When every selected quarter is after 2010-12-31, the commercial-bank
      statistics stay at zero. */
  lemma NoCommercialBankStatsAfterCutoff(names: seq<string>, start: Option<Date>, end: Option<Date>, existing: set<string>,
                                         force: bool, read: string -> string -> ReadOutcome<Table>,
                                         writeOk: string -> EntityType -> bool)
    requires forall c :: c in SelectFiles(names, start, end) ==> DateLt(CommercialBankCutoff, c.period)
    ensures var s := StatsFor(RunEntities(names, start, end, existing, force, read, writeOk), CommercialBanks);
            s.processed == 0 && s.records == 0
  {
    var cs := SelectFiles(names, start, end);
    var results := RunEntities(names, start, end, existing, force, read, writeOk);
    forall k | 0 <= k < |results| ensures !Reports(CommercialBanks)(results[k]) && RecordsOf(CommercialBanks)(results[k]) == 0 {
      assert cs[k] in cs;
    }
  }
}

=== FILE: ffiec.dfy ===
/** The FFIEC bulk-file parser of parse_ffiec.py, whose parsing half
    05_parse_ffiec.py repeats line for line: reading one tab-delimited
    schedule, merging the schedules of a zip archive on the bank identifier,
    putting the result into the standard column layout, and the per-file
    bookkeeping of the driver. */
module FfiecParse {
  import opened Common
  import opened Tables
  import opened Periods
  import opened Sorting
  import opened Selection

  /** The identifier column every parsed schedule carries. */
  const Key := "RSSD_ID"

  // ---------------------------------------------------------------------
  // One schedule (parse_text_content)
  // ---------------------------------------------------------------------

  /** The identifier column test: "RSSD" occurs in the upper-cased name.
      The further tests for "IDRSSD" and "RSSD9001" name strings that
      contain "RSSD" and so never decide anything. */
  predicate IsIdColumn(c: string) {
    Contains(Upper(c), "RSSD")
  }

  /** Index of the first identifier column at or after `k`. */
  function FirstIdIndex(cols: seq<string>, k: nat): (r: Option<nat>)
    requires k <= |cols|
    ensures r.None? <==> forall j :: k <= j < |cols| ==> !IsIdColumn(cols[j])
    ensures r.Some? ==> k <= r.value < |cols| && IsIdColumn(cols[r.value])
    ensures r.Some? ==> forall j :: k <= j < r.value ==> !IsIdColumn(cols[j])
    decreases |cols| - k
  {
    if k == |cols| then None
    else if IsIdColumn(cols[k]) then Some(k)
    else FirstIdIndex(cols, k + 1)
  }

  /** `pd.to_numeric` on the text of one cell: the number it denotes, if
      any. The parser itself is a library routine and is left abstract. */
  type NumberParser = string -> Option<int>

  /** The number a cell denotes. A cell read with `dtype=str` is text or
      missing; a missing cell denotes no number. */
  function NumberOf(v: Value, num: NumberParser): Option<int> {
    match v
    case Num(n) => Some(n)
    case Text(s) => num(s)
    case _ => None
  }

  /** A cell that `to_numeric` can convert: a number or a missing value. */
  predicate Numeric(v: Value, num: NumberParser) {
    v.Missing? || NumberOf(v, num).Some?
  }

  /** The converted cell: its number, a missing cell staying missing. */
  function Coerce(v: Value, num: NumberParser): (r: Value)
    ensures Numeric(v, num) ==> r.Missing? || r.Num?
    ensures !Numeric(v, num) ==> r == v
    ensures r.Num? && v.Text? ==> num(v.s) == Some(r.n)
  {
    match NumberOf(v, num)
    case Some(n) => Num(n)
    case None => v
  }

  /** The row has an identifier `to_numeric(errors='coerce')` keeps. */
  predicate HasId(r: Row, idc: string, num: NumberParser) {
    NumberOf(Cell(r, idc), num).Some?
  }

  /** The rows `dropna(subset=['RSSD_ID'])` keeps, in their order. */
  function IdentifiedRows(rows: seq<Row>, idc: string, num: NumberParser): (r: seq<Row>)
    ensures forall x :: x in r <==> x in rows && HasId(x, idc, num)
    ensures forall k :: 0 <= k < |r| ==> HasId(r[k], idc, num)
    ensures |r| <= |rows|
  {
    Filter(rows, x => HasId(x, idc, num))
  }

  /** The identifier cell moved under RSSD_ID as an integer. */
  function Rekey(r: Row, idc: string, num: NumberParser): (x: Row)
    requires HasId(r, idc, num)
    ensures Cell(x, Key) == Num(NumberOf(Cell(r, idc), num).value)
    ensures forall c :: c != Key && c != idc ==> Cell(x, c) == Cell(r, c)
  {
    (r - {idc})[Key := Num(NumberOf(Cell(r, idc), num).value)]
  }

  /** `df.rename(columns={idc: 'RSSD_ID'})` on the name list. */
  function Rename(cols: seq<string>, idc: string): (r: seq<string>)
    ensures |r| == |cols|
    ensures forall i :: 0 <= i < |cols| ==> r[i] == (if cols[i] == idc then Key else cols[i])
  {
    seq(|cols|, i requires 0 <= i < |cols| => if cols[i] == idc then Key else cols[i])
  }

  /** The columns `to_numeric(errors='ignore')` converts: every cell of the
      column, over the kept rows, is convertible. */
  function NumericColumns(cols: seq<string>, rows: seq<Row>, num: NumberParser): (s: set<string>)
    ensures forall c :: c in s <==> c in cols && c != Key && forall k :: 0 <= k < |rows| ==> Numeric(Cell(rows[k], c), num)
  {
    set c | c in cols && c != Key && forall k :: 0 <= k < |rows| ==> Numeric(Cell(rows[k], c), num)
  }

  function CoerceRow(r: Row, numeric: set<string>, num: NumberParser): (x: Row)
    ensures forall c :: Cell(x, c) == if c in numeric then Coerce(Cell(r, c), num) else Cell(r, c)
  {
    map c | c in r :: if c in numeric then Coerce(r[c], num) else r[c]
  }

  /** The identifier column is renamed onto a name that another column
      already has; selecting RSSD_ID then yields two columns, which the
      numeric conversion rejects, and the schedule is reported unparsed. */
  predicate IdClash(cols: seq<string>, i: nat)
    requires i < |cols|
  {
    cols[i] != Key && Key in cols
  }

  /** The rows kept, re-keyed: one per read row with an identifier. */
  function KeptRows(rows: seq<Row>, idc: string, num: NumberParser): (r: seq<Row>)
    ensures |r| == |IdentifiedRows(rows, idc, num)|
    ensures forall k :: 0 <= k < |r| ==> r[k] == Rekey(IdentifiedRows(rows, idc, num)[k], idc, num)
  {
    var src := IdentifiedRows(rows, idc, num);
    seq(|src|, k requires 0 <= k < |src| => Rekey(src[k], idc, num))
  }

  /** The kept rows after the per-column conversion. */
  function ConvertedRows(kept: seq<Row>, cols: seq<string>, num: NumberParser): (r: seq<Row>)
    ensures |r| == |kept|
    ensures forall k :: 0 <= k < |r| ==> r[k] == CoerceRow(kept[k], NumericColumns(cols, kept, num), num)
  {
    var numeric := NumericColumns(cols, kept, num);
    seq(|kept|, k requires 0 <= k < |kept| => CoerceRow(kept[k], numeric, num))
  }

  /** The parsed schedule once `cols[i]` is the identifier column: the
      columns with that one renamed; one row per read row whose identifier
      parses, in order, carrying that identifier as an integer. */
  function Schedule(t: Table, i: nat, num: NumberParser): (out: Table)
    requires i < |t.columns|
    ensures |out.columns| == |t.columns| && out.columns[i] == Key
    ensures forall j :: 0 <= j < |t.columns| && t.columns[j] != t.columns[i] ==> out.columns[j] == t.columns[j]
    ensures |out.rows| == |IdentifiedRows(t.rows, t.columns[i], num)|
    ensures forall k :: 0 <= k < |out.rows| ==>
              var x := IdentifiedRows(t.rows, t.columns[i], num)[k];
              Cell(out.rows[k], Key) == Num(NumberOf(Cell(x, t.columns[i]), num).value)
  {
    var cols := Rename(t.columns, t.columns[i]);
    Table(cols, ConvertedRows(KeptRows(t.rows, t.columns[i], num), cols, num))
  }

  /** `parse_text_content`. `csv` is what `read_csv(sep='\t', dtype=str)`
      makes of the text, None when it raises (an empty text among others).
      The splitting into lines the source does first never yields an empty
      list, so its emptiness test never fires. */
  function ParseSchedule(csv: Option<Table>, num: NumberParser): (r: Option<Table>)
    ensures r.Some? <==>
              && csv.Some?
              && FirstIdIndex(csv.value.columns, 0).Some?
              && !IdClash(csv.value.columns, FirstIdIndex(csv.value.columns, 0).value)
    ensures r.Some? ==> Key in r.value.columns && |r.value.columns| == |csv.value.columns|
    ensures r.Some? ==> |r.value.rows| <= |csv.value.rows|
    ensures r.Some? ==> forall k :: 0 <= k < |r.value.rows| ==> Cell(r.value.rows[k], Key).Num?
    ensures r.Some? ==> r.value == Schedule(csv.value, FirstIdIndex(csv.value.columns, 0).value, num)
  {
    match csv
    case None => None
    case Some(t) =>
      match FirstIdIndex(t.columns, 0)
      case None => None
      case Some(i) =>
        if IdClash(t.columns, i) then None
        else
          var out := Schedule(t, i, num);
          assert out.columns[i] == Key;
          Some(out)
  }

  /** The set of identifiers a table's rows carry. */
  function IdSet(rows: seq<Row>): set<Value> {
    set r | r in rows :: Cell(r, Key)
  }

  /** All or nothing: a column other than the identifier is converted in
      every kept row when each of its kept cells is convertible, and is left
      as read in every row otherwise. */
  /** Every kept cell of column `c` is convertible. */
  predicate AllNumeric(src: seq<Row>, c: string, num: NumberParser) {
    forall k :: 0 <= k < |src| ==> Numeric(Cell(src[k], c), num)
  }

  /** Re-keying leaves every other column's cells as read. */
  lemma KeptCells(rows: seq<Row>, idc: string, num: NumberParser, c: string)
    requires c != idc && c != Key
    ensures var src := IdentifiedRows(rows, idc, num);
            var kept := KeptRows(rows, idc, num);
            forall k :: 0 <= k < |src| ==> Cell(kept[k], c) == Cell(src[k], c)
  {
  }

  lemma ScheduleCoercion(t: Table, i: nat, num: NumberParser, c: string)
    requires i < |t.columns|
    requires c in Schedule(t, i, num).columns && c != Key
    ensures var src := IdentifiedRows(t.rows, t.columns[i], num);
            var out := Schedule(t, i, num);
            forall k :: 0 <= k < |src| ==>
              Cell(out.rows[k], c) == if AllNumeric(src, c, num) then Coerce(Cell(src[k], c), num) else Cell(src[k], c)
  {
    var idc := t.columns[i];
    var src := IdentifiedRows(t.rows, idc, num);
    var cols := Rename(t.columns, idc);
    var kept := KeptRows(t.rows, idc, num);
    var out := Schedule(t, i, num);
    var numeric := NumericColumns(cols, kept, num);
    assert out.rows == ConvertedRows(kept, cols, num);
    assert c in numeric <==> AllNumeric(src, c, num) by {
      assert c != idc && c in cols;
      KeptCells(t.rows, idc, num, c);
    }
    forall k | 0 <= k < |src|
      ensures Cell(out.rows[k], c) == if c in numeric then Coerce(Cell(src[k], c), num) else Cell(src[k], c)
    {
      assert out.rows[k] == CoerceRow(kept[k], numeric, num);
    }
  }

  /** The identifiers of a parsed schedule are exactly the parsed
      identifiers of the read rows: no row with a number is lost, none
      without one survives. */
  lemma ScheduleIds(t: Table, i: nat, num: NumberParser)
    requires i < |t.columns|
    ensures var idc := t.columns[i];
            IdSet(Schedule(t, i, num).rows)
              == set x | x in t.rows && HasId(x, idc, num) :: Num(NumberOf(Cell(x, idc), num).value)
  {
    var idc := t.columns[i];
    var want := set x | x in t.rows && HasId(x, idc, num) :: Num(NumberOf(Cell(x, idc), num).value);
    forall v | v in IdSet(Schedule(t, i, num).rows) ensures v in want {
      ScheduleIdSound(t, i, num, v);
    }
    forall v | v in want ensures v in IdSet(Schedule(t, i, num).rows) {
      var x :| x in t.rows && HasId(x, idc, num) && v == Num(NumberOf(Cell(x, idc), num).value);
      ScheduleIdComplete(t, i, num, x);
    }
  }

  lemma ScheduleIdSound(t: Table, i: nat, num: NumberParser, v: Value)
    requires i < |t.columns| && v in IdSet(Schedule(t, i, num).rows)
    ensures exists x :: x in t.rows && HasId(x, t.columns[i], num) && v == Num(NumberOf(Cell(x, t.columns[i]), num).value)
  {
    var out := Schedule(t, i, num);
    var src := IdentifiedRows(t.rows, t.columns[i], num);
    var r :| r in out.rows && Cell(r, Key) == v;
    var k :| 0 <= k < |out.rows| && out.rows[k] == r;
    assert src[k] in src;
  }

  lemma ScheduleIdComplete(t: Table, i: nat, num: NumberParser, x: Row)
    requires i < |t.columns| && x in t.rows && HasId(x, t.columns[i], num)
    ensures Num(NumberOf(Cell(x, t.columns[i]), num).value) in IdSet(Schedule(t, i, num).rows)
  {
    var out := Schedule(t, i, num);
    var src := IdentifiedRows(t.rows, t.columns[i], num);
    assert x in src;
    var k :| 0 <= k < |src| && src[k] == x;
    assert out.rows[k] in out.rows;
  }

  // ---------------------------------------------------------------------
  // Zip archives (parse_zip_file)
  // ---------------------------------------------------------------------

  /** One archive member: its name, whether its bytes decode as UTF-8, and
      what `read_csv` makes of the decoded text. */
  datatype Member = Member(name: string, utf8: bool, csv: Option<Table>)

  /** Members the parser reads: names ending in ".txt" or ".csv", case as
      written. */
  predicate IsScheduleName(n: string) {
    EndsWith(n, ".txt") || EndsWith(n, ".csv")
  }

  /** The frame one member contributes, if any. A member that is not UTF-8
      is decoded again as Latin-1 from the stream the first attempt already
      consumed; that text is empty, `read_csv` fails on it, and the member
      contributes nothing. An empty frame is not kept either. */
  function MemberTable(m: Member, num: NumberParser): (r: Option<Table>)
    ensures r.Some? <==>
              && IsScheduleName(m.name) && m.utf8
              && ParseSchedule(m.csv, num).Some? && |ParseSchedule(m.csv, num).value.rows| > 0
    ensures r.Some? ==> r.value == ParseSchedule(m.csv, num).value
  {
    if !IsScheduleName(m.name) || !m.utf8 then None
    else match ParseSchedule(m.csv, num)
      case None => None
      case Some(t) => if |t.rows| == 0 then None else Some(t)
  }

  /** The frames of the archive, in member order. */
  function MemberTables(ms: seq<Member>, num: NumberParser): (r: seq<Table>)
    ensures forall t :: t in r <==> exists m :: m in ms && MemberTable(m, num) == Some(t)
    ensures forall t :: t in r ==> Key in t.columns
  {
    if |ms| == 0 then []
    else
      var rest := MemberTables(ms[1..], num);
      assert forall m :: m in ms <==> m == ms[0] || m in ms[1..];
      match MemberTable(ms[0], num)
      case None => rest
      case Some(t) => [t] + rest
  }

  /** Names the merge suffixes onto the second frame's copy of a shared
      column, all of which are then dropped. */
  predicate IsDup(c: string) {
    EndsWith(c, "_dup")
  }

  /** `df.drop(columns=[c for c in df.columns if c.endswith('_dup')])` on
      the name list. */
  function DropDup(cols: seq<string>): (r: seq<string>)
    ensures forall c :: c in r <==> c in cols && !IsDup(c)
    ensures |r| <= |cols|
    ensures (forall c :: c in cols ==> !IsDup(c)) ==> r == cols
  {
    if |cols| == 0 then []
    else
      assert forall c :: c in cols <==> c == cols[0] || c in cols[1..];
      (if IsDup(cols[0]) then [] else [cols[0]]) + DropDup(cols[1..])
  }

  lemma {:induction false} DropDupConcat(a: seq<string>, b: seq<string>)
    ensures DropDup(a + b) == DropDup(a) + DropDup(b)
    decreases |a|
  {
    if |a| == 0 {
      assert a + b == b;
    } else {
      var head := if IsDup(a[0]) then [] else [a[0]];
      assert (a + b)[0] == a[0];
      assert (a + b)[1..] == a[1..] + b;
      DropDupConcat(a[1..], b);
      assert DropDup(a + b) == head + (DropDup(a[1..]) + DropDup(b));
      ConcatAssoc(head, DropDup(a[1..]), DropDup(b));
    }
  }

  /** The second frame's columns the merge adds: not the key and not
      already in the first frame. */
  function Added(left: seq<string>, right: seq<string>): (r: seq<string>)
    ensures forall c :: c in r <==> c in right && c != Key && c !in left
  {
    if |right| == 0 then []
    else
      assert forall c :: c in right <==> c == right[0] || c in right[1..];
      (if right[0] != Key && right[0] !in left then [right[0]] else []) + Added(left, right[1..])
  }

  /** Columns after one merge step: the first frame's, then the second
      frame's new ones; a column both frames have keeps the first frame's
      name (and values), the second's copy is suffixed and dropped. */
  function MergedColumns(left: seq<string>, right: seq<string>): (r: seq<string>)
    ensures forall c :: c in r <==> !IsDup(c) && (c in left || (c in right && c != Key))
    ensures |DropDup(left)| <= |r| && r[..|DropDup(left)|] == DropDup(left)
    ensures forall c :: c in r ==> !IsDup(c)
  {
    DropDupConcat(left, Added(left, right));
    DropDup(left + Added(left, right))
  }

  /** One output row of the outer join: the key, the first frame's cells
      and the second frame's cells of the added columns; a side without a
      partner row reads as missing. */
  function JoinRow(l: Row, r: Row, cols: seq<string>, added: seq<string>, id: Value): (x: Row)
    ensures Cell(x, Key) == id
  {
    map c | c in cols + [Key] :: if c == Key then id else if c in added then Cell(r, c) else Cell(l, c)
  }

  function Matches(rs: seq<Row>, id: Value): (m: seq<Row>)
    ensures forall x :: x in m <==> x in rs && Cell(x, Key) == id
  {
    Filter(rs, x => Cell(x, Key) == id)
  }

  lemma IdSetConcat(a: seq<Row>, b: seq<Row>)
    ensures IdSet(a + b) == IdSet(a) + IdSet(b)
  {
    assert forall x :: x in a + b <==> x in a || x in b;
  }

  /** The output rows of one first-frame row: one per second-frame row of
      the same identifier, or the row alone when there is none. */
  function Block(l: Row, rs: seq<Row>, cols: seq<string>, added: seq<string>): (b: seq<Row>)
    ensures IdSet(b) == {Cell(l, Key)}
  {
    var id := Cell(l, Key);
    var m := Matches(rs, id);
    var block := if |m| == 0 then [JoinRow(l, map[], cols, added, id)]
                 else seq(|m|, k requires 0 <= k < |m| => JoinRow(l, m[k], cols, added, id));
    assert block[0] in block;
    block
  }

  /** The first frame's rows, each paired with every second-frame row of
      the same identifier, or kept alone when there is none. */
  function JoinLeft(ls: seq<Row>, rs: seq<Row>, cols: seq<string>, added: seq<string>): (r: seq<Row>)
    ensures IdSet(r) == IdSet(ls)
  {
    if |ls| == 0 then []
    else
      var block := Block(ls[0], rs, cols, added);
      var rest := JoinLeft(ls[1..], rs, cols, added);
      IdSetConcat(block, rest);
      IdSetConcat([ls[0]], ls[1..]);
      assert ls == [ls[0]] + ls[1..];
      block + rest
  }

  /** The second frame's rows whose identifier the first frame lacks. */
  function RightOnly(ls: seq<Row>, rs: seq<Row>, cols: seq<string>, added: seq<string>): (r: seq<Row>)
    ensures IdSet(r) == IdSet(rs) - IdSet(ls)
  {
    var left := IdSet(ls);
    var unmatched := Filter(rs, x => Cell(x, Key) !in left);
    var r := seq(|unmatched|, k requires 0 <= k < |unmatched| => JoinRow(map[], unmatched[k], cols, added, Cell(unmatched[k], Key)));
    SameKeysSameIds(unmatched, r);
    r
  }

  /** Rows carrying the same identifiers position by position carry the
      same set of identifiers. */
  lemma SameKeysSameIds(xs: seq<Row>, ys: seq<Row>)
    requires |xs| == |ys| && forall k :: 0 <= k < |xs| ==> Cell(ys[k], Key) == Cell(xs[k], Key)
    ensures IdSet(ys) == IdSet(xs)
  {
    forall v | v in IdSet(ys) ensures v in IdSet(xs) {
      var y :| y in ys && Cell(y, Key) == v;
      var k :| 0 <= k < |ys| && ys[k] == y;
      assert xs[k] in xs;
    }
    forall v | v in IdSet(xs) ensures v in IdSet(ys) {
      var x :| x in xs && Cell(x, Key) == v;
      var k :| 0 <= k < |xs| && xs[k] == x;
      assert ys[k] in ys;
    }
  }

  /** `result.merge(df, on='RSSD_ID', how='outer', suffixes=('', '_dup'))`
      followed by dropping the suffixed columns. The row order pandas gives
      an outer join is not modelled; the rows as a collection are. */
  function Merge(a: Table, b: Table): (r: Table)
    ensures r.columns == MergedColumns(a.columns, b.columns)
    ensures IdSet(r.rows) == IdSet(a.rows) + IdSet(b.rows)
  {
    var cols := MergedColumns(a.columns, b.columns);
    var added := Added(a.columns, b.columns);
    var left := JoinLeft(a.rows, b.rows, cols, added);
    var right := RightOnly(a.rows, b.rows, cols, added);
    IdSetConcat(left, right);
    Table(cols, left + right)
  }

  /** Every identifier of any of the frames. */
  function UnionIds(ts: seq<Table>): (u: set<Value>)
    ensures forall v :: v in u <==> exists k :: 0 <= k < |ts| && v in IdSet(ts[k].rows)
  {
    if |ts| == 0 then {}
    else
      var init := ts[..|ts| - 1];
      assert forall k :: 0 <= k < |init| ==> init[k] == ts[k];
      UnionIds(init) + IdSet(ts[|ts| - 1].rows)
  }

  /** The merge of all frames, each later frame into the running result;
      its identifiers are those of all the frames. */
  function MergeAll(ts: seq<Table>): (r: Table)
    requires |ts| > 0
    ensures IdSet(r.rows) == UnionIds(ts)
    ensures |ts| == 1 ==> r == ts[0]
  {
    if |ts| == 1 then ts[0]
    else Merge(MergeAll(ts[..|ts| - 1]), ts[|ts| - 1])
  }

  /** Some frame after the first has column `c`, which is not the key. */
  predicate InLaterFrame(ts: seq<Table>, c: string) {
    exists k :: 1 <= k < |ts| && c in ts[k].columns && c != Key
  }

  /** The columns after the last merge step, in terms of the frames
      merged before it. */
  lemma MergeAllColumns(ts: seq<Table>)
    requires |ts| >= 2
    ensures MergeAll(ts).columns == MergedColumns(MergeAll(ts[..|ts| - 1]).columns, ts[|ts| - 1].columns)
  {
  }

  /** After at least one merge step no column name ends in "_dup", and the
      first frame's names (less any ending in "_dup") come first, in their
      order. */
  lemma {:induction false} MergeAllPrefix(ts: seq<Table>)
    requires |ts| >= 2
    ensures forall c :: c in MergeAll(ts).columns ==> !IsDup(c)
    ensures |DropDup(ts[0].columns)| <= |MergeAll(ts).columns|
    ensures MergeAll(ts).columns[..|DropDup(ts[0].columns)|] == DropDup(ts[0].columns)
  {
    var init := ts[..|ts| - 1];
    var q := MergeAll(init).columns;
    var cols := MergeAll(ts).columns;
    MergeAllColumns(ts);
    assert cols == MergedColumns(q, ts[|ts| - 1].columns);
    assert |DropDup(q)| <= |cols| && cols[..|DropDup(q)|] == DropDup(q);
    assert init[0] == ts[0];
    var p := DropDup(ts[0].columns);
    if |init| == 1 {
      assert MergeAll(init) == ts[0];
    } else {
      MergeAllPrefix(init);
      assert DropDup(q) == q;
      PrefixTrans(cols, q, p);
    }
  }

  /** After at least one merge step a name is present exactly when some
      frame has it and it does not end in "_dup", the key counting only
      through the first frame. */
  lemma {:induction false} MergeAllMembership(ts: seq<Table>)
    requires |ts| >= 2
    ensures forall c :: c in MergeAll(ts).columns <==> !IsDup(c) && (c in ts[0].columns || InLaterFrame(ts, c))
  {
    var init := ts[..|ts| - 1];
    var last := ts[|ts| - 1];
    var prev := MergeAll(init);
    var r := MergeAll(ts);
    assert r == Merge(prev, last);
    assert init[0] == ts[0];
    if |init| >= 2 {
      MergeAllMembership(init);
    }
    forall c ensures c in r.columns <==> !IsDup(c) && (c in ts[0].columns || InLaterFrame(ts, c)) {
      var inPrev := c in prev.columns;
      var inLast := c in last.columns && c != Key;
      assert c in r.columns <==> !IsDup(c) && (inPrev || inLast);
      assert !IsDup(c) ==> (inPrev <==> c in ts[0].columns || InLaterFrame(init, c));
      InLaterFrameSnoc(ts, c);
    }
  }

  lemma InLaterFrameSnoc(ts: seq<Table>, c: string)
    requires |ts| >= 2
    ensures InLaterFrame(ts, c) <==>
              InLaterFrame(ts[..|ts| - 1], c) || (c in ts[|ts| - 1].columns && c != Key)
  {
    var init := ts[..|ts| - 1];
    if InLaterFrame(ts, c) {
      var k :| 1 <= k < |ts| && c in ts[k].columns && c != Key;
      if k < |init| {
        assert init[k] == ts[k];
      }
    }
    if InLaterFrame(init, c) {
      var k :| 1 <= k < |init| && c in init[k].columns && c != Key;
      assert ts[k] == init[k];
    }
  }

  /** Some member of the archive yields a frame holding identifier `v`. */
  predicate MemberHasId(ms: seq<Member>, num: NumberParser, v: Value) {
    exists m :: m in ms && MemberTable(m, num).Some? && v in IdSet(MemberTable(m, num).value.rows)
  }

  /** `parse_zip_file` over the listed members: None when no member yields
      a non-empty frame, otherwise the merge of all of them, whose
      identifiers are those of every contributing member. */
  function ParseZip(ms: seq<Member>, num: NumberParser): (r: Option<Table>)
    ensures r.None? <==> forall m :: m in ms ==> MemberTable(m, num).None?
  {
    var ts := MemberTables(ms, num);
    MemberTablesEmpty(ms, num);
    if |ts| == 0 then None else Some(MergeAll(ts))
  }

  /** No frame comes out exactly when no member parses. */
  lemma {:induction false} MemberTablesEmpty(ms: seq<Member>, num: NumberParser)
    ensures |MemberTables(ms, num)| == 0 <==> forall m :: m in ms ==> MemberTable(m, num).None?
  {
    if |ms| > 0 {
      MemberTablesEmpty(ms[1..], num);
      var first := MemberTable(ms[0], num);
      assert |MemberTables(ms, num)| == (if first.Some? then 1 else 0) + |MemberTables(ms[1..], num)|;
      assert forall m :: m in ms <==> m == ms[0] || m in ms[1..];
    }
  }

  /** The merged frame's identifiers are those of every contributing
      member. */
  lemma ParseZipIds(ms: seq<Member>, num: NumberParser)
    requires ParseZip(ms, num).Some?
    ensures forall v :: v in IdSet(ParseZip(ms, num).value.rows) <==> MemberHasId(ms, num, v)
  {
    forall v ensures v in IdSet(ParseZip(ms, num).value.rows) <==> MemberHasId(ms, num, v) {
      MemberTablesIds(ms, num, v);
    }
  }

  lemma MemberTablesIds(ms: seq<Member>, num: NumberParser, v: Value)
    requires |MemberTables(ms, num)| > 0
    ensures v in UnionIds(MemberTables(ms, num)) <==> MemberHasId(ms, num, v)
  {
    if v in UnionIds(MemberTables(ms, num)) {
      UnionIdsFromMember(ms, num, v);
    }
    if MemberHasId(ms, num, v) {
      MemberIdInUnion(ms, num, v);
    }
  }

  lemma UnionIdsFromMember(ms: seq<Member>, num: NumberParser, v: Value)
    requires v in UnionIds(MemberTables(ms, num))
    ensures MemberHasId(ms, num, v)
  {
    var ts := MemberTables(ms, num);
    var k :| 0 <= k < |ts| && v in IdSet(ts[k].rows);
    var t := ts[k];
    assert t in ts;
    var m :| m in ms && MemberTable(m, num) == Some(t);
    assert MemberTable(m, num).Some? && v in IdSet(MemberTable(m, num).value.rows);
  }

  lemma MemberIdInUnion(ms: seq<Member>, num: NumberParser, v: Value)
    requires MemberHasId(ms, num, v)
    ensures v in UnionIds(MemberTables(ms, num))
  {
    var ts := MemberTables(ms, num);
    var m :| m in ms && MemberTable(m, num).Some? && v in IdSet(MemberTable(m, num).value.rows);
    var t := MemberTable(m, num).value;
    assert MemberTable(m, num) == Some(t);
    assert t in ts;
    var k :| 0 <= k < |ts| && ts[k] == t;
    assert v in IdSet(ts[k].rows);
  }

  /** Whenever an archive parses, its merged frame has the key column. */
  lemma ParseZipHasKey(ms: seq<Member>, num: NumberParser)
    requires ParseZip(ms, num).Some?
    ensures Key in ParseZip(ms, num).value.columns
  {
    var ts := MemberTables(ms, num);
    assert |ts| > 0 && ParseZip(ms, num).value == MergeAll(ts);
    assert ts[0] in ts;
    MergeAllHasKey(ts);
  }

  lemma MergeAllHasKey(ts: seq<Table>)
    requires |ts| > 0 && Key in ts[0].columns
    ensures Key in MergeAll(ts).columns
  {
    assert !IsDup(Key);
    if |ts| >= 2 {
      MergeAllMembership(ts);
    }
  }

  // ---------------------------------------------------------------------
  // One bulk file (parse_bulk_file)
  // ---------------------------------------------------------------------

  /** A bulk file: its name, and its content both as the member list of a
      zip archive and as what `read_csv` makes of it as text. The name
      decides which of the two the parser reads. */
  datatype BulkFile = BulkFile(name: string, members: seq<Member>, text: Option<Table>)

  /** The position of the last '.' in `s`, or -1 (`str.rfind('.')`). */
  function LastDot(s: string): (i: int)
    ensures -1 <= i < |s|
    ensures i >= 0 ==> s[i] == '.' && forall j :: i < j < |s| ==> s[j] != '.'
    ensures i == -1 ==> forall j :: 0 <= j < |s| ==> s[j] != '.'
  {
    if |s| == 0 then -1 else if s[|s| - 1] == '.' then |s| - 1 else LastDot(s[..|s| - 1])
  }

  /** `PurePath.suffix` of a file name: from the last dot on, unless that
      dot is the first or the last character, when the suffix is empty. */
  function Suffix(name: string): (x: string)
    ensures |x| <= |name|
  {
    var i := LastDot(name);
    if 0 < i < |name| - 1 then name[i..] else ""
  }

  /** `file_path.suffix.lower() == '.zip'`. */
  predicate IsZipName(name: string) {
    Lower(Suffix(name)) == ".zip"
  }

  /** A name is read as an archive exactly when it ends in `.zip` in any
      case after a non-empty stem; the name `.zip` itself is read as text. */
  lemma {:induction false} IsZipNameIff(name: string)
    ensures IsZipName(name) <==> |name| > 4 && EndsWith(Lower(name), ".zip")
  {
    var i := LastDot(name);
    var n := |name|;
    if IsZipName(name) {
      var x := Suffix(name);
      assert |Lower(x)| == 4;
      assert 0 < i < n - 1 && x == name[i..] && |x| == 4;
      assert Lower(name)[n - 4..] == Lower(x) by {
        forall j | 0 <= j < 4 ensures Lower(name)[n - 4..][j] == Lower(x)[j] {
          assert x[j] == name[n - 4 + j];
        }
      }
    }
    if n > 4 && EndsWith(Lower(name), ".zip") {
      var l := Lower(name);
      ZipEnding(name);
      assert i == n - 4;
      assert Lower(Suffix(name)) == l[n - 4..] by {
        forall j | 0 <= j < 4 ensures Lower(Suffix(name))[j] == l[n - 4..][j] {
          assert Suffix(name)[j] == name[n - 4 + j];
        }
      }
    }
  }

  /** A name ending in `.zip` in any case has its last dot four characters
      from the end. */
  lemma ZipEnding(name: string)
    requires |name| > 4 && EndsWith(Lower(name), ".zip")
    ensures name[|name| - 4] == '.' && forall j :: |name| - 4 < j < |name| ==> name[j] != '.'
  {
    var n := |name|;
    var l := Lower(name);
    assert l[n - 4..] == ".zip";
    forall j | n - 4 <= j < n ensures l[j] == ".zip"[j - (n - 4)] {
      assert l[j] == l[n - 4..][j - (n - 4)];
    }
    assert l[n - 4] == '.';
  }

  /** A file named just `.zip` has no suffix and is parsed as text. */
  lemma DotZipIsText()
    ensures !IsZipName(".zip") && IsZipName("call.ZIP")
  {
    IsZipNameIff(".zip");
    IsZipNameIff("call.ZIP");
    assert Lower("call.ZIP")[4..] == ".zip";
  }

  /** `parse_bulk_file`: an archive is parsed member by member, anything
      else as a single schedule; either way a parsed frame has the key
      column, with an integer in every row when it is a single schedule. */
  function ParseBulk(f: BulkFile, num: NumberParser): (r: Option<Table>)
    ensures IsZipName(f.name) ==> (r.Some? <==> exists m :: m in f.members && MemberTable(m, num).Some?)
    ensures !IsZipName(f.name) ==> (r.Some? <==> ParseSchedule(f.text, num).Some?)
    ensures r.Some? ==> Key in r.value.columns
  {
    if IsZipName(f.name) then
      var r := ParseZip(f.members, num);
      if r.Some? then ParseZipHasKey(f.members, num); r else r
    else ParseSchedule(f.text, num)
  }

  // ---------------------------------------------------------------------
  // Standard layout (convert_to_standard_format)
  // ---------------------------------------------------------------------

  const StandardFront := ["RSSD_ID", "REPORTING_PERIOD"]

  lemma StandardNamesUpper()
    ensures Upper("RSSD_ID") == "RSSD_ID"
    ensures Upper("REPORTING_PERIOD") == "REPORTING_PERIOD"
  {
    assert Upper("RSSD_ID") == "RSSD_ID";
    assert Upper("REPORTING_PERIOD") == "REPORTING_PERIOD";
  }

  /** Adding REPORTING_PERIOD does not change the names that follow the
      two leading ones. */
  lemma OthersWithoutPeriod(cols: seq<string>)
    ensures Without(UpperAll(AddColumn(cols, "REPORTING_PERIOD")), StandardFront) == Without(UpperAll(cols), StandardFront)
  {
    if "REPORTING_PERIOD" !in cols {
      StandardNamesUpper();
      UpperAllConcat(cols, ["REPORTING_PERIOD"]);
      assert UpperAll(["REPORTING_PERIOD"]) == ["REPORTING_PERIOD"];
      WithoutConcat(UpperAll(cols), ["REPORTING_PERIOD"], StandardFront);
      assert Without(["REPORTING_PERIOD"], StandardFront) == [];
      ConcatEmpty(Without(UpperAll(cols), StandardFront));
    }
  }

  /** One row of the standard layout: stamped with the period, then keyed
      by upper-cased names. */
  function StandardRow(r: Row, cols: seq<string>, period: Date): Row {
    UpperRow(r["REPORTING_PERIOD" := Stamp(period)], AddColumn(cols, "REPORTING_PERIOD"))
  }

  /** The frame's labels once REPORTING_PERIOD is added and every name is
      upper-cased. */
  function StandardLabels(cols: seq<string>): seq<string> {
    UpperAll(AddColumn(cols, "REPORTING_PERIOD"))
  }

  /** The labels the conversion asks for: the two leading names, then every
      other label in sorted order, repeats included. */
  function StandardRequest(u: seq<string>): seq<string> {
    StandardFront + SortStrings(Without(u, StandardFront))
  }

  /** The converted column names: the frame selected by that request. */
  function StandardNames(cols: seq<string>): seq<string> {
    var u := StandardLabels(cols);
    Select(StandardRequest(u), u)
  }

  /** `convert_to_standard_format`. Selecting RSSD_ID fails when no column
      upper-cases to it, and the file is reported as an error. When no two
      names collide after upper-casing, RSSD_ID and REPORTING_PERIOD come
      first, then every other upper-cased name in sorted order. In every
      case a leading label appears as often as the upper-cased names hold
      it and any other label as often as the square of that, so the result
      repeats a name, and cannot be written, exactly when they collide. */
  function ToStandard(t: Table, period: Date): (r: Option<Table>)
    ensures r.None? <==> forall c :: c in t.columns ==> Upper(c) != Key
    ensures r.Some? && Distinct(StandardLabels(t.columns)) ==>
              |r.value.columns| >= 2 && r.value.columns[..2] == StandardFront
    ensures r.Some? && Distinct(StandardLabels(t.columns)) ==> SortedBy(r.value.columns[2..], StrLe)
    ensures r.Some? && Distinct(StandardLabels(t.columns)) ==>
              multiset(r.value.columns[2..]) == multiset(Without(UpperAll(t.columns), StandardFront))
    ensures r.Some? ==>
              var cs, u := r.value.columns, StandardLabels(t.columns);
              forall x :: multiset(cs)[x] == if x in StandardFront then multiset(u)[x] else Square(multiset(u)[x])
    ensures r.Some? ==> (Writable(r.value) <==> Distinct(StandardLabels(t.columns)))
    ensures r.Some? ==> |r.value.rows| == |t.rows|
  {
    var up := StandardLabels(t.columns);
    KeyAfterStamp(t.columns);
    if Key !in up then None
    else
      StandardNamesCount(t.columns);
      StandardNamesDistinct(t.columns);
      StandardNamesShape(t.columns);
      Some(Table(StandardNames(t.columns), StandardRows(t.rows, t.columns, period)))
  }

  lemma PeriodLabelPresent(cols: seq<string>)
    ensures "REPORTING_PERIOD" in StandardLabels(cols)
  {
    StandardNamesUpper();
    var stamped := AddColumn(cols, "REPORTING_PERIOD");
    var k :| 0 <= k < |stamped| && stamped[k] == "REPORTING_PERIOD";
    assert StandardLabels(cols)[k] == "REPORTING_PERIOD";
  }

  /** The request asks once for each leading name and for every other
      label as often as the frame has it. */
  lemma StandardRequestLayout(cols: seq<string>)
    requires Key in StandardLabels(cols)
    ensures FrontLayout(StandardRequest(StandardLabels(cols)), StandardLabels(cols), StandardFront)
  {
    PeriodLabelPresent(cols);
    LabelsRequestLayout(StandardLabels(cols));
  }

  lemma LabelsRequestLayout(u: seq<string>)
    requires Key in u && "REPORTING_PERIOD" in u
    ensures FrontLayout(StandardRequest(u), u, StandardFront)
  {
    forall y ensures multiset(StandardRequest(u))[y] ==
                       (if y in StandardFront && y in u then 1 else 0) + (if y in StandardFront then 0 else multiset(u)[y]) {
      StandardRequestCount(u, y);
    }
  }

  lemma StandardRequestCount(u: seq<string>, y: string)
    ensures multiset(StandardRequest(u))[y] ==
              (if y in StandardFront then 1 else 0) + (if y in StandardFront then 0 else multiset(u)[y])
  {
    var others := SortStrings(Without(u, StandardFront));
    WithoutCount(u, StandardFront, y);
    assert multiset(StandardRequest(u)) == multiset(StandardFront) + multiset(others);
    assert multiset(StandardFront)[y] == if y in StandardFront then 1 else 0;
  }

  lemma StandardNamesCount(cols: seq<string>)
    requires Key in StandardLabels(cols)
    ensures var u := StandardLabels(cols);
            forall x :: multiset(StandardNames(cols))[x] ==
                          if x in StandardFront then multiset(u)[x] else Square(multiset(u)[x])
  {
    var u := StandardLabels(cols);
    StandardRequestLayout(cols);
    forall x ensures multiset(StandardNames(cols))[x] ==
                       if x in StandardFront then multiset(u)[x] else Square(multiset(u)[x]) {
      FrontLayoutCounts(StandardRequest(u), u, StandardFront, x);
    }
  }

  lemma StandardNamesDistinct(cols: seq<string>)
    requires Key in StandardLabels(cols)
    ensures Distinct(StandardNames(cols)) <==> Distinct(StandardLabels(cols))
  {
    var u := StandardLabels(cols);
    StandardRequestLayout(cols);
    FrontLayoutDistinct(StandardRequest(u), u, StandardFront);
  }

  /** Without collisions the names are the two leading ones and then the
      input's other names upper-cased and sorted. */
  lemma StandardNamesShape(cols: seq<string>)
    requires Key in StandardLabels(cols)
    ensures Distinct(StandardLabels(cols)) ==>
              && |StandardNames(cols)| >= 2 && StandardNames(cols)[..2] == StandardFront
              && SortedBy(StandardNames(cols)[2..], StrLe)
              && multiset(StandardNames(cols)[2..]) == multiset(Without(UpperAll(cols), StandardFront))
  {
    var u := StandardLabels(cols);
    if Distinct(u) {
      StandardRequestLayout(cols);
      FrontLayoutSelectsLabels(StandardRequest(u), u, StandardFront);
      OthersWithoutPeriod(cols);
      var others := SortStrings(Without(u, StandardFront));
      assert StandardNames(cols) == StandardFront + others;
      assert StandardNames(cols)[2..] == others;
    }
  }

  /** Two spellings of one code: both upper-case to RCON1, the request
      lists that label twice and each request brings both columns, so the
      result holds RCON1 four times and cannot be written. */
  lemma RepeatedCodeExample(period: Date)
    ensures var r := ToStandard(Table(["RSSD_ID", "rcon1", "RCON1"], []), period);
            r.Some? && multiset(r.value.columns)["RCON1"] == 4 && !Writable(r.value)
  {
    var t := Table(["RSSD_ID", "rcon1", "RCON1"], []);
    var u := ["RSSD_ID", "RCON1", "RCON1", "REPORTING_PERIOD"];
    RepeatedCodeLabels();
    assert "RSSD_ID" in t.columns && Upper("RSSD_ID") == Key by {
      StandardNamesUpper();
    }
    var r := ToStandard(t, period);
    assert multiset(r.value.columns)["RCON1"] == Square(multiset(u)["RCON1"]);
  }

  lemma RepeatedCodeLabels()
    ensures var u := StandardLabels(["RSSD_ID", "rcon1", "RCON1"]);
            u == ["RSSD_ID", "RCON1", "RCON1", "REPORTING_PERIOD"] && multiset(u)["RCON1"] == 2 && !Distinct(u)
  {
    var cols := ["RSSD_ID", "rcon1", "RCON1"];
    var u := ["RSSD_ID", "RCON1", "RCON1", "REPORTING_PERIOD"];
    StandardNamesUpper();
    assert Upper("rcon1") == "RCON1";
    assert Upper("RCON1") == "RCON1";
    assert AddColumn(cols, "REPORTING_PERIOD") == cols + ["REPORTING_PERIOD"];
    assert StandardLabels(cols) == u;
    assert multiset(u)["RCON1"] == 2;
    assert u[1] == u[2];
  }

  /** Adding REPORTING_PERIOD never supplies the key column. */
  lemma KeyAfterStamp(cols: seq<string>)
    ensures Key in UpperAll(AddColumn(cols, "REPORTING_PERIOD")) <==> exists c :: c in cols && Upper(c) == Key
  {
    var stamped := AddColumn(cols, "REPORTING_PERIOD");
    StandardNamesUpper();
    assert forall c :: c in stamped ==> (Upper(c) == Key <==> c in cols && Upper(c) == Key);
    assert (Key in UpperAll(stamped)) <==> exists c :: c in stamped && Upper(c) == Key;
  }

  function StandardRows(rows: seq<Row>, cols: seq<string>, period: Date): (r: seq<Row>)
    ensures |r| == |rows| && forall k :: 0 <= k < |rows| ==> r[k] == StandardRow(rows[k], cols, period)
  {
    seq(|rows|, k requires 0 <= k < |rows| => StandardRow(rows[k], cols, period))
  }

  /** The cells of the standard layout: the period under REPORTING_PERIOD
      in every row, and every other cell under its upper-cased name, when
      upper-casing merges no two names. */
  lemma ToStandardCells(t: Table, period: Date, k: int)
    requires ToStandard(t, period).Some? && 0 <= k < |t.rows|
    requires Distinct(UpperAll(t.columns))
    requires forall c :: c in t.columns && Upper(c) == "REPORTING_PERIOD" ==> c == "REPORTING_PERIOD"
    ensures Cell(ToStandard(t, period).value.rows[k], "REPORTING_PERIOD") == Stamp(period)
    ensures forall c :: c in t.columns && Upper(c) != "REPORTING_PERIOD" ==>
              Cell(ToStandard(t, period).value.rows[k], Upper(c)) == Cell(t.rows[k], c)
  {
    StandardNamesUpper();
    var cols := AddColumn(t.columns, "REPORTING_PERIOD");
    if "REPORTING_PERIOD" !in t.columns {
      UpperAllSnocDistinct(t.columns, "REPORTING_PERIOD");
    }
    assert Distinct(UpperAll(cols));
    var stamped := t.rows[k]["REPORTING_PERIOD" := Stamp(period)];
    assert ToStandard(t, period).value.rows[k] == UpperRow(stamped, cols);
    UpperRowCellOf(stamped, cols, "REPORTING_PERIOD");
    forall c | c in t.columns && Upper(c) != "REPORTING_PERIOD"
      ensures Cell(UpperRow(stamped, cols), Upper(c)) == Cell(t.rows[k], c)
    {
      UpperRowCellOf(stamped, cols, c);
    }
  }

  /** A frame from the parser always converts: it has the key column. */
  lemma ParsedFramesConvert(f: BulkFile, num: NumberParser, period: Date)
    requires ParseBulk(f, num).Some?
    ensures ToStandard(ParseBulk(f, num).value, period).Some?
  {
    StandardNamesUpper();
    assert Key in ParseBulk(f, num).value.columns;
  }

  // ---------------------------------------------------------------------
  // The driver (main and process_file_wrapper of parse_ffiec.py)
  // ---------------------------------------------------------------------

  /** The files the directory scan picks: names ending in ".txt", ".csv" or
      ".zip", in sorted order. */
  predicate IsBulkName(name: string) {
    EndsWith(name, ".txt") || EndsWith(name, ".csv") || EndsWith(name, ".zip")
  }

  function FilesToProcess(names: seq<string>): (r: seq<string>)
    ensures forall n :: n in r <==> n in names && IsBulkName(n)
    ensures SortedBy(r, StrLe)
    ensures multiset(r) == multiset(Filter(names, IsBulkName))
  {
    var listed := Filter(names, IsBulkName);
    var r := SortStrings(listed);
    assert forall n :: n in r <==> n in multiset(r);
    assert forall n :: n in listed <==> n in multiset(listed);
    r
  }

  /** The output file a quarter is written to. */
  function OutputName(p: FfiecPeriod): string
    requires 1 <= p.quarter <= 4
  {
    FfiecLabel(p) + ".parquet"
  }

  /** How one file ends up: a quarter converted (or counted as such), a
      quarter left alone because its output exists, or an error. */
  datatype Outcome = Processed | Skipped | Failed

  /** The file's frame in the standard layout, when it parses to a
      non-empty frame whose names do not collide after upper-casing; None
      is an error. A converted frame that repeats a name fails at the
      parquet write of either bulk driver, and the failure is caught and
      counted as an error. */
  function Converted(f: BulkFile, p: FfiecPeriod, num: NumberParser): (r: Option<Table>)
    requires 1 <= p.quarter <= 4
    ensures r.Some? <==>
              && ParseBulk(f, num).Some? && |ParseBulk(f, num).value.rows| > 0
              && Distinct(StandardLabels(ParseBulk(f, num).value.columns))
    ensures r.Some? ==> |r.value.columns| >= 2 && r.value.columns[..2] == StandardFront && |r.value.rows| > 0
    ensures r.Some? ==> Writable(r.value)
  {
    var parsed := ParseBulk(f, num);
    if parsed.None? || |parsed.value.rows| == 0 then None
    else
      var d := FfiecReportingDate(p);
      ParsedFramesConvert(f, num, d);
      var r := ToStandard(parsed.value, d);
      assert r.Some? && |r.value.rows| == |parsed.value.rows|;
      if Writable(r.value) then r else None
  }

  /** One pass of the loop in `main`. `existing` holds the output names
      already on disk and `written` says whether writing a file succeeds.
      A file whose output exists is counted as processed without being
      read. */
  function MainStep(f: BulkFile, existing: set<string>, num: NumberParser, written: string -> bool): (s: Outcome)
    ensures s != Skipped
    ensures ExtractQuarter(f.name).None? ==> s == Failed
    ensures ExtractQuarter(f.name).Some? && OutputName(ExtractQuarter(f.name).value) in existing ==> s == Processed
    ensures ExtractQuarter(f.name).Some? && OutputName(ExtractQuarter(f.name).value) !in existing ==>
              (s == Processed <==>
                 Converted(f, ExtractQuarter(f.name).value, num).Some? && written(OutputName(ExtractQuarter(f.name).value)))
  {
    match ExtractQuarter(f.name)
    case None => Failed
    case Some(p) =>
      if OutputName(p) in existing then Processed
      else if Converted(f, p, num).Some? && written(OutputName(p)) then Processed
      else Failed
  }

  // ---------------------------------------------------------------------
  // The loop: each pass sees the outputs the earlier passes wrote
  // ---------------------------------------------------------------------

  /** The output a pass over `f` writes: its quarter's output, when the
      name has a quarter, the file converts and the write succeeds. */
  function WriteOf(f: BulkFile, num: NumberParser, written: string -> bool): (w: Option<string>)
    ensures w.Some? <==>
              ExtractQuarter(f.name).Some? && Converted(f, ExtractQuarter(f.name).value, num).Some?
              && written(OutputName(ExtractQuarter(f.name).value))
    ensures w.Some? ==> w.value == OutputName(ExtractQuarter(f.name).value)
  {
    match ExtractQuarter(f.name)
    case None => None
    case Some(p) => if Converted(f, p, num).Some? && written(OutputName(p)) then Some(OutputName(p)) else None
  }

  /** `WriteOf` as a function of the file alone. */
  function Writes(num: NumberParser, written: string -> bool): BulkFile -> Option<string> {
    f => WriteOf(f, num, written)
  }

  /** The output names on disk after the passes over `files`, starting from
      `existing`, where `out` gives the output a pass writes. A pass that
      finds its output already there leaves the set as it is, whether it
      counts it, skips it or rewrites it. (Used by both bulk drivers.) */
  function DiskAfter(files: seq<BulkFile>, existing: set<string>, out: BulkFile -> Option<string>): (d: set<string>)
    ensures existing <= d
  {
    if |files| == 0 then existing
    else
      var d := DiskAfter(files[..|files| - 1], existing, out);
      match out(files[|files| - 1])
      case None => d
      case Some(name) => d + {name}
  }

  /** An output is on disk after the passes exactly when it was there
      before the run or one of the files wrote it; the order of the files
      does not matter. */
  lemma {:induction false} DiskAfterMembers(files: seq<BulkFile>, existing: set<string>, out: BulkFile -> Option<string>,
                                            name: string)
    ensures name in DiskAfter(files, existing, out) <==>
              name in existing || exists j :: 0 <= j < |files| && out(files[j]) == Some(name)
  {
    if |files| > 0 {
      var init := files[..|files| - 1];
      DiskAfterMembers(init, existing, out, name);
      assert forall j :: 0 <= j < |init| ==> init[j] == files[j];
    }
  }

  /** The outcome of every pass of `main`'s loop, in order; pass `k` sees
      the disk as the passes before it left it. */
  function MainOutcomes(files: seq<BulkFile>, existing: set<string>, num: NumberParser, written: string -> bool)
    : (os: seq<Outcome>)
    ensures |os| == |files|
    ensures forall k :: 0 <= k < |os| ==> os[k] != Skipped
  {
    seq(|files|, k requires 0 <= k < |files| => MainStep(files[k], DiskAfter(files[..k], existing, Writes(num, written)), num, written))
  }

  /** A file is counted as processed exactly when its name has a quarter and
      that quarter's output was on disk before the run, or this file or an
      earlier one wrote it. A file whose quarter an earlier file already
      wrote is therefore processed even if it would not convert. */
  lemma MainOutcomeProcessed(files: seq<BulkFile>, existing: set<string>, num: NumberParser, written: string -> bool, k: nat)
    requires k < |files|
    ensures var q := ExtractQuarter(files[k].name);
            MainOutcomes(files, existing, num, written)[k] == Processed <==>
              && q.Some?
              && (OutputName(q.value) in existing
                  || exists j :: 0 <= j <= k && WriteOf(files[j], num, written) == Some(OutputName(q.value)))
  {
    var q := ExtractQuarter(files[k].name);
    var d := DiskAfter(files[..k], existing, Writes(num, written));
    assert MainOutcomes(files, existing, num, written)[k] == MainStep(files[k], d, num, written);
    MainStepOnDisk(files[k], d, num, written);
    if q.Some? {
      OnDiskBefore(files, existing, Writes(num, written), k, OutputName(q.value));
      WrittenUpTo(files, Writes(num, written), k, OutputName(q.value));
    }
  }

  /** A pass counts its file as processed exactly when the name gives a
      quarter whose output is on disk or that this pass writes. */
  lemma MainStepOnDisk(f: BulkFile, d: set<string>, num: NumberParser, written: string -> bool)
    ensures var q := ExtractQuarter(f.name);
            MainStep(f, d, num, written) == Processed <==>
              q.Some? && (OutputName(q.value) in d || WriteOf(f, num, written) == Some(OutputName(q.value)))
  {
  }

  /** `DiskAfterMembers` for the passes before pass `k`. */
  lemma OnDiskBefore(files: seq<BulkFile>, existing: set<string>, out: BulkFile -> Option<string>, k: nat, name: string)
    requires k <= |files|
    ensures name in DiskAfter(files[..k], existing, out) <==>
              name in existing || exists j :: 0 <= j < k && out(files[j]) == Some(name)
  {
    DiskAfterMembers(files[..k], existing, out, name);
    assert forall j :: 0 <= j < k ==> files[..k][j] == files[j];
  }

  lemma WrittenUpTo(files: seq<BulkFile>, out: BulkFile -> Option<string>, k: nat, name: string)
    requires k < |files|
    ensures (exists j :: 0 <= j <= k && out(files[j]) == Some(name)) <==>
              (exists j :: 0 <= j < k && out(files[j]) == Some(name)) || out(files[k]) == Some(name)
  {
  }

  /** The two counters `main` reports. */
  datatype MainCounts = MainCounts(processed: nat, errors: nat)

  predicate IsProcessed(o: Outcome) { o.Processed? }
  predicate IsSkipped(o: Outcome) { o.Skipped? }
  predicate IsFailed(o: Outcome) { o.Failed? }

  /** The counters after the loop over `files`: the passes counted as
      processed and as errors; every file is counted once. */
  function MainRun(files: seq<BulkFile>, existing: set<string>, num: NumberParser, written: string -> bool): (c: MainCounts)
    ensures c.processed + c.errors == |files|
    ensures (forall k :: 0 <= k < |files| ==> ExtractQuarter(files[k].name).None?) ==> c == MainCounts(0, |files|)
  {
    var os := MainOutcomes(files, existing, num, written);
    CountPartition(os, IsProcessed, IsSkipped, IsFailed);
    MainCounts(Count(os, IsProcessed), Count(os, IsFailed))
  }

  /** Two files of the same quarter whose output is not on disk yet: once
      the first converts and is written, the second finds the output and is
      counted as processed even though it does not convert. */
  lemma MainRunRepeatedQuarter(f1: BulkFile, f2: BulkFile, existing: set<string>, num: NumberParser, written: string -> bool)
    requires ExtractQuarter(f1.name).Some? && ExtractQuarter(f2.name) == ExtractQuarter(f1.name)
    requires OutputName(ExtractQuarter(f1.name).value) !in existing
    requires WriteOf(f1, num, written).Some?
    requires Converted(f2, ExtractQuarter(f2.name).value, num).None?
    ensures MainRun([f1, f2], existing, num, written) == MainCounts(2, 0)
  {
    RepeatedQuarterProcessed(f1, f2, existing, num, written);
    MainRunAllProcessed([f1, f2], existing, num, written);
  }

  lemma RepeatedQuarterProcessed(f1: BulkFile, f2: BulkFile, existing: set<string>, num: NumberParser, written: string -> bool)
    requires ExtractQuarter(f1.name).Some? && ExtractQuarter(f2.name) == ExtractQuarter(f1.name)
    requires WriteOf(f1, num, written).Some?
    ensures forall k :: 0 <= k < 2 ==> MainOutcomes([f1, f2], existing, num, written)[k] == Processed
  {
    var fs := [f1, f2];
    SameQuarterOutput(f1, f2, num, written);
    assert fs[0] == f1 && fs[1] == f2;
    ProcessedAfterWrite(fs, existing, num, written, 0, 0);
    ProcessedAfterWrite(fs, existing, num, written, 0, 1);
    BothProcessed(MainOutcomes(fs, existing, num, written));
  }

  lemma BothProcessed(os: seq<Outcome>)
    requires |os| == 2 && os[0] == Processed && os[1] == Processed
    ensures forall k :: 0 <= k < 2 ==> os[k] == Processed
  {
  }

  /** A pass whose quarter's output an earlier or the same pass wrote is
      counted as processed. */
  lemma ProcessedAfterWrite(files: seq<BulkFile>, existing: set<string>, num: NumberParser, written: string -> bool,
                            j: nat, k: nat)
    requires j <= k < |files| && ExtractQuarter(files[k].name).Some?
    requires WriteOf(files[j], num, written) == Some(OutputName(ExtractQuarter(files[k].name).value))
    ensures MainOutcomes(files, existing, num, written)[k] == Processed
  {
    MainOutcomeProcessed(files, existing, num, written, k);
  }

  lemma SameQuarterOutput(f1: BulkFile, f2: BulkFile, num: NumberParser, written: string -> bool)
    requires ExtractQuarter(f1.name).Some? && ExtractQuarter(f2.name) == ExtractQuarter(f1.name)
    requires WriteOf(f1, num, written).Some?
    ensures WriteOf(f1, num, written) == Some(OutputName(ExtractQuarter(f2.name).value))
  {
  }

  /** When every pass counts its file as processed, so does the run. */
  lemma MainRunAllProcessed(files: seq<BulkFile>, existing: set<string>, num: NumberParser, written: string -> bool)
    requires forall k :: 0 <= k < |files| ==> MainOutcomes(files, existing, num, written)[k] == Processed
    ensures MainRun(files, existing, num, written) == MainCounts(|files|, 0)
  {
    var os := MainOutcomes(files, existing, num, written);
    assert Count(os, IsProcessed) == |os|;
    assert Count(os, IsFailed) == 0;
  }
}

=== FILE: ffiec_filter.dfy ===
/** The commercial-bank variant of the FFIEC parser, 05_parse_ffiec.py: the
    same parsing and layout as parse_ffiec.py, then a column filter driven
    by the dictionary's reporting forms, and a driver that skips quarters
    already written unless forced. */
module FfiecFilter {
  import opened Common
  import opened Tables
  import opened Periods
  import opened FfiecParse

  /** The forms of the commercial-bank Call Report. */
  const CommercialBankForms: set<string> :=
    {"FFIEC 031", "FFIEC 041", "FFIEC 032", "FFIEC 033", "FFIEC 034", "FFIEC 051"}

  /** Upper-cased names the filter always keeps. */
  const AlwaysKept: set<string> := {"REPORTING_PERIOD", "RSSD_ID", "RSSD9001", "IDRSSD"}

  // ---------------------------------------------------------------------
  // str.split(',')
  // ---------------------------------------------------------------------

  /** The pieces joined back with the separator between them. */
  function JoinWith(parts: seq<string>, sep: char): string
    requires |parts| >= 1
  {
    if |parts| == 1 then parts[0] else parts[0] + [sep] + JoinWith(parts[1..], sep)
  }

  /** `s.split(sep)`: at least one piece, none containing the separator,
      and joining the pieces gives `s` back. */
  function Split(s: string, sep: char): (r: seq<string>)
    ensures |r| >= 1
    ensures forall k :: 0 <= k < |r| ==> sep !in r[k]
    ensures JoinWith(r, sep) == s
  {
    if |s| == 0 then [""]
    else
      var rest := Split(s[1..], sep);
      if s[0] == sep then
        var r := [""] + rest;
        assert r[1..] == rest;
        r
      else
        var r := [[s[0]] + rest[0]] + rest[1..];
        assert forall k :: 1 <= k < |r| ==> r[k] == rest[k];
        JoinWithHead(s[0], rest, sep);
        r
  }

  lemma JoinWithHead(c: char, parts: seq<string>, sep: char)
    requires |parts| >= 1
    ensures JoinWith([[c] + parts[0]] + parts[1..], sep) == [c] + JoinWith(parts, sep)
  {
    var r := [[c] + parts[0]] + parts[1..];
    assert r[0] == [c] + parts[0];
    if |parts| > 1 {
      assert r[1..] == parts[1..];
    }
  }

  /** Splitting a text with no separator gives the text alone. */
  lemma {:induction false} SplitWithoutSeparator(s: string, sep: char)
    requires sep !in s
    ensures Split(s, sep) == [s]
  {
    if |s| > 0 {
      assert sep !in s[1..];
      SplitWithoutSeparator(s[1..], sep);
    }
  }

  // ---------------------------------------------------------------------
  // filter_columns
  // ---------------------------------------------------------------------

  /** The dictionary lists the variable on one of the commercial-bank
      forms. Forms are split on bare commas, so a space after a comma
      stays part of the next form's name. */
  predicate OnForm(name: string, forms: map<string, string>) {
    && |forms| > 0
    && name in forms
    && |forms[name]| > 0
    && exists k :: 0 <= k < |Split(forms[name], ',')| && Split(forms[name], ',')[k] in CommercialBankForms
  }

  /** The column has at least one non-missing cell. */
  predicate HasData(rows: seq<Row>, c: string) {
    exists k :: 0 <= k < |rows| && Cell(rows[k], c) != Missing
  }

  /** The filter's test for one column. */
  predicate Kept(rows: seq<Row>, c: string, forms: map<string, string>) {
    Upper(c) in AlwaysKept || OnForm(Upper(c), forms) || HasData(rows, c)
  }

  function KeptColumns(cols: seq<string>, rows: seq<Row>, forms: map<string, string>): (r: seq<string>)
    ensures forall c :: c in r <==> c in cols && Kept(rows, c, forms)
    ensures Subsequence(r, cols)
  {
    if |cols| == 0 then []
    else
      var rest := KeptColumns(cols[1..], rows, forms);
      assert forall c :: c in cols <==> c == cols[0] || c in cols[1..];
      if Kept(rows, cols[0], forms) then
        var r := [cols[0]] + rest;
        assert r[1..] == rest;
        r
      else rest
  }

  /** `filter_columns`: the kept columns in their order, every row as it
      was. */
  function FilterColumns(t: Table, forms: map<string, string>): (r: Table)
    ensures r.rows == t.rows
    ensures forall c :: c in r.columns <==> c in t.columns && Kept(t.rows, c, forms)
    ensures Subsequence(r.columns, t.columns)
  {
    Table(KeptColumns(t.columns, t.rows, forms), t.rows)
  }

  /** Without form information the filter drops exactly the columns that
      are entirely missing and are not metadata. */
  lemma FilterWithoutForms(t: Table)
    ensures forall c :: c in t.columns ==>
              (c !in FilterColumns(t, map[]).columns <==> Upper(c) !in AlwaysKept && !HasData(t.rows, c))
  {
  }

  /** Filtering a filtered table changes nothing. */
  lemma {:induction false} KeptColumnsIdempotent(cols: seq<string>, rows: seq<Row>, forms: map<string, string>)
    ensures KeptColumns(KeptColumns(cols, rows, forms), rows, forms) == KeptColumns(cols, rows, forms)
  {
    if |cols| > 0 {
      KeptColumnsIdempotent(cols[1..], rows, forms);
      var rest := KeptColumns(cols[1..], rows, forms);
      if Kept(rows, cols[0], forms) {
        assert ([cols[0]] + rest)[1..] == rest;
      }
    }
  }

  lemma FilterIdempotent(t: Table, forms: map<string, string>)
    ensures FilterColumns(FilterColumns(t, forms), forms) == FilterColumns(t, forms)
  {
    KeptColumnsIdempotent(t.columns, t.rows, forms);
  }

  /** The two leading columns of the standard layout survive the filter. */
  lemma FilterKeepsFront(t: Table, forms: map<string, string>)
    requires |t.columns| >= 2 && t.columns[..2] == StandardFront
    ensures |FilterColumns(t, forms).columns| >= 2
    ensures FilterColumns(t, forms).columns[..2] == StandardFront
  {
    StandardNamesUpper();
    var cols := t.columns;
    assert cols[0] == "RSSD_ID" && cols[1] == "REPORTING_PERIOD";
    assert Kept(t.rows, cols[0], forms) && Kept(t.rows, cols[1], forms);
    var rest := KeptColumns(cols[2..], t.rows, forms);
    assert cols[1..][1..] == cols[2..];
    assert KeptColumns(cols[1..], t.rows, forms) == [cols[1]] + rest;
    assert KeptColumns(cols, t.rows, forms) == [cols[0]] + ([cols[1]] + rest);
  }

  // ---------------------------------------------------------------------
  // The driver (main of 05_parse_ffiec.py)
  // ---------------------------------------------------------------------

  /** The table written for a quarter: the standard layout, filtered. */
  function QuarterOutput(f: BulkFile, p: FfiecPeriod, num: NumberParser, forms: map<string, string>): (r: Option<Table>)
    requires 1 <= p.quarter <= 4
    ensures r.Some? <==> Converted(f, p, num).Some?
    ensures r.Some? ==> |r.value.columns| >= 2 && r.value.columns[..2] == StandardFront
    ensures r.Some? ==> |r.value.rows| > 0
  {
    match Converted(f, p, num)
    case None => None
    case Some(t) =>
      FilterKeepsFront(t, forms);
      Some(FilterColumns(t, forms))
  }

  /** One pass of the loop. An existing output is skipped unless `force`;
      a name without a period, a file that parses to nothing and a failed
      write are errors. */
  function Step(f: BulkFile, existing: set<string>, force: bool, num: NumberParser,
                forms: map<string, string>, written: string -> bool): (s: Outcome)
    ensures ExtractQuarter(f.name).None? ==> s == Failed
    ensures s == Skipped <==> ExtractQuarter(f.name).Some? && OutputName(ExtractQuarter(f.name).value) in existing && !force
    ensures s == Processed <==>
              && ExtractQuarter(f.name).Some?
              && !(OutputName(ExtractQuarter(f.name).value) in existing && !force)
              && QuarterOutput(f, ExtractQuarter(f.name).value, num, forms).Some?
              && written(OutputName(ExtractQuarter(f.name).value))
  {
    match ExtractQuarter(f.name)
    case None => Failed
    case Some(p) =>
      if OutputName(p) in existing && !force then Skipped
      else if QuarterOutput(f, p, num, forms).Some? && written(OutputName(p)) then Processed
      else Failed
  }

  /** With `force` nothing is skipped: every file is converted or an error. */
  lemma ForceSkipsNothing(f: BulkFile, existing: set<string>, num: NumberParser,
                          forms: map<string, string>, written: string -> bool)
    ensures Step(f, existing, true, num, forms, written) != Skipped
  {
  }

  /** The outcome of every pass of the loop, in order; pass `k` sees the
      disk as the passes before it left it. A converted file is written
      exactly when `main` of parse_ffiec.py would write it, so the disk is
      the same fold. */
  function RunOutcomes(files: seq<BulkFile>, existing: set<string>, force: bool, num: NumberParser,
                       forms: map<string, string>, written: string -> bool): (os: seq<Outcome>)
    ensures |os| == |files|
    ensures force ==> forall k :: 0 <= k < |os| ==> os[k] != Skipped
  {
    seq(|files|, k requires 0 <= k < |files| =>
      Step(files[k], DiskAfter(files[..k], existing, Writes(num, written)), force, num, forms, written))
  }

  /** Pass `k` skips its file exactly when the run is not forced and the
      quarter's output was on disk before the run or an earlier file wrote
      it; it processes the file exactly when it does not skip it and the
      file converts and is written. */
  lemma RunOutcomeAt(files: seq<BulkFile>, existing: set<string>, force: bool, num: NumberParser,
                     forms: map<string, string>, written: string -> bool, k: nat)
    requires k < |files|
    ensures var q := ExtractQuarter(files[k].name);
            var o := RunOutcomes(files, existing, force, num, forms, written)[k];
            && (o == Skipped <==>
                  && q.Some? && !force
                  && (OutputName(q.value) in existing
                      || exists j :: 0 <= j < k && WriteOf(files[j], num, written) == Some(OutputName(q.value))))
            && (o == Processed <==> q.Some? && o != Skipped && WriteOf(files[k], num, written) == Some(OutputName(q.value)))
  {
    var q := ExtractQuarter(files[k].name);
    var d := DiskAfter(files[..k], existing, Writes(num, written));
    assert RunOutcomes(files, existing, force, num, forms, written)[k] == Step(files[k], d, force, num, forms, written);
    StepOnDisk(files[k], d, force, num, forms, written);
    if q.Some? {
      OnDiskBefore(files, existing, Writes(num, written), k, OutputName(q.value));
    }
  }

  /** A pass processes its file exactly when it does not skip it and writes
      the quarter's output. */
  lemma StepOnDisk(f: BulkFile, d: set<string>, force: bool, num: NumberParser,
                   forms: map<string, string>, written: string -> bool)
    ensures var q := ExtractQuarter(f.name);
            var o := Step(f, d, force, num, forms, written);
            o == Processed <==> q.Some? && o != Skipped && WriteOf(f, num, written) == Some(OutputName(q.value))
  {
  }

  datatype RunCounts = RunCounts(processed: nat, skipped: nat, errors: nat)

  /** The three counters after the loop: the passes of each outcome; every
      file is counted once, and a forced run skips nothing. */
  function Run(files: seq<BulkFile>, existing: set<string>, force: bool, num: NumberParser,
               forms: map<string, string>, written: string -> bool): (c: RunCounts)
    ensures c.processed + c.skipped + c.errors == |files|
    ensures force ==> c.skipped == 0
  {
    var os := RunOutcomes(files, existing, force, num, forms, written);
    CountPartition(os, IsProcessed, IsSkipped, IsFailed);
    RunCounts(Count(os, IsProcessed), Count(os, IsSkipped), Count(os, IsFailed))
  }

  /** Two files of a quarter not yet on disk that both convert and write:
      without `--force` the second finds the first one's output and is
      skipped; with it both are processed. */
  lemma RunRepeatedQuarter(f1: BulkFile, f2: BulkFile, existing: set<string>, force: bool, num: NumberParser,
                           forms: map<string, string>, written: string -> bool)
    requires ExtractQuarter(f1.name).Some? && ExtractQuarter(f2.name) == ExtractQuarter(f1.name)
    requires OutputName(ExtractQuarter(f1.name).value) !in existing
    requires WriteOf(f1, num, written).Some? && WriteOf(f2, num, written).Some?
    ensures !force ==> Run([f1, f2], existing, force, num, forms, written) == RunCounts(1, 1, 0)
    ensures force ==> Run([f1, f2], existing, force, num, forms, written) == RunCounts(2, 0, 0)
  {
    var os := RunOutcomes([f1, f2], existing, force, num, forms, written);
    RepeatedQuarterOutcomes(f1, f2, existing, force, num, forms, written);
    PairCounts(os, force);
  }

  /** The counters of a processed pass followed by a skipped one, or by a
      second processed one when forced. */
  lemma PairCounts(os: seq<Outcome>, force: bool)
    requires os == [Processed, if force then Processed else Skipped]
    ensures var c := RunCounts(Count(os, IsProcessed), Count(os, IsSkipped), Count(os, IsFailed));
            c == if force then RunCounts(2, 0, 0) else RunCounts(1, 1, 0)
  {
    CountTwo(os, IsProcessed);
    CountTwo(os, IsSkipped);
    CountTwo(os, IsFailed);
  }

  lemma RepeatedQuarterOutcomes(f1: BulkFile, f2: BulkFile, existing: set<string>, force: bool, num: NumberParser,
                                forms: map<string, string>, written: string -> bool)
    requires ExtractQuarter(f1.name).Some? && ExtractQuarter(f2.name) == ExtractQuarter(f1.name)
    requires OutputName(ExtractQuarter(f1.name).value) !in existing
    requires WriteOf(f1, num, written).Some? && WriteOf(f2, num, written).Some?
    ensures RunOutcomes([f1, f2], existing, force, num, forms, written) == [Processed, if force then Processed else Skipped]
  {
    FirstOfRepeated(f1, f2, existing, force, num, forms, written);
    SecondOfRepeated(f1, f2, existing, force, num, forms, written);
  }

  lemma FirstOfRepeated(f1: BulkFile, f2: BulkFile, existing: set<string>, force: bool, num: NumberParser,
                        forms: map<string, string>, written: string -> bool)
    requires ExtractQuarter(f1.name).Some? && OutputName(ExtractQuarter(f1.name).value) !in existing
    requires WriteOf(f1, num, written).Some?
    ensures RunOutcomes([f1, f2], existing, force, num, forms, written)[0] == Processed
  {
    var fs := [f1, f2];
    assert fs[0] == f1;
    RunOutcomeAt(fs, existing, force, num, forms, written, 0);
  }

  lemma SecondOfRepeated(f1: BulkFile, f2: BulkFile, existing: set<string>, force: bool, num: NumberParser,
                         forms: map<string, string>, written: string -> bool)
    requires ExtractQuarter(f1.name).Some? && ExtractQuarter(f2.name) == ExtractQuarter(f1.name)
    requires WriteOf(f1, num, written).Some? && WriteOf(f2, num, written).Some?
    ensures RunOutcomes([f1, f2], existing, force, num, forms, written)[1] == if force then Processed else Skipped
  {
    var fs := [f1, f2];
    assert fs[0] == f1 && fs[1] == f2;
    assert WriteOf(fs[0], num, written) == Some(OutputName(ExtractQuarter(fs[1].name).value));
    RunOutcomeAt(fs, existing, force, num, forms, written, 1);
  }

  lemma CountTwo<T>(xs: seq<T>, p: T -> bool)
    requires |xs| == 2
    ensures Count(xs, p) == (if p(xs[0]) then 1 else 0) + (if p(xs[1]) then 1 else 0)
  {
    assert xs[1..][1..] == [];
  }
}

=== FILE: period_examples.dfy ===
/** Worked file names for the two period readers, including the cases
    where only the leftmost candidate is ever read. Each name is first cut
    into its parts by a small lemma, so the reader's behaviour is derived
    from the general lemmas about it. */
module PeriodExamples {
  import opened Common
  import opened Periods

  // ---------------------------------------------------------------------
  // FFIEC bulk names
  // ---------------------------------------------------------------------

  lemma NoDigitIn(s: string)
    requires forall i :: 0 <= i < |s| ==> s[i] == ' ' || s[i] == '_' || ('A' <= s[i] <= 'z')
    ensures forall i :: 0 <= i < |s| ==> !IsDigit(s[i])
  {
  }

  /** The window 20240630: not a date as MMDDYYYY, 2024-06-30 as YYYYMMDD. */
  lemma Window20240630()
    ensures AllDigits("20240630")
    ensures ReadMmddyyyy("20240630") == Date(630, 20, 24)
    ensures ReadYyyymmdd("20240630") == Date(2024, 6, 30)
    ensures !PlausibleDate(630, 20, 24) && PlausibleDate(2024, 6, 30) && QuarterOfMonth(6) == 2
  {
    ReadWindow("20240630");
  }

  lemma Window03312011()
    ensures AllDigits("03312011")
    ensures ReadMmddyyyy("03312011") == Date(2011, 3, 31)
    ensures PlausibleDate(2011, 3, 31) && QuarterOfMonth(3) == 1
  {
    ReadWindow("03312011");
  }

  lemma Window13312011()
    ensures AllDigits("13312011")
    ensures ReadMmddyyyy("13312011") == Date(2011, 13, 31)
    ensures ReadYyyymmdd("13312011") == Date(1331, 20, 11)
    ensures !PlausibleDate(2011, 13, 31) && !PlausibleDate(1331, 20, 11)
  {
    ReadWindow("13312011");
  }

  lemma DailyNameParts()
    ensures "FFIEC_20240630.txt" == "FFIEC_" + "20240630" + ".txt"
    ensures forall i :: 0 <= i < |"FFIEC_"| ==> !IsDigit("FFIEC_"[i])
  {
    NoDigitIn("FFIEC_");
  }

  lemma QuarterlyNameParts()
    ensures "FFIEC CDR Call Bulk All Schedules 03312011.zip"
              == "FFIEC CDR Call Bulk All Schedules " + "03312011" + ".zip"
    ensures forall i :: 0 <= i < |"FFIEC CDR Call Bulk All Schedules "| ==>
              !IsDigit("FFIEC CDR Call Bulk All Schedules "[i])
  {
    NoDigitIn("FFIEC CDR Call Bulk All Schedules ");
  }

  lemma TwoWindowNameParts()
    ensures "x_13312011_20240630.txt" == "x_" + "13312011" + "_20240630.txt"
    ensures forall i :: 0 <= i < |"x_"| ==> !IsDigit("x_"[i])
  {
    NoDigitIn("x_");
  }

  /** A daily FFIEC bulk name in YYYYMMDD order: MMDDYYYY is tried first
      and fails on month 20. */
  lemma FfiecYyyymmddName()
    ensures ExtractQuarter("FFIEC_20240630.txt") == Some(FfiecPeriod(2024, 2))
  {
    DailyNameParts();
    Window20240630();
    ExtractQuarterAfterPrefix("FFIEC_", "20240630", ".txt");
  }

  /** A quarterly bulk name in MMDDYYYY order. */
  lemma FfiecMmddyyyyName()
    ensures ExtractQuarter("FFIEC CDR Call Bulk All Schedules 03312011.zip") == Some(FfiecPeriod(2011, 1))
  {
    QuarterlyNameParts();
    Window03312011();
    ExtractQuarterAfterPrefix("FFIEC CDR Call Bulk All Schedules ", "03312011", ".zip");
  }

  /** Only the leftmost eight-digit window is read: an implausible one
      hides a good date later in the name. */
  lemma FfiecLeftmostWindowOnly()
    ensures ExtractQuarter("x_13312011_20240630.txt") == None
  {
    TwoWindowNameParts();
    Window13312011();
    ExtractQuarterAfterPrefix("x_", "13312011", "_20240630.txt");
  }

  // ---------------------------------------------------------------------
  // Chicago Fed names
  // ---------------------------------------------------------------------

  /** `cal`, an optional letter, four digits and a lower-case tail: the
      date comes from the two digit pairs. */
  lemma ChicagoNameFields(head: string, yy: string, mm: string, tail: string)
    requires head == "call" || head == "calp"
    requires |yy| == 2 && |mm| == 2 && AllDigits(yy) && AllDigits(mm)
    requires Lower(tail) == tail
    ensures DigitsValue(yy) < 100
    ensures InferChicago(head + yy + mm + tail) == ChicagoDate(DigitsValue(yy), DigitsValue(mm))
  {
    DigitsValueBound(yy);
    var s := head + yy + mm + tail;
    assert s[..4] == head && s[4..6] == yy && s[6..8] == mm && s[8..] == tail;
    assert s[0..3] == "cal" by { assert s[0..3] == head[0..3]; }
    assert AllDigits(s[4..8]) by { assert s[4..8] == yy + mm; }
    assert Lower(s) == s by {
      forall i | 0 <= i < |s| ensures Lower(s)[i] == s[i] {
        if 8 <= i { assert s[i] == tail[i - 8]; }
        else if 4 <= i { assert IsDigit(s[i]); }
        else { assert s[i] == head[i]; }
      }
    }
    InferChicagoAtStart(s);
    ChicagoDateAtFields(s, 4, yy, mm);
  }

  /** Two digits and their value. */
  lemma Pair(s: string, v: nat)
    requires |s| == 2 && IsDigit(s[0]) && IsDigit(s[1])
    requires v == 10 * (s[0] as int - '0' as int) + (s[1] as int - '0' as int)
    ensures AllDigits(s) && DigitsValue(s) == v
  {
    DigitsValue2(s);
  }

  lemma PlainNameParts()
    ensures "call9203.xpt" == "call" + "92" + "03" + ".xpt"
    ensures Lower(".xpt") == ".xpt"
    ensures AllDigits("92") && DigitsValue("92") == 92
    ensures AllDigits("03") && DigitsValue("03") == 3
  {
    LowerIdentity(".xpt");
    Pair("92", 92);
    Pair("03", 3);
  }

  lemma PVariantParts()
    ensures "calp8503.xpt" == "calp" + "85" + "03" + ".xpt"
    ensures Lower(".xpt") == ".xpt"
    ensures AllDigits("85") && DigitsValue("85") == 85
    ensures AllDigits("03") && DigitsValue("03") == 3
  {
    LowerIdentity(".xpt");
    Pair("85", 85);
    Pair("03", 3);
  }

  lemma UpperNameParts()
    ensures "call0012.xpt" == "call" + "00" + "12" + ".xpt"
    ensures Lower(".xpt") == ".xpt"
    ensures AllDigits("00") && DigitsValue("00") == 0
    ensures AllDigits("12") && DigitsValue("12") == 12
  {
    LowerIdentity(".xpt");
    Pair("00", 0);
    Pair("12", 12);
  }

  /** A Chicago Fed name without the optional letters: 1992 Q1. */
  lemma ChicagoPlainName()
    ensures InferChicago("call9203.xpt") == Some(Date(1992, 3, 31))
  {
    PlainNameParts();
    ChicagoNameFields("call", "92", "03", ".xpt");
  }

  /** The `p` variant; 85 is at or above the pivot 76, so it is read as 1985. */
  lemma ChicagoPVariant()
    ensures InferChicago("calp8503.xpt") == Some(Date(1985, 3, 31))
  {
    PVariantParts();
    ChicagoNameFields("calp", "85", "03", ".xpt");
  }

  /** Names that lower-case alike infer the same date. */
  lemma SameLowered(a: string, b: string)
    requires Lower(a) == Lower(b)
    ensures InferChicago(a) == InferChicago(b)
  {
  }

  lemma UpperNameLowered()
    ensures Lower("CALL0012.xpt") == Lower("call0012.xpt")
  {
    LowerIdentity("call0012.xpt");
  }

  /** An upper-case name is lower-cased first; 00 is read as 2000. */
  lemma ChicagoUpperCaseName()
    ensures InferChicago("CALL0012.xpt") == Some(Date(2000, 12, 31))
  {
    UpperNameParts();
    ChicagoNameFields("call", "00", "12", ".xpt");
    UpperNameLowered();
    SameLowered("CALL0012.xpt", "call0012.xpt");
  }
}

=== FILE: periods.dfy ===
/** Reporting-period inference from raw filenames, in the two shapes the
    corpus uses: Chicago Fed SAS names (`call9203.xpt`, `calp8503.xpt`) and
    FFIEC bulk names that embed an eight-digit date (`FFIEC_20240630.txt`,
    `... 03312011.zip`). Also the calendar-quarter vocabulary shared with the
    download and summary stages. */
module Periods {
  import opened Common

  // ---------------------------------------------------------------------
  // Quarters
  // ---------------------------------------------------------------------

  /** `Timestamp.quarter`: months 1-3 are Q1, ..., 10-12 are Q4. */
  function QuarterOfMonth(m: int): (q: int)
    requires 1 <= m <= 12
    ensures 1 <= q <= 4 && 3 * q - 2 <= m <= 3 * q
  {
    (m - 1) / 3 + 1
  }

  /** The fixed last day of a quarter-end month; no other month has one. */
  function QuarterEndDay(m: int): (r: Option<int>)
    ensures r.Some? <==> m == 3 || m == 6 || m == 9 || m == 12
    ensures r.Some? ==> r.value == (if m == 3 || m == 12 then 31 else 30)
  {
    if m == 3 then Some(31)
    else if m == 6 then Some(30)
    else if m == 9 then Some(30)
    else if m == 12 then Some(31)
    else None
  }

  /** One of Mar 31, Jun 30, Sep 30, Dec 31. */
  predicate IsQuarterEnd(d: Date) {
    || (d.month == 3 && d.day == 31)
    || (d.month == 6 && d.day == 30)
    || (d.month == 9 && d.day == 30)
    || (d.month == 12 && d.day == 31)
  }

  /** A (year, quarter) pair; the index orders quarters chronologically. */
  datatype QuarterId = QuarterId(year: int, q: int)

  function QuarterIndex(x: QuarterId): int {
    4 * x.year + x.q - 1
  }

  predicate ValidQuarter(x: QuarterId) {
    1 <= x.q <= 4
  }

  function QuarterOfDate(d: Date): (x: QuarterId)
    requires 1 <= d.month <= 12
    ensures ValidQuarter(x) && x.year == d.year
  {
    QuarterId(d.year, QuarterOfMonth(d.month))
  }

  /** The quarter after `x`: Q4 of y rolls over to Q1 of y + 1. */
  function NextQuarter(x: QuarterId): (r: QuarterId)
    requires ValidQuarter(x)
    ensures ValidQuarter(r)
    ensures QuarterIndex(r) == QuarterIndex(x) + 1
  {
    if x.q == 4 then QuarterId(x.year + 1, 1) else QuarterId(x.year, x.q + 1)
  }

  /** A valid quarter is determined by its index. */
  lemma QuarterIndexInjective(x: QuarterId, y: QuarterId)
    requires ValidQuarter(x) && ValidQuarter(y) && QuarterIndex(x) == QuarterIndex(y)
    ensures x == y
  {
  }

  /** `f"{year}Q{quarter}"`. */
  function QuarterLabel(x: QuarterId): (s: string)
    requires ValidQuarter(x)
    ensures |s| >= 3 && s[|s| - 2] == 'Q' && s[|s| - 1] == DigitChar(x.q as nat)
  {
    IntToDecimal(x.year) + "Q" + [DigitChar(x.q as nat)]
  }

  // ---------------------------------------------------------------------
  // Chicago Fed names: re.search(r'call?p?(\d{2})(\d{2})', name.lower())
  // ---------------------------------------------------------------------

  /** The regular expression's meaning: at position `i` the text is `cal`,
      then one of the four optional-letter choices, then four digits starting
      at `k`. */
  ghost predicate RegexMatchAt(s: string, i: int, k: int) {
    && OccursAt(s, "cal", i)
    && i + 3 <= k && k + 4 <= |s| && AllDigits(s[k..k + 4])
    && (|| k == i + 3
        || (k == i + 4 && (s[i + 3] == 'l' || s[i + 3] == 'p'))
        || (k == i + 5 && s[i + 3] == 'l' && s[i + 4] == 'p'))
  }

  /** The match attempt at `i`, as a scan: `l` if present, then `p` if
      present, then four digits. Backtracking never finds another match
      because a digit is neither `l` nor `p`. */
  function ChicagoDigitsAt(s: string, i: nat): (r: Option<nat>)
    ensures forall k :: r == Some(k) <==> RegexMatchAt(s, i, k)
  {
    if i + 3 <= |s| && s[i..i + 3] == "cal" then
      var j := i + 3;
      var j1 := if j < |s| && s[j] == 'l' then j + 1 else j;
      var j2 := if j1 < |s| && s[j1] == 'p' then j1 + 1 else j1;
      if j2 + 4 <= |s| && AllDigits(s[j2..j2 + 4]) then
        assert RegexMatchAt(s, i, j2);
        Some(j2)
      else None
    else None
  }

  /** At most one of the optional-letter choices succeeds at a position. */
  lemma ChicagoMatchUnique(s: string, i: int, k1: int, k2: int)
    requires 0 <= i && RegexMatchAt(s, i, k1) && RegexMatchAt(s, i, k2)
    ensures k1 == k2
  {
    var r := ChicagoDigitsAt(s, i);
  }

  /** `re.search`: the leftmost position at or after `from` where the pattern
      matches, with the start of its four digits. */
  function FirstChicagoMatch(s: string, from: nat): (r: Option<(nat, nat)>)
    ensures r.Some? ==> from <= r.value.0 && RegexMatchAt(s, r.value.0, r.value.1)
    ensures r.Some? ==> forall i :: from <= i < r.value.0 ==> ChicagoDigitsAt(s, i).None?
    ensures r.None? ==> forall i :: from <= i ==> ChicagoDigitsAt(s, i).None?
    decreases |s| - from
  {
    if from + 3 > |s| then None
    else
      match ChicagoDigitsAt(s, from)
      case Some(k) => Some((from, k))
      case None => FirstChicagoMatch(s, from + 1)
  }

  /** Year pivot and quarter-end day for the two captured digit pairs. */
  function ChicagoDate(yy: nat, mm: nat): (r: Option<Date>)
    requires yy < 100
    ensures r.Some? <==> mm == 3 || mm == 6 || mm == 9 || mm == 12
    ensures r.Some? ==> IsQuarterEnd(r.value) && r.value.month == mm
    ensures r.Some? ==> 1976 <= r.value.year <= 2075 && r.value.year % 100 == yy
  {
    var year := if yy >= 76 then 1900 + yy else 2000 + yy;
    match QuarterEndDay(mm)
    case None => None
    case Some(day) => Some(Date(year, mm, day))
  }

  /** `infer_reporting_period_from_filename` (identical in parse_chicago.py
      and 04_parse_chicago.py). Only the leftmost match is ever read: a bad
      month there gives None even when a later match would be valid. */
  function InferChicago(name: string): (r: Option<Date>)
    ensures r.Some? ==> IsQuarterEnd(r.value) && 1976 <= r.value.year <= 2075
  {
    var s := Lower(name);
    match FirstChicagoMatch(s, 0)
    case None => None
    case Some((i, k)) => ChicagoDateAt(s, k)
  }

  /** The date comes from the leftmost match in the lower-cased name, and
      a name without a match has none; conversely, a match with no match
      before it is the one whose digits give the date. */
  lemma InferChicagoLeftmost(name: string)
    ensures InferChicago(name).Some? ==>
              exists i, k :: RegexMatchAt(Lower(name), i, k)
                && (forall i' :: 0 <= i' < i ==> ChicagoDigitsAt(Lower(name), i').None?)
                && InferChicago(name) == ChicagoDateAt(Lower(name), k)
    ensures (forall i :: 0 <= i ==> ChicagoDigitsAt(Lower(name), i).None?) ==> InferChicago(name).None?
    ensures forall i, k ::
              (RegexMatchAt(Lower(name), i, k) && forall i' :: 0 <= i' < i ==> ChicagoDigitsAt(Lower(name), i').None?)
              ==> InferChicago(name) == ChicagoDateAt(Lower(name), k)
  {
    var s := Lower(name);
    match FirstChicagoMatch(s, 0) {
      case None =>
      case Some((i, k)) => assert ChicagoDigitsAt(s, i) == Some(k);
    }
    forall i, k | RegexMatchAt(s, i, k) && forall i' :: 0 <= i' < i ==> ChicagoDigitsAt(s, i').None?
      ensures InferChicago(name) == ChicagoDateAt(s, k)
    {
      FirstChicagoMatchIs(s, 0, i, k);
    }
  }

  /** A match with no match between `from` and it is the one `re.search`
      finds from `from`. */
  lemma {:induction false} FirstChicagoMatchIs(s: string, from: nat, i: int, k: int)
    requires from <= i && RegexMatchAt(s, i, k)
    requires forall i' :: from <= i' < i ==> ChicagoDigitsAt(s, i').None?
    ensures FirstChicagoMatch(s, from) == Some((i, k))
    decreases i - from
  {
    if from < i {
      assert ChicagoDigitsAt(s, from).None?;
      FirstChicagoMatchIs(s, from + 1, i, k);
    } else {
      assert ChicagoDigitsAt(s, i) == Some(k);
    }
  }

  /** The date the captured groups `(\d{2})(\d{2})` at `k` denote. */
  function ChicagoDateAt(s: string, k: nat): (r: Option<Date>)
    requires k + 4 <= |s| && AllDigits(s[k..k + 4])
  {
    assert s[k..k + 4][..2] == s[k..k + 2] && s[k..k + 4][2..] == s[k + 2..k + 4];
    DigitsValueBound(s[k..k + 2]);
    ChicagoDate(DigitsValue(s[k..k + 2]), DigitsValue(s[k + 2..k + 4]))
  }

  /** A lower-case name that starts `cal`, then `l` or `p`, then four
      digits matches at its start with the digits at 4. */
  lemma InferChicagoAtStart(s: string)
    requires Lower(s) == s
    requires |s| >= 8 && s[0..3] == "cal" && (s[3] == 'l' || s[3] == 'p') && AllDigits(s[4..8])
    ensures InferChicago(s) == ChicagoDateAt(s, 4)
  {
    assert s[4] == s[4..8][0];
    assert ChicagoDigitsAt(s, 0) == Some(4);
  }

  /** The date read from the digits at k, from the two two-digit fields. */
  lemma ChicagoDateAtFields(s: string, k: nat, yy: string, mm: string)
    requires k + 4 <= |s| && AllDigits(s[k..k + 4])
    requires s[k..k + 2] == yy && s[k + 2..k + 4] == mm && |yy| == 2
    ensures AllDigits(yy) && AllDigits(mm) && DigitsValue(yy) < 100
    ensures ChicagoDateAt(s, k) == ChicagoDate(DigitsValue(yy), DigitsValue(mm))
  {
    assert s[k..k + 4][..2] == yy && s[k..k + 4][2..] == mm;
    assert AllDigits(yy);
    DigitsValueBound(yy);
  }

  // ---------------------------------------------------------------------
  // FFIEC bulk names: re.search(r'(\d{2})(\d{2})(\d{4})', name), then
  // re.search(r'(\d{4})(\d{2})(\d{2})', name) -- both find the same window
  // ---------------------------------------------------------------------

  predicate DigitWindowAt(s: string, j: int) {
    0 <= j && j + 8 <= |s| && AllDigits(s[j..j + 8])
  }

  /** The leftmost window of eight consecutive digits at or after `from`. */
  function FirstDigitWindow(s: string, from: nat): (r: Option<nat>)
    ensures r.Some? ==> from <= r.value && DigitWindowAt(s, r.value)
    ensures r.Some? ==> forall j :: from <= j < r.value ==> !DigitWindowAt(s, j)
    ensures r.None? ==> forall j :: from <= j ==> !DigitWindowAt(s, j)
    decreases |s| - from
  {
    if from + 8 > |s| then None
    else if AllDigits(s[from..from + 8]) then Some(from)
    else FirstDigitWindow(s, from + 1)
  }

  /** A period read out of an FFIEC name. */
  datatype FfiecPeriod = FfiecPeriod(year: int, quarter: int)

  /** Quarter of a validated (month, day): an exact quarter-end day names its
      quarter, any other day falls back to `(month - 1) // 3 + 1`. The two
      rules agree, so the quarter is always the month's calendar quarter. */
  function FfiecQuarter(month: int, day: int): (q: int)
    requires 1 <= month <= 12
    ensures q == QuarterOfMonth(month)
  {
    if month == 3 && day == 31 then 1
    else if month == 6 && day == 30 then 2
    else if month == 9 && day == 30 then 3
    else if month == 12 && day == 31 then 4
    else (month - 1) / 3 + 1
  }

  /** The range checks both readings apply. */
  predicate PlausibleDate(year: int, month: int, day: int) {
    1 <= month <= 12 && 1 <= day <= 31 && 1985 <= year <= 2030
  }

  function ReadMmddyyyy(w: string): (d: Date)
    requires |w| == 8 && AllDigits(w)
  {
    Date(DigitsValue(w[4..8]), DigitsValue(w[0..2]), DigitsValue(w[2..4]))
  }

  function ReadYyyymmdd(w: string): (d: Date)
    requires |w| == 8 && AllDigits(w)
  {
    Date(DigitsValue(w[0..4]), DigitsValue(w[4..6]), DigitsValue(w[6..8]))
  }

  /** `extract_quarter_from_filename` (identical in parse_ffiec.py and
      05_parse_ffiec.py): read the leftmost eight-digit window as MMDDYYYY,
      else as YYYYMMDD; no later window is ever tried. */
  function ExtractQuarter(name: string): (r: Option<FfiecPeriod>)
    ensures r.Some? ==> 1985 <= r.value.year <= 2030 && 1 <= r.value.quarter <= 4
  {
    match FirstDigitWindow(name, 0)
    case None => None
    case Some(j) =>
      var w := name[j..j + 8];
      var a := ReadMmddyyyy(w);
      var b := ReadYyyymmdd(w);
      if PlausibleDate(a.year, a.month, a.day) then Some(FfiecPeriod(a.year, FfiecQuarter(a.month, a.day)))
      else if PlausibleDate(b.year, b.month, b.day) then Some(FfiecPeriod(b.year, FfiecQuarter(b.month, b.day)))
      else None
  }

  /** The window `j` is the leftmost run of eight digits. */
  predicate LeftmostWindow(name: string, j: int) {
    DigitWindowAt(name, j) && forall j' :: 0 <= j' < j ==> !DigitWindowAt(name, j')
  }

  /** One of the two readings of the window at j passes the range checks. */
  predicate WindowPlausible(name: string, j: int)
    requires DigitWindowAt(name, j)
  {
    var a := ReadMmddyyyy(name[j..j + 8]);
    var b := ReadYyyymmdd(name[j..j + 8]);
    PlausibleDate(a.year, a.month, a.day) || PlausibleDate(b.year, b.month, b.day)
  }

  /** Only the leftmost eight-digit window is read: a period is found
      exactly when one of its readings is plausible, MMDDYYYY first, and
      its quarter is the month's calendar quarter. */
  lemma ExtractQuarterLeftmost(name: string)
    ensures ExtractQuarter(name).Some? <==> exists j :: LeftmostWindow(name, j) && WindowPlausible(name, j)
    ensures forall j :: LeftmostWindow(name, j) ==>
              var a := ReadMmddyyyy(name[j..j + 8]);
              var b := ReadYyyymmdd(name[j..j + 8]);
              && (PlausibleDate(a.year, a.month, a.day) ==> ExtractQuarter(name) == Some(FfiecPeriod(a.year, QuarterOfMonth(a.month))))
              && (!PlausibleDate(a.year, a.month, a.day) && PlausibleDate(b.year, b.month, b.day) ==>
                    ExtractQuarter(name) == Some(FfiecPeriod(b.year, QuarterOfMonth(b.month))))
  {
    var r := FirstDigitWindow(name, 0);
    forall j | LeftmostWindow(name, j) ensures r == Some(j) {
    }
    if r.Some? {
      assert LeftmostWindow(name, r.value);
    }
  }

  /** A two-digit field of a window. */
  function Field2(w: string, i: nat): nat
    requires i + 2 <= |w| && AllDigits(w)
  {
    10 * DigitValue(w[i]) + DigitValue(w[i + 1])
  }

  /** A four-digit field of a window. */
  function Field4(w: string, i: nat): nat
    requires i + 4 <= |w| && AllDigits(w)
  {
    100 * Field2(w, i) + Field2(w, i + 2)
  }

  lemma Field2Value(w: string, i: nat)
    requires i + 2 <= |w| && AllDigits(w)
    ensures DigitsValue(w[i..i + 2]) == Field2(w, i)
  {
    DigitsValue2(w[i..i + 2]);
  }

  lemma Field4Value(w: string, i: nat)
    requires i + 4 <= |w| && AllDigits(w)
    ensures DigitsValue(w[i..i + 4]) == Field4(w, i)
  {
    DigitsValue4(w[i..i + 4]);
  }

  /** The two readings of a window, digit by digit. */
  lemma ReadWindow(w: string)
    requires |w| == 8 && AllDigits(w)
    ensures ReadMmddyyyy(w) == Date(Field4(w, 4), Field2(w, 0), Field2(w, 2))
    ensures ReadYyyymmdd(w) == Date(Field4(w, 0), Field2(w, 4), Field2(w, 6))
  {
    Field2Value(w, 0); Field2Value(w, 2); Field4Value(w, 4);
    Field4Value(w, 0); Field2Value(w, 4); Field2Value(w, 6);
  }

  /** A name whose first digits are an eight-digit window at n is read
      from that window alone, whatever follows it. */
  lemma ExtractQuarterAt(name: string, n: nat)
    requires n + 8 <= |name| && AllDigits(name[n..n + 8])
    requires forall i :: 0 <= i < n ==> !IsDigit(name[i])
    ensures var a := ReadMmddyyyy(name[n..n + 8]);
            var b := ReadYyyymmdd(name[n..n + 8]);
            ExtractQuarter(name)
              == if PlausibleDate(a.year, a.month, a.day) then Some(FfiecPeriod(a.year, QuarterOfMonth(a.month)))
                 else if PlausibleDate(b.year, b.month, b.day) then Some(FfiecPeriod(b.year, QuarterOfMonth(b.month)))
                 else None
  {
    assert DigitWindowAt(name, n);
    forall j | 0 <= j < n ensures !DigitWindowAt(name, j) {
      assert name[j..j + 8][0] == name[j];
    }
    assert FirstDigitWindow(name, 0) == Some(n);
  }

  /** A name whose first digits are the window `w`, read from `w` alone. */
  lemma ExtractQuarterAfterPrefix(prefix: string, w: string, suffix: string)
    requires |w| == 8 && AllDigits(w)
    requires forall i :: 0 <= i < |prefix| ==> !IsDigit(prefix[i])
    ensures var a := ReadMmddyyyy(w);
            var b := ReadYyyymmdd(w);
            ExtractQuarter(prefix + w + suffix)
              == if PlausibleDate(a.year, a.month, a.day) then Some(FfiecPeriod(a.year, QuarterOfMonth(a.month)))
                 else if PlausibleDate(b.year, b.month, b.day) then Some(FfiecPeriod(b.year, QuarterOfMonth(b.month)))
                 else None
  {
    var name := prefix + w + suffix;
    var n := |prefix|;
    assert name[n..n + 8] == w;
    assert forall i :: 0 <= i < n ==> name[i] == prefix[i];
    ExtractQuarterAt(name, n);
  }

  /** The `quarter_str` of an extracted period. */
  function FfiecLabel(p: FfiecPeriod): string
    requires 1 <= p.quarter <= 4
  {
    QuarterLabel(QuarterId(p.year, p.quarter))
  }

  /** The period the FFIEC scripts stamp into REPORTING_PERIOD: the first day
      of the quarter's last month, not the quarter-end date. */
  function FfiecReportingDate(p: FfiecPeriod): (d: Date)
    requires 1 <= p.quarter <= 4
    ensures d.day == 1 && d.month == 3 * p.quarter && d.year == p.year
    ensures QuarterOfMonth(d.month) == p.quarter && !IsQuarterEnd(d)
  {
    Date(p.year, p.quarter * 3, 1)
  }
}

=== FILE: schema.dfy ===
/** The parquet side shared by 04_parse_chicago.py and 05_parse_ffiec.py:
    loading the variable dictionary once per run, and rewriting a table's
    schema so that each column carries its description as field metadata. */
module Schema {
  import opened Common

  // ---------------------------------------------------------------------
  // Loading the dictionary
  // ---------------------------------------------------------------------

  /** The first n pairs as a mapping, a later pair overriding an earlier
      one with the same key. */
  function ZipPrefix(keys: seq<string>, values: seq<string>, n: nat): (m: map<string, string>)
    requires n <= |keys| && n <= |values|
    ensures forall k :: k in m <==> k in keys[..n]
  {
    if n == 0 then map[]
    else
      assert keys[..n] == keys[..n - 1] + [keys[n - 1]];
      ZipPrefix(keys, values, n - 1)[keys[n - 1] := values[n - 1]]
  }

  /** `dict(zip(keys, values))`: pairs up to the shorter list; the keys are
      those of the paired prefix. */
  function ZipMap(keys: seq<string>, values: seq<string>): (m: map<string, string>)
    ensures forall k :: k in m <==> k in keys[..Min(|keys|, |values|)]
  {
    ZipPrefix(keys, values, Min(|keys|, |values|))
  }

  /** Within the first n pairs, a key's value is the one paired with its
      last occurrence. */
  lemma {:induction false} ZipPrefixLastWins(keys: seq<string>, values: seq<string>, n: nat, i: nat)
    requires n <= |keys| && n <= |values| && i < n
    requires keys[i] !in keys[i + 1..n]
    ensures ZipPrefix(keys, values, n)[keys[i]] == values[i]
  {
    if i < n - 1 {
      assert keys[n - 1] in keys[i + 1..n];
      assert keys[i + 1..n - 1] <= keys[i + 1..n];
      assert keys[i + 1..n - 1] == keys[i + 1..n][..n - 2 - i];
      ZipPrefixLastWins(keys, values, n - 1, i);
    }
  }

  /** `dict(zip(keys, values))` maps each paired key to the value paired
      with its last occurrence. */
  lemma ZipMapLastWins(keys: seq<string>, values: seq<string>, i: nat)
    requires i < |keys| && i < |values|
    requires keys[i] !in keys[i + 1..Min(|keys|, |values|)]
    ensures keys[i] in ZipMap(keys, values) && ZipMap(keys, values)[keys[i]] == values[i]
  {
    ZipPrefixLastWins(keys, values, Min(|keys|, |values|), i);
  }

  /** The dictionary file as the loader finds it: missing, unreadable, or
      read with its Variable and Description columns and, when present, its
      ReportingForms column. */
  datatype DictionaryFile =
    | Absent
    | Unreadable
    | Loaded(variables: seq<string>, descriptions: seq<string>, forms: Option<seq<string>>)

  /** The module-level caches of the loader. */
  datatype Cache = Cache(descriptions: map<string, string>, forms: map<string, string>)

  /** What one call returns and the caches it leaves. */
  datatype Loaded = LoadResult(descriptions: map<string, string>, forms: map<string, string>, cache: Cache)

  /** `load_data_dictionary` of 05_parse_ffiec.py (the one in
      04_parse_chicago.py is the same without the forms). A non-empty
      description cache is returned as it is; a missing or unreadable file
      gives empty mappings and leaves the caches alone; a read file fills the
      description cache, and the forms cache when the file has forms. */
  function LoadDictionary(cache: Cache, file: DictionaryFile): (r: Loaded)
    ensures |cache.descriptions| > 0 ==> r.descriptions == cache.descriptions && r.forms == cache.forms && r.cache == cache
    ensures |cache.descriptions| == 0 && (file.Absent? || file.Unreadable?) ==>
              r.descriptions == map[] && r.forms == map[] && r.cache == cache
    ensures |cache.descriptions| == 0 && file.Loaded? ==>
              && r.descriptions == r.cache.descriptions
              && r.forms == r.cache.forms
              && (forall v :: v in r.descriptions <==> v in file.variables[..Min(|file.variables|, |file.descriptions|)])
              && (file.forms.None? ==> r.forms == cache.forms)
  {
    if |cache.descriptions| > 0 then LoadResult(cache.descriptions, cache.forms, cache)
    else match file
      case Absent => LoadResult(map[], map[], cache)
      case Unreadable => LoadResult(map[], map[], cache)
      case Loaded(vars, descs, forms) =>
        var d := ZipMap(vars, descs);
        var f := if forms.Some? then ZipMap(vars, forms.value) else cache.forms;
        LoadResult(d, f, Cache(d, f))
  }

  function Min(a: int, b: int): int {
    if a < b then a else b
  }

  /** Once a call has returned non-empty descriptions, every later call
      returns the same pair, whatever the file looks like by then. */
  lemma LoadDictionaryCached(cache: Cache, first: DictionaryFile, later: DictionaryFile)
    requires |LoadDictionary(cache, first).descriptions| > 0
    ensures var r1 := LoadDictionary(cache, first);
            var r2 := LoadDictionary(r1.cache, later);
            r2.descriptions == r1.descriptions && r2.forms == r1.forms && r2.cache == r1.cache
  {
    var r1 := LoadDictionary(cache, first);
    if |cache.descriptions| == 0 {
      assert first.Loaded?;
    }
  }

  // ---------------------------------------------------------------------
  // Field metadata
  // ---------------------------------------------------------------------

  /** A schema field; the type is kept as an opaque name. */
  datatype Field = Field(name: string, ftype: string, nullable: bool, metadata: map<string, string>)

  datatype TableSchema = TableSchema(fields: seq<Field>, metadata: map<string, string>)

  /** `descriptions.get(name.upper(), '')`. */
  function DescriptionOf(name: string, descriptions: map<string, string>): string {
    var u := Upper(name);
    if u in descriptions then descriptions[u] else ""
  }

  /** One field of the rewritten schema: a non-empty description is added
      under the key "description", the field's own metadata winning when it
      already has that key. */
  function DescribeField(f: Field, descriptions: map<string, string>): (g: Field)
    ensures g.name == f.name && g.ftype == f.ftype && g.nullable == f.nullable
    ensures forall k :: k in f.metadata ==> k in g.metadata && g.metadata[k] == f.metadata[k]
    ensures forall k :: k in g.metadata && k != "description" ==> k in f.metadata
    ensures "description" in g.metadata <==> "description" in f.metadata || |DescriptionOf(f.name, descriptions)| > 0
    ensures "description" !in f.metadata && |DescriptionOf(f.name, descriptions)| > 0 ==>
              g.metadata["description"] == DescriptionOf(f.name, descriptions)
    ensures |DescriptionOf(f.name, descriptions)| == 0 ==> g == f
  {
    var desc := DescriptionOf(f.name, descriptions);
    if |desc| > 0 then Field(f.name, f.ftype, f.nullable, map["description" := desc] + f.metadata) else f
  }

  /** The schema rewrite of `write_parquet_with_metadata`: fields keep their
      order, names, types and nullability; every metadata value a field had is
      kept, and the only key it may gain is "description", holding the
      dictionary's description of the field; the table-level metadata is
      kept. */
  function DescribeSchema(s: TableSchema, descriptions: map<string, string>): (r: TableSchema)
    ensures |r.fields| == |s.fields| && r.metadata == s.metadata
    ensures forall i :: 0 <= i < |s.fields| ==>
              && r.fields[i].name == s.fields[i].name
              && r.fields[i].ftype == s.fields[i].ftype
              && r.fields[i].nullable == s.fields[i].nullable
              && s.fields[i].metadata.Keys <= r.fields[i].metadata.Keys
    ensures forall i :: 0 <= i < |s.fields| ==>
              ("description" in r.fields[i].metadata <==>
                 "description" in s.fields[i].metadata || |DescriptionOf(s.fields[i].name, descriptions)| > 0)
    ensures forall i, k :: 0 <= i < |s.fields| && k in s.fields[i].metadata ==>
              r.fields[i].metadata[k] == s.fields[i].metadata[k]
    ensures forall i, k :: 0 <= i < |s.fields| && k in r.fields[i].metadata && k != "description" ==>
              k in s.fields[i].metadata
    ensures forall i :: 0 <= i < |s.fields| && "description" !in s.fields[i].metadata
                        && |DescriptionOf(s.fields[i].name, descriptions)| > 0 ==>
              r.fields[i].metadata["description"] == DescriptionOf(s.fields[i].name, descriptions)
  {
    TableSchema(seq(|s.fields|, i requires 0 <= i < |s.fields| => DescribeField(s.fields[i], descriptions)), s.metadata)
  }

  /** With no descriptions loaded, the schema is written unchanged. */
  lemma DescribeSchemaWithoutDictionary(s: TableSchema)
    ensures DescribeSchema(s, map[]) == s
  {
    var r := DescribeSchema(s, map[]);
    assert forall i :: 0 <= i < |s.fields| ==> r.fields[i] == s.fields[i];
  }
}

=== FILE: selection.dfy ===
/** Column selection by label, `df[labels]`, on a frame whose labels may
    repeat. Each requested label brings every column that carries it, so
    upper-casing names that differ only in case multiplies columns rather
    than merging them; a frame with a repeated label cannot be written to
    a parquet file. */
module Selection {
  import opened Common
  import opened Tables

  /** One copy of `l` for every column of `cols` labelled `l`. */
  function Copies(l: string, cols: seq<string>): seq<string> {
    if |cols| == 0 then [] else (if cols[0] == l then [l] else []) + Copies(l, cols[1..])
  }

  /** The labels of `df[labels]` when the frame's labels are `cols`. */
  function Select(labels: seq<string>, cols: seq<string>): seq<string> {
    if |labels| == 0 then [] else Copies(labels[0], cols) + Select(labels[1..], cols)
  }

  function Square(n: nat): nat {
    n * n
  }

  /** A table a parquet write accepts: no two columns share a name. */
  predicate Writable(t: Table) {
    Distinct(t.columns)
  }

  /** `labels` asks once for each name of `front` that `cols` has, and for
      every other name as often as `cols` has it. */
  ghost predicate FrontLayout(labels: seq<string>, cols: seq<string>, front: seq<string>) {
    forall y :: multiset(labels)[y] == (if y in front && y in cols then 1 else 0) + (if y in front then 0 else multiset(cols)[y])
  }

  // ---------------------------------------------------------------------
  // Counting
  // ---------------------------------------------------------------------

  lemma {:induction false} CopiesCount(l: string, cols: seq<string>, x: string)
    ensures multiset(Copies(l, cols))[x] == if x == l then multiset(cols)[l] else 0
    decreases |cols|
  {
    if |cols| > 0 {
      assert cols == [cols[0]] + cols[1..];
      CopiesCount(l, cols[1..], x);
    }
  }

  /** A label requested j times that names k columns appears j * k times. */
  lemma {:induction false} SelectCount(labels: seq<string>, cols: seq<string>, x: string)
    ensures multiset(Select(labels, cols))[x] == multiset(labels)[x] * multiset(cols)[x]
    decreases |labels|
  {
    if |labels| > 0 {
      assert labels == [labels[0]] + labels[1..];
      SelectCount(labels[1..], cols, x);
      CopiesCount(labels[0], cols, x);
      var b := multiset(labels[1..])[x];
      var m := multiset(cols)[x];
      if labels[0] == x {
        assert multiset(labels)[x] == 1 + b;
        OneMore(b, m);
      } else {
        assert multiset(labels)[x] == b;
      }
    }
  }

  lemma OneMore(b: nat, m: nat)
    ensures (1 + b) * m == m + b * m
  {
  }

  lemma {:induction false} DistinctCons(xs: seq<string>)
    requires |xs| > 0
    ensures Distinct(xs) <==> xs[0] !in xs[1..] && Distinct(xs[1..])
  {
    if xs[0] !in xs[1..] && Distinct(xs[1..]) {
      forall i, j | 0 <= i < j < |xs| ensures xs[i] != xs[j] {
        if i == 0 {
          assert xs[j] == xs[1..][j - 1];
        } else {
          assert xs[i] == xs[1..][i - 1] && xs[j] == xs[1..][j - 1];
        }
      }
    }
    if Distinct(xs) {
      forall i, j | 0 <= i < j < |xs[1..]| ensures xs[1..][i] != xs[1..][j] {
        assert xs[i + 1] != xs[j + 1];
      }
    }
  }

  /** Distinct names are the ones no name occurs twice in. */
  lemma {:induction false} DistinctCounts(xs: seq<string>)
    ensures Distinct(xs) <==> forall x :: multiset(xs)[x] <= 1
    decreases |xs|
  {
    if |xs| > 0 {
      var h, t := xs[0], xs[1..];
      assert xs == [h] + t;
      DistinctCons(xs);
      DistinctCounts(t);
      assert forall x :: multiset(xs)[x] == (if x == h then 1 else 0) + multiset(t)[x];
      if forall x :: multiset(xs)[x] <= 1 {
        assert multiset(xs)[h] <= 1;
        assert h !in t;
        forall x ensures multiset(t)[x] <= 1 {
          assert multiset(xs)[x] <= 1;
        }
      }
    } else {
      assert forall x :: multiset(xs)[x] == 0;
    }
  }

  lemma SquareAtMostOne(m: nat)
    ensures Square(m) <= 1 <==> m <= 1
  {
    if m >= 2 {
      assert m * m >= 2 * m;
    }
  }

  // ---------------------------------------------------------------------
  // Selections in the front layout
  // ---------------------------------------------------------------------

  /** Each front name appears as often as the frame has it, and every
      other name as often as the square of that. */
  lemma FrontLayoutCounts(labels: seq<string>, cols: seq<string>, front: seq<string>, x: string)
    requires FrontLayout(labels, cols, front)
    ensures multiset(Select(labels, cols))[x] ==
              if x in front then multiset(cols)[x] else Square(multiset(cols)[x])
  {
    SelectCount(labels, cols, x);
    assert multiset(labels)[x] == (if x in front && x in cols then 1 else 0) + (if x in front then 0 else multiset(cols)[x]);
  }

  /** The selection repeats a name exactly when the frame does. */
  lemma FrontLayoutDistinct(labels: seq<string>, cols: seq<string>, front: seq<string>)
    requires FrontLayout(labels, cols, front)
    ensures Distinct(Select(labels, cols)) <==> Distinct(cols)
  {
    var s := Select(labels, cols);
    DistinctCounts(s);
    DistinctCounts(cols);
    forall x ensures multiset(s)[x] <= 1 <==> multiset(cols)[x] <= 1 {
      FrontLayoutCounts(labels, cols, front, x);
      SquareAtMostOne(multiset(cols)[x]);
    }
  }

  lemma {:induction false} CopiesAbsent(l: string, cols: seq<string>)
    requires l !in cols
    ensures Copies(l, cols) == []
    decreases |cols|
  {
    if |cols| > 0 {
      CopiesAbsent(l, cols[1..]);
    }
  }

  lemma {:induction false} CopiesOnce(l: string, cols: seq<string>)
    requires multiset(cols)[l] == 1
    ensures Copies(l, cols) == [l]
    decreases |cols|
  {
    assert cols == [cols[0]] + cols[1..];
    if cols[0] == l {
      assert multiset(cols[1..])[l] == 0;
      CopiesAbsent(l, cols[1..]);
    } else {
      CopiesOnce(l, cols[1..]);
    }
  }

  lemma {:induction false} SelectEach(labels: seq<string>, cols: seq<string>)
    requires forall l :: l in labels ==> multiset(cols)[l] == 1
    ensures Select(labels, cols) == labels
    decreases |labels|
  {
    if |labels| > 0 {
      CopiesOnce(labels[0], cols);
      SelectEach(labels[1..], cols);
      assert labels == [labels[0]] + labels[1..];
    }
  }

  /** Over distinct labels the selection is the requested list itself. */
  lemma FrontLayoutSelectsLabels(labels: seq<string>, cols: seq<string>, front: seq<string>)
    requires FrontLayout(labels, cols, front) && Distinct(cols)
    ensures Select(labels, cols) == labels
  {
    DistinctCounts(cols);
    forall l | l in labels ensures multiset(cols)[l] == 1 {
      assert multiset(labels)[l] > 0;
      assert l in cols;
    }
    SelectEach(labels, cols);
  }

  // ---------------------------------------------------------------------
  // The list `MoveToFront` requests
  // ---------------------------------------------------------------------

  lemma {:induction false} WithoutCount(cols: seq<string>, front: seq<string>, x: string)
    ensures multiset(Without(cols, front))[x] == if x in front then 0 else multiset(cols)[x]
    decreases |cols|
  {
    if |cols| > 0 {
      assert cols == [cols[0]] + cols[1..];
      WithoutCount(cols[1..], front, x);
      if cols[0] !in front {
        assert Without(cols, front) == [cols[0]] + Without(cols[1..], front);
      }
    }
  }

  lemma PresentCount(front: seq<string>, cols: seq<string>, x: string)
    requires Distinct(front)
    ensures multiset(Present(front, cols))[x] == if x in front && x in cols then 1 else 0
  {
    var p := Present(front, cols);
    DistinctCounts(p);
    assert multiset(p)[x] <= 1;
    assert x in p <==> x in front && x in cols;
  }

  /** `MoveToFront` requests each front name the frame has once and every
      other name as often as the frame has it. */
  lemma MoveToFrontLayout(cols: seq<string>, front: seq<string>)
    requires Distinct(front)
    ensures FrontLayout(MoveToFront(cols, front), cols, front)
  {
    var r := MoveToFront(cols, front);
    assert r == Present(front, cols) + Without(cols, front);
    forall y ensures multiset(r)[y] == (if y in front && y in cols then 1 else 0) + (if y in front then 0 else multiset(cols)[y]) {
      PresentCount(front, cols, y);
      WithoutCount(cols, front, y);
    }
  }
}

=== FILE: sorting.dfy ===
/** Ordering vocabulary shared by every `sorted(...)` / `sort_values(...)` in
    the pipeline: Python's code-point order on strings, and a stable-free
    insertion sort whose contract is "sorted and a permutation", which is all
    the unstable pandas sorts promise. */
module Sorting {

  /** A relation usable as a sort key order: total and transitive. */
  ghost predicate TotalPreorder<T(!new)>(le: (T, T) -> bool) {
    && (forall a, b :: le(a, b) || le(b, a))
    && (forall a, b, c :: le(a, b) && le(b, c) ==> le(a, c))
  }

  predicate SortedBy<T>(xs: seq<T>, le: (T, T) -> bool) {
    forall i, j :: 0 <= i < j < |xs| ==> le(xs[i], xs[j])
  }

  /** Insert `x` before the first element it does not exceed. */
  function Insert<T(!new)>(x: T, xs: seq<T>, le: (T, T) -> bool): (r: seq<T>)
    requires TotalPreorder(le) && SortedBy(xs, le)
    ensures SortedBy(r, le)
    ensures multiset(r) == multiset(xs) + multiset{x}
  {
    if |xs| == 0 then [x]
    else if le(x, xs[0]) then [x] + xs
    else
      var rest := Insert(x, xs[1..], le);
      assert xs == [xs[0]] + xs[1..];
      InsertHeadBound(x, xs, le, rest);
      SortedCons(xs[0], rest, le);
      [xs[0]] + rest
  }

  /** An element every later one is at least, in front of a sorted run,
      keeps it sorted. */
  lemma SortedCons<T>(h: T, rest: seq<T>, le: (T, T) -> bool)
    requires SortedBy(rest, le) && forall y :: y in rest ==> le(h, y)
    ensures SortedBy([h] + rest, le)
  {
    var r := [h] + rest;
    forall i, j | 0 <= i < j < |r| ensures le(r[i], r[j]) {
      assert r[j] == rest[j - 1];
      if i > 0 {
        assert r[i] == rest[i - 1];
      }
    }
  }

  /** When `x` goes after the head, the head is at most everything after it. */
  lemma InsertHeadBound<T(!new)>(x: T, xs: seq<T>, le: (T, T) -> bool, rest: seq<T>)
    requires TotalPreorder(le) && SortedBy(xs, le) && |xs| > 0 && !le(x, xs[0])
    requires multiset(rest) == multiset(xs[1..]) + multiset{x}
    ensures forall y :: y in rest ==> le(xs[0], y)
  {
    forall y | y in rest ensures le(xs[0], y) {
      assert y in multiset(rest);
      if y != x {
        assert y in multiset(xs[1..]);
        var k :| 0 <= k < |xs[1..]| && xs[1..][k] == y;
        assert xs[k + 1] == y;
      }
    }
  }

  /** Insertion sort: the result is ordered by `le` and has the same elements
      with the same multiplicities. */
  function SortBy<T(!new)>(xs: seq<T>, le: (T, T) -> bool): (r: seq<T>)
    requires TotalPreorder(le)
    ensures SortedBy(r, le)
    ensures multiset(r) == multiset(xs)
    ensures |r| == |xs|
  {
    if |xs| == 0 then []
    else
      assert xs == [xs[0]] + xs[1..];
      var r := Insert(xs[0], SortBy(xs[1..], le), le);
      assert |r| == |multiset(r)|;
      r
  }

  // ---------------------------------------------------------------------
  // Python string comparison (code-point lexicographic order)
  // ---------------------------------------------------------------------

  /** `a <= b` on Python strings. */
  predicate StrLe(a: string, b: string) {
    |a| == 0 || (|b| > 0 && (a[0] < b[0] || (a[0] == b[0] && StrLe(a[1..], b[1..]))))
  }

  lemma {:induction false} StrLeTotal(a: string, b: string)
    ensures StrLe(a, b) || StrLe(b, a)
    decreases |a|
  {
    if |a| > 0 && |b| > 0 && a[0] == b[0] {
      StrLeTotal(a[1..], b[1..]);
    }
  }

  lemma {:induction false} StrLeTransitive(a: string, b: string, c: string)
    requires StrLe(a, b) && StrLe(b, c)
    ensures StrLe(a, c)
    decreases |a|
  {
    if |a| > 0 && a[0] == b[0] && b[0] == c[0] {
      StrLeTransitive(a[1..], b[1..], c[1..]);
    }
  }

  lemma {:induction false} StrLeAntisymmetric(a: string, b: string)
    requires StrLe(a, b) && StrLe(b, a)
    ensures a == b
    decreases |a|
  {
    if |a| > 0 {
      StrLeAntisymmetric(a[1..], b[1..]);
      assert a == [a[0]] + a[1..] && b == [b[0]] + b[1..];
    }
  }

  lemma StrLeIsTotalPreorder()
    ensures TotalPreorder(StrLe)
  {
    forall a, b ensures StrLe(a, b) || StrLe(b, a) {
      StrLeTotal(a, b);
    }
    forall a, b, c | StrLe(a, b) && StrLe(b, c) ensures StrLe(a, c) {
      StrLeTransitive(a, b, c);
    }
  }

  /** Sorting strings ascending, as `sorted(list_of_str)`. */
  function SortStrings(xs: seq<string>): (r: seq<string>)
    ensures SortedBy(r, StrLe)
    ensures multiset(r) == multiset(xs)
    ensures |r| == |xs|
  {
    StrLeIsTotalPreorder();
    SortBy(xs, StrLe)
  }
}

=== FILE: summary.dfy ===
/** The corpus summary of summarize.py and 06_summarize.py: what one parquet
    file contributes (identifier count, variable count, all-null columns,
    its reporting period), the date filter, the directory layout and order
    of the summaries, and the detection of missing quarters. */
module Summary {
  import opened Common
  import opened Tables
  import opened Periods
  import opened Sorting

  // ---------------------------------------------------------------------
  // One file (summarize_parquet_file)
  // ---------------------------------------------------------------------

  /** The two columns that are not variables. */
  predicate IsMetadata(c: string) {
    c == "RSSD_ID" || c == "REPORTING_PERIOD"
  }

  /** The variable columns, in order (a repeated name counts each time). */
  function DataColumns(cols: seq<string>): (r: seq<string>)
    ensures forall c :: c in r <==> c in cols && !IsMetadata(c)
    ensures |r| <= |cols|
  {
    if |cols| == 0 then []
    else
      assert forall c :: c in cols <==> c == cols[0] || c in cols[1..];
      (if IsMetadata(cols[0]) then [] else [cols[0]]) + DataColumns(cols[1..])
  }

  lemma {:induction false} DataColumnsConcat(a: seq<string>, b: seq<string>)
    ensures DataColumns(a + b) == DataColumns(a) + DataColumns(b)
    decreases |a|
  {
    if |a| == 0 {
      assert a + b == b;
    } else {
      var head := if IsMetadata(a[0]) then [] else [a[0]];
      assert (a + b)[0] == a[0];
      assert (a + b)[1..] == a[1..] + b;
      DataColumnsConcat(a[1..], b);
      ConcatAssoc(head, DataColumns(a[1..]), DataColumns(b));
    }
  }

  /** A list with no metadata name is all variables. */
  lemma {:induction false} DataColumnsOfVariables(cols: seq<string>)
    requires forall c :: c in cols ==> !IsMetadata(c)
    ensures DataColumns(cols) == cols
  {
    if |cols| > 0 {
      assert cols[0] in cols;
      assert forall c :: c in cols[1..] ==> c in cols;
      DataColumnsOfVariables(cols[1..]);
    }
  }

  /** In a layout that starts with RSSD_ID and REPORTING_PERIOD and has
      neither name again, the variable count is the column count less two,
      the figure the FFIEC parsers print. */
  lemma VariablesOfStandardLayout(cols: seq<string>)
    requires |cols| >= 2 && cols[0] == "RSSD_ID" && cols[1] == "REPORTING_PERIOD"
    requires forall c :: c in cols[2..] ==> !IsMetadata(c)
    ensures |DataColumns(cols)| == |cols| - 2
  {
    assert cols == cols[..2] + cols[2..];
    DataColumnsConcat(cols[..2], cols[2..]);
    assert cols[..2] == ["RSSD_ID"] + ["REPORTING_PERIOD"];
    DataColumnsConcat(["RSSD_ID"], ["REPORTING_PERIOD"]);
    DataColumnsOfVariables(cols[2..]);
  }

  /** Every cell of the column is missing. */
  predicate AllMissing(rows: seq<Row>, c: string) {
    forall k :: 0 <= k < |rows| ==> Cell(rows[k], c).Missing?
  }

  /** The variable columns with no value at all. */
  function NullColumns(cols: seq<string>, rows: seq<Row>): (r: seq<string>)
    ensures |r| <= |DataColumns(cols)|
    ensures forall c :: c in r <==> c in cols && !IsMetadata(c) && AllMissing(rows, c)
  {
    if |cols| == 0 then []
    else
      assert forall c :: c in cols <==> c == cols[0] || c in cols[1..];
      assert DataColumns(cols) == (if IsMetadata(cols[0]) then [] else [cols[0]]) + DataColumns(cols[1..]);
      (if !IsMetadata(cols[0]) && AllMissing(rows, cols[0]) then [cols[0]] else []) + NullColumns(cols[1..], rows)
  }

  /** The distinct non-missing identifiers (`nunique` on RSSD_ID). */
  function Identifiers(rows: seq<Row>): set<Value> {
    set r | r in rows && !Cell(r, "RSSD_ID").Missing? :: Cell(r, "RSSD_ID")
  }

  /** There are never more distinct identifiers than rows. */
  lemma {:induction false} IdentifiersBound(rows: seq<Row>)
    ensures |Identifiers(rows)| <= |rows|
  {
    if |rows| > 0 {
      var init := rows[..|rows| - 1];
      var last := rows[|rows| - 1];
      IdentifiersBound(init);
      assert rows == init + [last];
      assert forall r :: r in rows ==> r in init || r == last;
      var bigger := Identifiers(init) + {Cell(last, "RSSD_ID")};
      assert Identifiers(rows) <= bigger;
      SubsetCard(Identifiers(rows), bigger);
      assert |bigger| <= |Identifiers(init)| + 1;
    }
  }

  /** A parquet file as the summariser sees it: unreadable, or its name
      without the suffix and its content. */
  datatype ParquetFile = Unreadable | Parquet(stem: string, table: Table)

  /** What one file contributes to the report. */
  datatype FileSummary = FileSummary(
    entity: string, quarter: string, date: Option<Date>,
    banks: nat, variables: nat, nonNullVariables: int, nullColumns: nat)

  /** The period of the first row; a file without rows, or whose first
      period is not a timestamp, has none. */
  function FirstPeriod(rows: seq<Row>): (d: Option<Date>)
    ensures d.Some? ==> |rows| > 0 && Cell(rows[0], "REPORTING_PERIOD") == Stamp(d.value)
    ensures |rows| > 0 && Cell(rows[0], "REPORTING_PERIOD").Stamp? ==> d.Some?
  {
    if |rows| == 0 then None
    else match Cell(rows[0], "REPORTING_PERIOD")
      case Stamp(d) => Some(d)
      case _ => None
  }

  /** The tag of a file's summary: its directory name, or "All" in the
      flat layout. */
  function EntityTag(entity: Option<string>): (s: string)
    ensures entity.Some? && |entity.value| > 0 ==> s == entity.value
    ensures entity.None? ==> s == "All"
  {
    if entity.Some? && |entity.value| > 0 then entity.value else "All"
  }

  /** `summarize_parquet_file` of 06_summarize.py (summarize.py's is the
      same without the null-column part). A file that cannot be read, or
      lacks either metadata column, gives no summary. `deep` is the
      null-column check. */
  function Summarize(f: ParquetFile, deep: bool, entity: Option<string>): (r: Option<FileSummary>)
    ensures r.Some? <==> f.Parquet? && "RSSD_ID" in f.table.columns && "REPORTING_PERIOD" in f.table.columns
    ensures r.Some? ==> r.value.variables == |DataColumns(f.table.columns)|
    ensures r.Some? ==> r.value.banks <= |f.table.rows|
    ensures r.Some? ==> r.value.entity == EntityTag(entity) && r.value.quarter == f.stem
    ensures r.Some? && !deep ==> r.value.nullColumns == 0 && r.value.nonNullVariables == r.value.variables
    ensures r.Some? && deep ==>
              && r.value.nullColumns <= r.value.variables
              && r.value.nonNullVariables == r.value.variables - r.value.nullColumns >= 0
  {
    match f
    case Unreadable => None
    case Parquet(stem, t) =>
      if "RSSD_ID" !in t.columns || "REPORTING_PERIOD" !in t.columns then None
      else
        var variables := |DataColumns(t.columns)|;
        var nulls := if deep then |NullColumns(t.columns, t.rows)| else 0;
        IdentifiersBound(t.rows);
        Some(FileSummary(EntityTag(entity), stem, FirstPeriod(t.rows), |Identifiers(t.rows)|,
                         variables, variables - nulls, nulls))
  }

  // ---------------------------------------------------------------------
  // Collecting (main)
  // ---------------------------------------------------------------------

  /** The date filter: a summary without a date always passes; one with a
      date passes when it lies in the inclusive optional window. */
  predicate Passes(s: FileSummary, start: Option<Date>, end: Option<Date>) {
    s.date.None? || InWindow(s.date.value, start, end)
  }

  /** A file and the directory tag it was found under. */
  datatype Listed = Listed(file: ParquetFile, entity: Option<string>)

  /** The summaries kept, in listing order: unreadable files are dropped,
      and so are summaries outside the window. */
  function Collect(files: seq<Listed>, deep: bool, start: Option<Date>, end: Option<Date>): (r: seq<FileSummary>)
    ensures |r| <= |files|
    ensures forall s :: s in r ==> Passes(s, start, end)
  {
    if |files| == 0 then []
    else
      var init := files[..|files| - 1];
      var last := files[|files| - 1];
      var rest := Collect(init, deep, start, end);
      var sum := Summarize(last.file, deep, last.entity);
      if sum.Some? && Passes(sum.value, start, end) then rest + [sum.value] else rest
  }

  /** The `k`-th listed file gives the summary `s`, inside the window. */
  predicate KeptAt(files: seq<Listed>, k: int, deep: bool, start: Option<Date>, end: Option<Date>, s: FileSummary) {
    0 <= k < |files| && Summarize(files[k].file, deep, files[k].entity) == Some(s) && Passes(s, start, end)
  }

  /** One more file adds its summary when it has one inside the window. */
  lemma CollectLast(files: seq<Listed>, deep: bool, start: Option<Date>, end: Option<Date>)
    requires |files| > 0
    ensures forall x :: x in Collect(files, deep, start, end) <==>
              x in Collect(files[..|files| - 1], deep, start, end) || KeptAt(files, |files| - 1, deep, start, end, x)
  {
  }

  /** The kept summaries are exactly those of readable files that pass the
      date filter. */
  lemma {:induction false} CollectMembers(files: seq<Listed>, deep: bool, start: Option<Date>, end: Option<Date>)
    ensures forall s :: s in Collect(files, deep, start, end) <==> exists k :: KeptAt(files, k, deep, start, end, s)
  {
    if |files| > 0 {
      var n := |files| - 1;
      var init := files[..n];
      var rest := Collect(init, deep, start, end);
      CollectMembers(init, deep, start, end);
      var r := Collect(files, deep, start, end);
      CollectLast(files, deep, start, end);
      forall s | s in r ensures exists k :: KeptAt(files, k, deep, start, end, s) {
        if s in rest {
          var k :| KeptAt(init, k, deep, start, end, s);
          assert init[k] == files[k];
          assert KeptAt(files, k, deep, start, end, s);
        }
      }
      forall s, k | KeptAt(files, k, deep, start, end, s) ensures s in r {
        if k < n {
          assert init[k] == files[k];
          assert KeptAt(init, k, deep, start, end, s);
          assert s in rest;
        } else {
          assert k == |files| - 1;
        }
      }
    }
  }

  /** Every summary kept has no date or a date inside the window. */
  lemma CollectRespectsWindow(files: seq<Listed>, deep: bool, start: Option<Date>, end: Option<Date>, s: FileSummary)
    requires s in Collect(files, deep, start, end) && s.date.Some?
    ensures start.Some? ==> DateLe(start.value, s.date.value)
    ensures end.Some? ==> DateLe(s.date.value, end.value)
  {
  }

  // ---------------------------------------------------------------------
  // Layout (06_summarize.py)
  // ---------------------------------------------------------------------

  const EntityDirs := ["FFIEC_031_041", "FFIEC_002", "FRB_2886b"]

  /** The layout with one subdirectory per entity is chosen when any of
      the three directories exists. */
  predicate HasSubdirectories(dirs: map<string, seq<string>>) {
    exists k :: 0 <= k < |EntityDirs| && EntityDirs[k] in dirs
  }

  /** The position of an entity directory in the listing order; 3 for a
      name that is none of them, and for no directory at all. */
  function TagRank(t: Option<string>): (n: nat)
    ensures n < |EntityDirs| <==> t.Some? && t.value in EntityDirs
    ensures n < |EntityDirs| ==> EntityDirs[n] == t.value
  {
    if t == Some("FFIEC_031_041") then 0
    else if t == Some("FFIEC_002") then 1
    else if t == Some("FRB_2886b") then 2
    else 3
  }

  /** One directory's files, sorted and tagged with it. */
  function TaggedBlock(files: seq<string>, d: string): (r: seq<(string, Option<string>)>)
    ensures forall f, e :: (f, e) in r <==> e == Some(d) && f in files
    ensures forall i :: 0 <= i < |r| ==> r[i].1 == Some(d)
    ensures forall i, j :: 0 <= i < j < |r| ==> StrLe(r[i].0, r[j].0)
  {
    var sorted := SortStrings(files);
    assert forall f :: f in sorted <==> f in multiset(files);
    TagWithMembers(sorted, d);
    TagWith(sorted, d)
  }

  /** Every name of `xs`, in order, tagged with `d`. */
  function TagWith(xs: seq<string>, d: string): (r: seq<(string, Option<string>)>)
    ensures |r| == |xs| && forall i :: 0 <= i < |r| ==> r[i] == (xs[i], Some(d))
  {
    seq(|xs|, i requires 0 <= i < |xs| => (xs[i], Some(d)))
  }

  lemma TagWithMembers(xs: seq<string>, d: string)
    ensures forall f, e :: (f, e) in TagWith(xs, d) <==> e == Some(d) && f in xs
  {
    var r := TagWith(xs, d);
    forall f | f in xs ensures (f, Some(d)) in r {
      var i :| 0 <= i < |xs| && xs[i] == f;
      assert r[i] == (f, Some(d));
    }
  }

  /** The files of the entity directories from index `k` on: the
      directories in their fixed order, each one's files sorted and tagged
      with it. */
  function SubdirectoryFiles(dirs: map<string, seq<string>>, k: nat): (r: seq<(string, Option<string>)>)
    requires k <= |EntityDirs|
    ensures forall i :: 0 <= i < |r| ==> k <= TagRank(r[i].1) < |EntityDirs|
    decreases |EntityDirs| - k
  {
    if k == |EntityDirs| then []
    else
      var d := EntityDirs[k];
      var rest := SubdirectoryFiles(dirs, k + 1);
      if d in dirs then
        var block := TaggedBlock(dirs[d], d);
        assert forall i :: 0 <= i < |block| ==> TagRank(block[i].1) == k;
        block + rest
      else rest
  }

  /** A file is listed under a directory exactly when it is one of that
      directory's files. */
  lemma {:induction false} SubdirectoryFilesMembers(dirs: map<string, seq<string>>, k: nat)
    requires k <= |EntityDirs|
    ensures var r := SubdirectoryFiles(dirs, k);
            forall f, e :: (f, e) in r <==> e.Some? && e.value in EntityDirs[k..] && e.value in dirs && f in dirs[e.value]
    decreases |EntityDirs| - k
  {
    if k < |EntityDirs| {
      SubdirectoryFilesMembers(dirs, k + 1);
      assert forall x :: x in EntityDirs[k..] <==> x == EntityDirs[k] || x in EntityDirs[k + 1..];
    }
  }

  /** The directories come in their fixed order, and one directory's files
      in sorted order. */
  predicate ListingOrdered(r: seq<(string, Option<string>)>) {
    && (forall i, j :: 0 <= i < j < |r| ==> TagRank(r[i].1) <= TagRank(r[j].1))
    && (forall i, j :: 0 <= i < j < |r| && r[i].1 == r[j].1 ==> StrLe(r[i].0, r[j].0))
  }

  /** A block of one rank followed by a listing of higher ranks. */
  lemma ListingOrderedConcat(a: seq<(string, Option<string>)>, b: seq<(string, Option<string>)>, k: nat)
    requires ListingOrdered(a) && ListingOrdered(b)
    requires forall i :: 0 <= i < |a| ==> TagRank(a[i].1) == k
    requires forall j :: 0 <= j < |b| ==> k < TagRank(b[j].1)
    ensures ListingOrdered(a + b)
  {
    var r := a + b;
    forall i, j | 0 <= i < j < |r| ensures TagRank(r[i].1) <= TagRank(r[j].1) {
      if i < |a| <= j {
        assert r[j] == b[j - |a|];
      } else if |a| <= i {
        assert r[i] == b[i - |a|] && r[j] == b[j - |a|];
      }
    }
    forall i, j | 0 <= i < |a| <= j < |r| ensures r[i].1 != r[j].1 {
      assert r[j] == b[j - |a|];
    }
    forall i, j | 0 <= i < j < |r| && r[i].1 == r[j].1 ensures StrLe(r[i].0, r[j].0) {
      if |a| <= i {
        assert r[i] == b[i - |a|] && r[j] == b[j - |a|];
      }
    }
  }

  lemma {:induction false} SubdirectoryFilesOrdered(dirs: map<string, seq<string>>, k: nat)
    requires k <= |EntityDirs|
    ensures ListingOrdered(SubdirectoryFiles(dirs, k))
    decreases |EntityDirs| - k
  {
    if k < |EntityDirs| {
      SubdirectoryFilesOrdered(dirs, k + 1);
      if EntityDirs[k] in dirs {
        var block := TaggedBlock(dirs[EntityDirs[k]], EntityDirs[k]);
        assert forall i :: 0 <= i < |block| ==> TagRank(block[i].1) == k;
        ListingOrderedConcat(block, SubdirectoryFiles(dirs, k + 1), k);
      }
    }
  }

  /** The listing of the input directory. `dirs` maps each entity
      directory that exists to its parquet files; `flat` holds the parquet
      files at the top. In the subdirectory layout a file is listed under a
      tag exactly when it is in that entity directory, the directories in
      their fixed order and each one's files sorted; in the flat layout
      every file is listed once, untagged, in sorted order. */
  function ListFiles(dirs: map<string, seq<string>>, flat: seq<string>): (r: seq<(string, Option<string>)>)
    ensures HasSubdirectories(dirs) ==> forall i :: 0 <= i < |r| ==> r[i].1.Some? && r[i].1.value in EntityDirs
    ensures HasSubdirectories(dirs) ==>
              forall f, e :: (f, Some(e)) in r <==> e in EntityDirs && e in dirs && f in dirs[e]
    ensures HasSubdirectories(dirs) ==> forall i, j :: 0 <= i < j < |r| ==> TagRank(r[i].1) <= TagRank(r[j].1)
    ensures forall i, j :: 0 <= i < j < |r| && r[i].1 == r[j].1 ==> StrLe(r[i].0, r[j].0)
    ensures !HasSubdirectories(dirs) ==> |r| == |flat| && forall i :: 0 <= i < |r| ==> r[i].1.None?
    ensures !HasSubdirectories(dirs) ==> multiset(seq(|r|, i requires 0 <= i < |r| => r[i].0)) == multiset(flat)
  {
    if HasSubdirectories(dirs) then
      SubdirectoryFilesMembers(dirs, 0);
      SubdirectoryFilesOrdered(dirs, 0);
      assert EntityDirs[0..] == EntityDirs;
      SubdirectoryFiles(dirs, 0)
    else
      var names := SortStrings(flat);
      var r := seq(|names|, i requires 0 <= i < |names| => (names[i], None));
      assert seq(|r|, i requires 0 <= i < |r| => r[i].0) == names;
      r
  }

  // ---------------------------------------------------------------------
  // Order
  // ---------------------------------------------------------------------

  /** `sort_values('date')`: chronological, a missing date last. */
  predicate DateOptLe(a: Option<Date>, b: Option<Date>) {
    if a.None? then b.None? else b.None? || DateLe(a.value, b.value)
  }

  predicate ByDate(a: FileSummary, b: FileSummary) {
    DateOptLe(a.date, b.date)
  }

  /** `sort_values(['entity_type', 'date'])`. */
  predicate ByEntityThenDate(a: FileSummary, b: FileSummary) {
    if a.entity == b.entity then DateOptLe(a.date, b.date) else StrLe(a.entity, b.entity)
  }

  lemma DateOptLeTotalTransitive(a: Option<Date>, b: Option<Date>, c: Option<Date>)
    ensures DateOptLe(a, b) || DateOptLe(b, a)
    ensures DateOptLe(a, b) && DateOptLe(b, c) ==> DateOptLe(a, c)
  {
  }

  lemma ByDateIsTotalPreorder()
    ensures TotalPreorder(ByDate)
  {
    forall a, b, c ensures (ByDate(a, b) || ByDate(b, a)) && (ByDate(a, b) && ByDate(b, c) ==> ByDate(a, c)) {
      DateOptLeTotalTransitive(a.date, b.date, c.date);
    }
  }

  lemma ByEntityThenDateIsTotalPreorder()
    ensures TotalPreorder(ByEntityThenDate)
  {
    forall a, b ensures ByEntityThenDate(a, b) || ByEntityThenDate(b, a) {
      StrLeTotal(a.entity, b.entity);
      DateOptLeTotalTransitive(a.date, b.date, a.date);
    }
    forall a, b, c | ByEntityThenDate(a, b) && ByEntityThenDate(b, c) ensures ByEntityThenDate(a, c) {
      DateOptLeTotalTransitive(a.date, b.date, c.date);
      if a.entity != b.entity && b.entity != c.entity {
        StrLeTransitive(a.entity, b.entity, c.entity);
        if a.entity == c.entity {
          StrLeAntisymmetric(a.entity, b.entity);
        }
      }
    }
  }

  /** The report order of 06_summarize.py: grouped by tag, chronological
      within a tag, nothing added or lost. */
  function Ordered(xs: seq<FileSummary>): (r: seq<FileSummary>)
    ensures SortedBy(r, ByEntityThenDate)
    ensures multiset(r) == multiset(xs)
  {
    ByEntityThenDateIsTotalPreorder();
    SortBy(xs, ByEntityThenDate)
  }

  /** In the report order all summaries of one tag are adjacent: none of
      another tag sits between two of the same tag. */
  lemma OrderedGroupsEntities(xs: seq<FileSummary>, i: int, j: int, k: int)
    requires 0 <= i < j < k < |Ordered(xs)|
    requires Ordered(xs)[i].entity == Ordered(xs)[k].entity
    ensures Ordered(xs)[j].entity == Ordered(xs)[i].entity
  {
    var r := Ordered(xs);
    ByEntityThenDateIsTotalPreorder();
    assert ByEntityThenDate(r[i], r[j]) && ByEntityThenDate(r[j], r[k]);
    if r[j].entity != r[i].entity {
      StrLeAntisymmetric(r[i].entity, r[j].entity);
    }
  }

  /** The chronological order of summarize.py and of each tag's series. */
  function ByDateOrder(xs: seq<FileSummary>): (r: seq<FileSummary>)
    ensures SortedBy(r, ByDate)
    ensures multiset(r) == multiset(xs)
    ensures |r| == |xs|
  {
    ByDateIsTotalPreorder();
    SortBy(xs, ByDate)
  }

  // ---------------------------------------------------------------------
  // Missing quarters
  // ---------------------------------------------------------------------

  predicate AllValid(qs: seq<QuarterId>) {
    forall k :: 0 <= k < |qs| ==> ValidQuarter(qs[k])
  }

  /** Position `i` is followed by something other than the next quarter. */
  predicate BreakAt(qs: seq<QuarterId>, i: int)
    requires AllValid(qs)
  {
    0 <= i < |qs| - 1 && qs[i + 1] != NextQuarter(qs[i])
  }

  /** The gap check: for each adjacent pair whose second quarter is not
      the successor of the first, the successor is reported. */
  function Gaps(qs: seq<QuarterId>): (g: seq<QuarterId>)
    requires AllValid(qs)
    ensures |qs| <= 1 ==> g == []
    ensures |qs| >= 1 ==> |g| <= |qs| - 1
    ensures forall x :: x in g <==> exists i :: BreakAt(qs, i) && x == NextQuarter(qs[i])
  {
    if |qs| <= 1 then []
    else
      var init := qs[..|qs| - 1];
      var rest := Gaps(init);
      assert forall i :: 0 <= i < |init| ==> init[i] == qs[i];
      assert forall i :: BreakAt(init, i) <==> BreakAt(qs, i) && i < |qs| - 2;
      var a := qs[|qs| - 2];
      if qs[|qs| - 1] != NextQuarter(a) then
        assert BreakAt(qs, |qs| - 2);
        rest + [NextQuarter(a)]
      else rest
  }

  /** The number of breaks at positions before `n`. */
  function BreaksBefore(qs: seq<QuarterId>, n: nat): (c: nat)
    requires AllValid(qs) && n <= |qs|
    ensures c <= n
  {
    if n == 0 then 0 else BreaksBefore(qs, n - 1) + (if BreakAt(qs, n - 1) then 1 else 0)
  }

  /** One report per break, in series order: the report of the break at
      `i` is the one after the reports of all earlier breaks, and there are
      as many reports as breaks. A quarter that breaks twice is reported
      twice. */
  lemma {:induction false} GapsPerBreak(qs: seq<QuarterId>)
    requires AllValid(qs)
    ensures |qs| >= 1 ==> |Gaps(qs)| == BreaksBefore(qs, |qs| - 1)
    ensures forall i :: BreakAt(qs, i) ==>
              BreaksBefore(qs, i) < |Gaps(qs)| && Gaps(qs)[BreaksBefore(qs, i)] == NextQuarter(qs[i])
  {
    if |qs| > 1 {
      var init := qs[..|qs| - 1];
      GapsPerBreak(init);
      BreaksBeforePrefix(qs, |qs| - 2);
      forall i | BreakAt(qs, i) && i < |qs| - 2
        ensures BreaksBefore(qs, i) < |Gaps(qs)| && Gaps(qs)[BreaksBefore(qs, i)] == NextQuarter(qs[i])
      {
        BreaksBeforePrefix(qs, i);
        assert BreakAt(init, i);
      }
    }
  }

  /** Breaks before `n <= |qs| - 2` are counted alike in `qs` and in `qs`
      without its last quarter. */
  lemma {:induction false} BreaksBeforePrefix(qs: seq<QuarterId>, n: nat)
    requires AllValid(qs) && n + 2 <= |qs|
    ensures BreaksBefore(qs[..|qs| - 1], n) == BreaksBefore(qs, n)
  {
    if n > 0 {
      BreaksBeforePrefix(qs, n - 1);
      assert qs[..|qs| - 1][n - 1] == qs[n - 1] && qs[..|qs| - 1][n] == qs[n];
    }
  }

  /** A repeated quarter followed by a hole breaks twice, so its successor is
      reported twice. */
  lemma GapsRepeatedExample()
    ensures Gaps([QuarterId(2020, 1), QuarterId(2020, 1), QuarterId(2020, 3)]) == [QuarterId(2020, 2), QuarterId(2020, 2)]
  {
    var qs := [QuarterId(2020, 1), QuarterId(2020, 1), QuarterId(2020, 3)];
    var init := qs[..2];
    assert init == [QuarterId(2020, 1), QuarterId(2020, 1)];
    assert init[..1] == [QuarterId(2020, 1)];
    assert Gaps(init[..1]) == [];
    assert NextQuarter(QuarterId(2020, 1)) == QuarterId(2020, 2);
    assert Gaps(init) == [QuarterId(2020, 2)];
  }

  /** A run of consecutive quarters reports nothing, and only such a run
      reports nothing. */
  lemma ConsecutiveIffNoGaps(qs: seq<QuarterId>)
    requires AllValid(qs)
    ensures Gaps(qs) == [] <==> forall i :: 0 <= i < |qs| - 1 ==> qs[i + 1] == NextQuarter(qs[i])
  {
    if Gaps(qs) != [] {
      assert Gaps(qs)[0] in Gaps(qs);
    }
    if exists i :: 0 <= i < |qs| - 1 && qs[i + 1] != NextQuarter(qs[i]) {
      var i :| 0 <= i < |qs| - 1 && qs[i + 1] != NextQuarter(qs[i]);
      assert BreakAt(qs, i);
      assert NextQuarter(qs[i]) in Gaps(qs);
    }
  }

  /** Strictly increasing quarters, as a sorted series of distinct
      quarters is. */
  predicate Increasing(qs: seq<QuarterId>) {
    forall i, j :: 0 <= i < j < |qs| ==> QuarterIndex(qs[i]) < QuarterIndex(qs[j])
  }

  /** On a strictly increasing series every hole is reported by its first
      missing quarter, every reported quarter is really missing, and
      nothing past the last quarter is ever reported. */
  lemma GapsOfIncreasing(qs: seq<QuarterId>)
    requires AllValid(qs) && Increasing(qs)
    ensures forall i :: 0 <= i < |qs| - 1 && QuarterIndex(qs[i + 1]) > QuarterIndex(qs[i]) + 1 ==>
              NextQuarter(qs[i]) in Gaps(qs)
    ensures forall x :: x in Gaps(qs) ==> x !in qs
    ensures forall x :: x in Gaps(qs) ==> QuarterIndex(qs[0]) < QuarterIndex(x) < QuarterIndex(qs[|qs| - 1])
  {
    forall i | 0 <= i < |qs| - 1 && QuarterIndex(qs[i + 1]) > QuarterIndex(qs[i]) + 1
      ensures NextQuarter(qs[i]) in Gaps(qs)
    {
      assert BreakAt(qs, i);
    }
    forall x | x in Gaps(qs)
      ensures x !in qs
      ensures QuarterIndex(qs[0]) < QuarterIndex(x) < QuarterIndex(qs[|qs| - 1])
    {
      var i :| BreakAt(qs, i) && x == NextQuarter(qs[i]);
      BreakOfIncreasing(qs, i);
    }
  }

  /** In a strictly increasing series the successor of a quarter followed
      by a break lies strictly inside the series and is not in it. */
  lemma BreakOfIncreasing(qs: seq<QuarterId>, i: int)
    requires AllValid(qs) && Increasing(qs) && BreakAt(qs, i)
    ensures NextQuarter(qs[i]) !in qs
    ensures QuarterIndex(qs[0]) < QuarterIndex(NextQuarter(qs[i])) < QuarterIndex(qs[|qs| - 1])
  {
    var x := NextQuarter(qs[i]);
    assert QuarterIndex(qs[i + 1]) != QuarterIndex(x) by {
      if QuarterIndex(qs[i + 1]) == QuarterIndex(x) {
        QuarterIndexInjective(qs[i + 1], x);
      }
    }
    assert QuarterIndex(qs[i + 1]) > QuarterIndex(x);
    forall j | 0 <= j < |qs| ensures qs[j] != x {
      if j <= i {
        assert QuarterIndex(qs[j]) <= QuarterIndex(qs[i]);
      } else {
        assert QuarterIndex(qs[j]) >= QuarterIndex(qs[i + 1]);
      }
    }
    assert QuarterIndex(qs[0]) <= QuarterIndex(qs[i]);
    assert QuarterIndex(qs[i + 1]) <= QuarterIndex(qs[|qs| - 1]);
  }

  /** A quarter that appears twice in a row is followed by a reported gap,
      although the quarter after it need not be missing. */
  lemma RepeatedQuarterReported(qs: seq<QuarterId>, i: int)
    requires AllValid(qs) && 0 <= i < |qs| - 1 && qs[i + 1] == qs[i]
    ensures NextQuarter(qs[i]) in Gaps(qs)
  {
    assert QuarterIndex(NextQuarter(qs[i])) == QuarterIndex(qs[i]) + 1;
    assert BreakAt(qs, i);
  }

  /** A two-quarter hole is reported once, by its first quarter. */
  lemma GapsExample()
    ensures Gaps([QuarterId(2019, 4), QuarterId(2020, 1), QuarterId(2020, 3)]) == [QuarterId(2020, 2)]
  {
    var qs := [QuarterId(2019, 4), QuarterId(2020, 1), QuarterId(2020, 3)];
    var init := qs[..2];
    assert init == [QuarterId(2019, 4), QuarterId(2020, 1)];
    assert init[..1] == [QuarterId(2019, 4)];
    assert Gaps(init[..1]) == [];
    assert NextQuarter(QuarterId(2019, 4)) == QuarterId(2020, 1);
    assert Gaps(init) == [];
    assert NextQuarter(QuarterId(2020, 1)) == QuarterId(2020, 2);
  }

  /** The quarters of a series of summaries that all carry a date. */
  function QuartersOf(xs: seq<FileSummary>): (qs: seq<QuarterId>)
    requires forall k :: 0 <= k < |xs| ==> xs[k].date.Some? && 1 <= xs[k].date.value.month <= 12
    ensures |qs| == |xs| && AllValid(qs)
    ensures forall k :: 0 <= k < |xs| ==> qs[k] == QuarterOfDate(xs[k].date.value)
  {
    seq(|xs|, k requires 0 <= k < |xs| => QuarterOfDate(xs[k].date.value))
  }

  /** Every summary carries a calendar date. */
  predicate Dated(xs: seq<FileSummary>) {
    forall s :: s in xs ==> s.date.Some? && 1 <= s.date.value.month <= 12
  }

  lemma DatedPermutation(xs: seq<FileSummary>, ys: seq<FileSummary>)
    requires Dated(xs) && multiset(ys) == multiset(xs)
    ensures Dated(ys)
  {
    forall k | 0 <= k < |ys| ensures ys[k].date.Some? && 1 <= ys[k].date.value.month <= 12 {
      assert ys[k] in multiset(xs);
      var j :| 0 <= j < |xs| && xs[j] == ys[k];
    }
  }

  /** The gap check of summarize.py and of the flat layout of
      06_summarize.py: over the whole series in date order. */
  function SeriesGaps(xs: seq<FileSummary>): (g: seq<QuarterId>)
    requires Dated(xs)
    ensures |xs| <= 1 ==> g == []
    ensures |xs| >= 1 ==> |g| <= |xs| - 1
  {
    var sorted := ByDateOrder(xs);
    DatedPermutation(xs, sorted);
    Gaps(QuartersOf(sorted))
  }

  /** The summaries of one tag, in their order. */
  function OfEntity(xs: seq<FileSummary>, e: string): (r: seq<FileSummary>)
    ensures forall s :: s in r <==> s in xs && s.entity == e
    ensures Dated(xs) ==> Dated(r)
    ensures |r| <= |xs|
  {
    if |xs| == 0 then []
    else
      var rest := OfEntity(xs[1..], e);
      assert forall s :: s in xs <==> s == xs[0] || s in xs[1..];
      if xs[0].entity == e then
        var r := [xs[0]] + rest;
        assert forall k :: 1 <= k < |r| ==> r[k] == rest[k - 1];
        r
      else rest
  }

  /** Taking one tag's summaries twice changes nothing. */
  lemma {:induction false} OfEntityIdempotent(xs: seq<FileSummary>, e: string)
    ensures OfEntity(OfEntity(xs, e), e) == OfEntity(xs, e)
  {
    if |xs| > 0 {
      OfEntityIdempotent(xs[1..], e);
      if xs[0].entity == e {
        assert ([xs[0]] + OfEntity(xs[1..], e))[1..] == OfEntity(xs[1..], e);
      }
    }
  }

  /** The gap check of the entity layout: each tag's own series in date
      order; a tag with fewer than two summaries reports nothing. */
  function EntityGaps(xs: seq<FileSummary>, e: string): (g: seq<QuarterId>)
    requires Dated(xs)
    ensures |OfEntity(xs, e)| < 2 ==> g == []
    ensures |OfEntity(xs, e)| >= 1 ==> |g| <= |OfEntity(xs, e)| - 1
  {
    var own := OfEntity(xs, e);
    if |own| < 2 then [] else SeriesGaps(own)
  }

  /** A tag's gaps depend on that tag's summaries alone. */
  lemma EntityGapsOwnSeries(xs: seq<FileSummary>, e: string)
    requires Dated(xs)
    ensures EntityGaps(xs, e) == EntityGaps(OfEntity(xs, e), e)
  {
    OfEntityIdempotent(xs, e);
  }

  /** The tags with something to report, each with its gaps. */
  function AllEntityGaps(xs: seq<FileSummary>): (m: map<string, seq<QuarterId>>)
    requires Dated(xs)
    ensures forall e :: e in m <==> (exists s :: s in xs && s.entity == e) && |EntityGaps(xs, e)| > 0
    ensures forall e :: e in m ==> m[e] == EntityGaps(xs, e) && |OfEntity(xs, e)| >= 2
  {
    map e | e in (set s | s in xs :: s.entity) && |EntityGaps(xs, e)| > 0 :: EntityGaps(xs, e)
  }
}

=== FILE: tables.dfy ===
/** A data frame reduced to what the pipeline's decisions look at: an ordered
    list of column names and rows that map names to cell values. A name a
    row does not map reads as a missing cell (NaN / None / NaT). */
module Tables {
  import opened Common

  datatype Value = Missing | Num(n: int) | Text(s: string) | Stamp(d: Date)

  type Row = map<string, Value>

  datatype Table = Table(columns: seq<string>, rows: seq<Row>)

  function Cell(r: Row, c: string): Value {
    if c in r then r[c] else Missing
  }

  /** Two-digit zero padding as a Timestamp prints month and day. */
  function Pad2(n: int): string {
    if 0 <= n < 100 then TwoDigits(n) else IntToDecimal(n)
  }

  /** `str(value)` as `Series.astype(str)` renders a cell: a missing cell
      becomes the text "nan". */
  function AsStr(v: Value): (s: string)
    ensures v.Text? ==> s == v.s
    ensures v.Missing? ==> s == "nan"
  {
    match v
    case Missing => "nan"
    case Num(n) => IntToDecimal(n)
    case Text(t) => t
    case Stamp(d) => IntToDecimal(d.year) + "-" + Pad2(d.month) + "-" + Pad2(d.day) + " 00:00:00"
  }

  /** `df[name] = ...`: an existing column keeps its position, a new one is
      appended at the end. */
  function AddColumn(cols: seq<string>, name: string): (r: seq<string>)
    ensures name in r
    ensures forall c :: c in r <==> c in cols || c == name
    ensures Distinct(cols) ==> Distinct(r)
  {
    if name in cols then cols else cols + [name]
  }

  /** `df.columns = df.columns.str.upper()` on the name list. */
  function UpperAll(cols: seq<string>): (r: seq<string>)
    ensures |r| == |cols|
    ensures forall i :: 0 <= i < |cols| ==> r[i] == Upper(cols[i])
  {
    seq(|cols|, i requires 0 <= i < |cols| => Upper(cols[i]))
  }

  /** The first column whose upper-cased name is `u` (`u` itself if none). */
  function FirstWithUpper(cols: seq<string>, u: string): (c: string)
    ensures (exists i :: 0 <= i < |cols| && Upper(cols[i]) == u) ==> c in cols && Upper(c) == u
  {
    if |cols| == 0 then u
    else if Upper(cols[0]) == u then cols[0]
    else FirstWithUpper(cols[1..], u)
  }

  /** A row re-keyed by upper-cased column names. */
  function UpperRow(r: Row, cols: seq<string>): Row {
    map u | u in (set c | c in cols :: Upper(c)) :: Cell(r, FirstWithUpper(cols, u))
  }

  /** Upper-cases every column name, carrying the cells along. */
  function Uppercase(t: Table): (r: Table)
    ensures r.columns == UpperAll(t.columns)
    ensures |r.rows| == |t.rows|
  {
    Table(UpperAll(t.columns), seq(|t.rows|, i requires 0 <= i < |t.rows| => UpperRow(t.rows[i], t.columns)))
  }

  /** When the upper-cased names do not collide, every cell is found under
      the upper-cased name of its column. */
  lemma UpperRowCell(r: Row, cols: seq<string>, i: int)
    requires Distinct(UpperAll(cols)) && 0 <= i < |cols|
    ensures Cell(UpperRow(r, cols), Upper(cols[i])) == Cell(r, cols[i])
  {
    var u := Upper(cols[i]);
    assert u in (set c | c in cols :: Upper(c));
    FirstWithUpperIndex(cols, u, i);
  }

  lemma {:induction false} FirstWithUpperIndex(cols: seq<string>, u: string, i: int)
    requires Distinct(UpperAll(cols)) && 0 <= i < |cols| && Upper(cols[i]) == u
    ensures FirstWithUpper(cols, u) == cols[i]
    decreases |cols|
  {
    if Upper(cols[0]) != u {
      assert i > 0;
      assert UpperAll(cols[1..]) == UpperAll(cols)[1..];
      FirstWithUpperIndex(cols[1..], u, i - 1);
    }
  }

  /** A cell is found under the upper-cased name of any column, as long as the
      upper-cased names do not collide. */
  lemma UpperRowCellOf(r: Row, cols: seq<string>, c: string)
    requires Distinct(UpperAll(cols)) && c in cols
    ensures Cell(UpperRow(r, cols), Upper(c)) == Cell(r, c)
  {
    var i :| 0 <= i < |cols| && cols[i] == c;
    UpperRowCell(r, cols, i);
  }

  lemma UpperAllConcat(a: seq<string>, b: seq<string>)
    ensures UpperAll(a + b) == UpperAll(a) + UpperAll(b)
  {
  }

  /** Appending a name whose upper-cased form is new keeps the upper-cased
      names distinct. */
  lemma UpperAllSnocDistinct(cols: seq<string>, name: string)
    requires Distinct(UpperAll(cols))
    requires forall c :: c in cols ==> Upper(c) != Upper(name)
    ensures Distinct(UpperAll(cols + [name]))
  {
    var u := UpperAll(cols + [name]);
    forall i, j | 0 <= i < j < |u| ensures u[i] != u[j] {
      if j == |cols| {
        assert cols[i] in cols;
      } else {
        assert u[i] == UpperAll(cols)[i] && u[j] == UpperAll(cols)[j];
      }
    }
  }

  /** `[c for c in cols if c not in front]`. */
  function Without(cols: seq<string>, front: seq<string>): (r: seq<string>)
    ensures forall c :: c in r <==> c in cols && c !in front
    ensures |r| <= |cols|
    ensures Subsequence(r, cols)
    ensures Distinct(cols) ==> Distinct(r)
  {
    if |cols| == 0 then []
    else
      var rest := Without(cols[1..], front);
      assert forall c :: c in cols <==> c == cols[0] || c in cols[1..];
      assert Distinct(cols) ==> cols[0] !in cols[1..] && Distinct(cols[1..]) by {
        if Distinct(cols) {
          forall i, j | 0 <= i < j < |cols[1..]| ensures cols[1..][i] != cols[1..][j] {
            assert cols[i + 1] != cols[j + 1];
          }
        }
      }
      if cols[0] in front then rest
      else
        var r := [cols[0]] + rest;
        assert r[1..] == rest;
        r
  }

  /** Nothing is left when every name is in the front. */
  lemma WithoutCovered(cols: seq<string>, front: seq<string>)
    requires forall i :: 0 <= i < |cols| ==> cols[i] in front
    ensures Without(cols, front) == []
  {
    var w := Without(cols, front);
    assert forall c :: c !in w;
  }

  lemma {:induction false} WithoutConcat(a: seq<string>, b: seq<string>, front: seq<string>)
    ensures Without(a + b, front) == Without(a, front) + Without(b, front)
    decreases |a|
  {
    if |a| > 0 {
      assert (a + b)[1..] == a[1..] + b;
      WithoutConcat(a[1..], b, front);
    } else {
      assert a + b == b;
    }
  }

  /** `[m for m in front if m in cols]`. */
  function Present(front: seq<string>, cols: seq<string>): (r: seq<string>)
    ensures forall c :: c in r <==> c in front && c in cols
    ensures Distinct(front) ==> Distinct(r)
  {
    if |front| == 0 then []
    else
      var rest := Present(front[1..], cols);
      assert forall c :: c in front <==> c == front[0] || c in front[1..];
      assert Distinct(front) ==> front[0] !in front[1..] && Distinct(front[1..]) by {
        if Distinct(front) {
          forall i, j | 0 <= i < j < |front[1..]| ensures front[1..][i] != front[1..][j] {
            assert front[i + 1] != front[j + 1];
          }
        }
      }
      if front[0] in cols then [front[0]] + rest else rest
  }

  /** The present names of a two-name front, in the front's order. */
  lemma PresentPair(a: string, b: string, cols: seq<string>)
    ensures Present([a, b], cols) == (if a in cols then [a] else []) + (if b in cols then [b] else [])
  {
    assert [a, b][1..] == [b] && [b][1..] == [];
    assert Present([b], cols) == (if b in cols then [b] else []) by {
      assert Present([], cols) == [];
    }
  }

  /** `[m for m in front if m in cols] + [c for c in cols if c not in front]`:
      the metadata columns that exist, moved to the front, then every other
      column in its original relative order. */
  function MoveToFront(cols: seq<string>, front: seq<string>): (r: seq<string>)
    ensures forall c :: c in r <==> c in cols
    ensures Distinct(cols) && Distinct(front) ==> Distinct(r)
  {
    var present := Present(front, cols);
    var others := Without(cols, front);
    assert forall i, j :: 0 <= i < |present| && 0 <= j < |others| ==> present[i] != others[j] by {
      forall i, j | 0 <= i < |present| && 0 <= j < |others| ensures present[i] != others[j] {
        assert present[i] in front;
        assert others[j] !in front;
      }
    }
    present + others
  }
}
